=== FILE: README.md ===
# Creature collection and turn-based combat: a Dafny model

This project models the game logic of a Unity creature-collection game,
written in C#. The model covers these parts:

- Party and PC box storage, with compaction, box unlock tiers and the masked save format.
- The storage manager: capture, move between storages, release, and save/load.
- The drag-and-drop and move-grid index logic of the storage and move UIs.
- Creature records: stats, level-up, experience, initial attacks.
- The healer, the item database and the player inventory.
- Combat:
  - damage, accuracy and STAB in the move executor, and the wild AI's move choice;
  - combatants and their faint latch, and the turn controller;
  - the encounter controller's loop, end and bystander eviction;
  - the combat service with its capture latch, the capture flow of a thrown ball, the combat start hook, and the wild spawner.

The model uses immutable values. Every Unity object is a datatype, and every
method is a pure function from the old state to the new state. The exceptions
are `Storage.CompactInPlace`, `Instance.GainExperience`, `Healer.HealParty` and
`Spawner.SpawnCreatures`, which are methods with loops. The modelling choices:

- A C# `null` reference is `Option.None`.
- An asset compared by reference (an item, an attack) carries an `id`. Distinct assets have distinct ids, so two assets with equal fields are still different records.
- Random draws (`Random.value`, `Random.Range`, critical hit, shake count, spawn roll) are parameters.
- Float arithmetic uses exact reals.
- `Mathf.RoundToInt` rounds half to even.
- A coroutine runs to its next observable point in one step.

Modules follow the source files:

| module | source |
|---|---|
| `Common` | shared `Option`, `Mathf.Clamp`, `Mathf.Clamp01`, `Random.Range` |
| `Data` | creature, species, attack and stat records |
| `Stats` | `PokemonStats.cs` |
| `Instance` | `PokemonInstance.cs` |
| `Storage` | `PokemonParty` and `PCBox` in `IPokemonStorage.cs` |
| `PCStorage` | `PCStorage` in `IPokemonStorage.cs` |
| `StorageManager` | `PokemonStorageManager.cs` |
| `DragDrop` | `DragDropController.cs` |
| `MoveGrid` | `MoveGridUI.cs` |
| `Healer` | `HealerStation.cs` |
| `ItemDatabase` | `Data/ItemDatabase.cs` |
| `Inventory` | `InventoryManager.cs` |
| `MoveExecutor` | `MoveExecutor.cs` |
| `WildAI` | `WildAI.cs` |
| `Combatant` | `CombatantController.cs` |
| `Turns` | `TurnController.cs` |
| `Behavior` | `CreatureBehavior.cs` |
| `Encounter` | `EncounterController.cs` |
| `CombatService` | `CombatService.cs` |
| `Ball` | `Ball.cs` |
| `Contact` | `CombatContact.cs` |
| `Spawner` | `Spawner.cs` |

## Model

| member | source | states |
|---|---|---|
| Common.Clamp | Assets/Scripts/MoveGridUI.cs:109-114 | `Mathf.Clamp` on ints: the result lies in the range when the range is non-empty, and a value already inside is returned unchanged |
| Common.RangeInt | Assets/Scripts/Spawner.cs:42 | `Random.Range(int, int)` with the draw as a parameter: the result is in `[lo, hi)` for a non-empty range, and `lo` when the bounds are equal |
| Common.RangeIntCovers | Assets/Scripts/Spawner.cs:42 | every value of a non-empty range is produced by some draw |
| Stats.HPStat | Assets/Scripts/PokemonStats.cs:36-39 | the HP stat is the floor of `core * level / 100` plus `level + 10`, so it is at least `level + 10` for non-negative inputs |
| Stats.OtherStat | Assets/Scripts/PokemonStats.cs:41-44 | the other stats are the floor of `core * level / 100` plus 5, so they are at least 5 |
| Stats.CalculateAllStats | Assets/Scripts/PokemonStats.cs:16-33 | HP uses the HP formula, and each of the other five stats uses the other formula with its own base, IV and EV |
| Stats.DefaultStatsLowerBounds | Assets/Scripts/PokemonStats.cs:16-33 | with the default IVs and EVs and non-negative bases, HP is at least `level + 10` and every other stat at least 5 |
| Stats.StatsMonotoneInLevel | Assets/Scripts/PokemonStats.cs:36-44 | raising the level never lowers a stat |
| Stats.StatsMonotoneInBase | Assets/Scripts/PokemonStats.cs:36-44 | raising the base value never lowers a stat |
| Instance.NewInstance | Assets/Scripts/PokemonInstance.cs:28-56 | a new creature has its species and level, zero experience, default IVs and EVs, the calculated stats and full HP; it knows at most four attacks, the first eligible ones in list order |
| Instance.LearnInitialIsFirstEligible | Assets/Scripts/PokemonInstance.cs:45-53 | the constructor's learning loop keeps the first `MaxAttacks` attacks whose level is at most the creature's |
| Instance.RequiredExp | Assets/Scripts/PokemonInstance.cs:101-131 | MediumFast needs exactly `n^3`; Fast needs the floor of `4n^3/5`; Slow needs the floor of `5n^3/4`; the float curves are a parameter |
| Instance.LearnAtLevel | Assets/Scripts/PokemonInstance.cs:87-95 | learning at a level adds only attacks listed for that level, never a duplicate, and never more than four in total; when every listed attack is already known nothing changes |
| Instance.LearnAtLevelLastIsListed | Assets/Scripts/PokemonInstance.cs:87-95 | whenever the known attacks change, the newest one is at the end and is listed at that level |
| Instance.LearnAllLastIn | Assets/Scripts/PokemonInstance.cs:87-95 | learning a list of attacks one by one changes the known attacks only by ending them with one of the listed attacks |
| Instance.LearnOne | Assets/Scripts/PokemonInstance.cs:89-94 | a known attack changes nothing; a new one goes to the end, after the oldest is dropped when four are known |
| Instance.LearnAtLevelIsLearnAll | Assets/Scripts/PokemonInstance.cs:87-95 | the table walk equals the reference definition: filter the table to the level, then learn each listed attack in order |
| Instance.LearnAtLevelWithRoom | Assets/Scripts/PokemonInstance.cs:87-95 | when the known and listed attacks fit in four, the known attacks stay in front and every listed attack is learned |
| Instance.DropsOldest | Assets/Scripts/PokemonInstance.cs:90-93 | with four known attacks and one new listed attack, the oldest is dropped and the new one is appended |
| Instance.LearnAtLevelLearnsAt | Assets/Scripts/PokemonInstance.cs:87-95 | the table walk meets the reference definition `LearnsAt`: the learn-one-by-one equality, the room clause and the nothing-new clause |
| Instance.DistinctAssetsBothLearned | Assets/Scripts/PokemonInstance.cs:87-95 | two distinct attack assets listed at the same level are both learned, even when every field but their identity agrees |
| Instance.LevelUp | Assets/Scripts/PokemonInstance.cs:74-99 | below the cap the level rises by one and the stats are recalculated; current HP rises by exactly the HP-stat gain; the attacks are those of the table walk at the new level; at the cap nothing changes |
| Instance.LevelUpLearns | Assets/Scripts/PokemonInstance.cs:74-99 | a level-up learns exactly the attacks listed at the new level, one by one; when the known attacks change, the newest is at the end and listed at that level |
| Instance.GainExperience | Assets/Scripts/PokemonInstance.cs:63-72 | experience is conserved: the remaining experience plus what the levels gained cost equals the old experience plus the amount; every level climbed was affordable, the experience spent up to it never exceeding what was held after the gain; after a climb the stats are those of the new level with the same IVs and EVs; afterwards the creature is at the cap or lacks the experience for the next level |
| Storage.RemoveAt | Assets/Scripts/IPokemonStorage.cs:36-42 | returns the occupant and empties that slot, leaving every other slot; an invalid index changes nothing and returns null |
| Storage.TryAdd | Assets/Scripts/IPokemonStorage.cs:44-49 | succeeds exactly when there is an empty slot; the creature goes into the lowest empty slot and the count grows by one |
| Storage.TryInsertAt | Assets/Scripts/IPokemonStorage.cs:51-58 | succeeds exactly on a valid index, storing the creature and handing back the old occupant; an invalid index changes nothing |
| Storage.Swap | Assets/Scripts/IPokemonStorage.cs:61-65 | exchanges two slots when both indices are valid, leaves the rest alone, and keeps the multiset of slots |
| Storage.Compact | Assets/Scripts/IPokemonStorage.cs:85-99 | the result has no gap before an occupant and keeps the occupants in order; the changed flag holds exactly when the input had a gap |
| Storage.CompactInPlace | Assets/Scripts/IPokemonStorage.cs:85-99 | the two-index in-place loop computes exactly `Compact` |
| Storage.CompactIdempotent | Assets/Scripts/IPokemonStorage.cs:85-99 | compacting a compacted party changes nothing and reports no change |
| Storage.TryAddToCompacted | Assets/Scripts/IPokemonStorage.cs:44-49 | adding to a compacted storage with room appends the creature after the current occupants and keeps it compacted |
| Storage.SetFromList | Assets/Scripts/IPokemonStorage.cs:68-73 | slot `i` holds the list's entry `i` exactly when that entry exists and has a species, and is empty otherwise |
| Storage.SetFromMasked | Assets/Scripts/IPokemonStorage.cs:75-82 | slot `i` is filled only where the mask (absent entries count as set) and the list both say so and the entry has a species |
| Storage.MaskedRoundTrip | Assets/Scripts/IPokemonStorage.cs:75-82 | loading a storage's own slots with its own occupancy mask gives the storage back |
| Storage.BoxFromData | Assets/Scripts/IPokemonStorage.cs:117-127 | a box built from data copies the first 30 entries and pads with empty slots |
| PCStorage.NewPC | Assets/Scripts/IPokemonStorage.cs:196-200 | a new PC has the initial boxes unlocked, all empty, with box 0 active |
| PCStorage.TargetBoxesTiers | Assets/Scripts/IPokemonStorage.cs:188-194 | the tier table gives 8, 16, 24 and 32 boxes at the thresholds 0, 230, 470 and 710 |
| PCStorage.TargetBoxesMonotone | Assets/Scripts/IPokemonStorage.cs:188-194 | more creatures never need fewer boxes |
| PCStorage.UpdateUnlocks | Assets/Scripts/IPokemonStorage.cs:232-243 | unlocks never decrease and reach the tier target; new boxes are empty and appended; the active box is clamped; no creature is lost |
| PCStorage.UpdateUnlocksIdempotent | Assets/Scripts/IPokemonStorage.cs:232-243 | recalculating twice for the same total is the same as once |
| PCStorage.SetActiveBox | Assets/Scripts/IPokemonStorage.cs:245 | the active index is clamped into the unlocked boxes, and a valid request is honoured |
| PCStorage.AddToFirstAvailable | Assets/Scripts/IPokemonStorage.cs:247-252 | succeeds exactly when an unlocked box has room; the first such box takes the creature and the total grows by one |
| PCStorage.SetFromSave | Assets/Scripts/IPokemonStorage.cs:202-214 | an empty or missing save gives the initial empty boxes; otherwise one box per saved list; the active box is clamped |
| PCStorage.SetFromMasked | Assets/Scripts/IPokemonStorage.cs:216-230 | the same for the masked format, one masked box per entry |
| PCStorage.ToSave | Assets/Scripts/IPokemonStorage.cs:254 | one saved list per box, holding that box's slots |
| PCStorage.LegacyRoundTrip | Assets/Scripts/IPokemonStorage.cs:202-214 | loading the legacy save of a PC restores its boxes |
| StorageManager.NewManager | Assets/Scripts/PokemonStorageManager.cs:18-25 | a new manager holds no creature and has not caught one |
| StorageManager.RecalcUnlocks | Assets/Scripts/PokemonStorageManager.cs:87-91 | unlocks reach the tier target for the current total and existing boxes are kept |
| StorageManager.CapturePokemon | Assets/Scripts/PokemonStorageManager.cs:100-114 | null is ignored; otherwise the first-catch flag is set, the party ends compacted and the total grows by one exactly when the party or an unlocked box had room |
| StorageManager.StoreCaught | Assets/Scripts/PokemonStorageManager.cs:104-111 | a party with room takes the creature (boxes untouched); a full party leaves it to the first unlocked box with room |
| StorageManager.CaptureAppendsToParty | Assets/Scripts/PokemonStorageManager.cs:100-114 | a capture into a compacted party with room appends the creature after the current members |
| StorageManager.Transfer | Assets/Scripts/PokemonStorageManager.cs:144-161 | across storages the creature lands at the target index and the displaced occupant goes back to the source index; other storages are untouched and the total is kept |
| StorageManager.MoveBetween | Assets/Scripts/PokemonStorageManager.cs:121-172 | a refused move changes nothing; every move keeps the total and the first-catch flag; the party is compacted whenever it took part |
| StorageManager.MoveBetweenRefusals | Assets/Scripts/PokemonStorageManager.cs:123-135 | a null storage, an invalid index, or taking the last member out of the party after the first catch refuses the move |
| StorageManager.MoveBetweenSwapsInBox | Assets/Scripts/PokemonStorageManager.cs:137-141 | within one box the two slots are swapped |
| StorageManager.MoveBetweenTransfersBoxes | Assets/Scripts/PokemonStorageManager.cs:142-168 | between two boxes the two slots are exchanged |
| StorageManager.MoveBetweenCommits | Assets/Scripts/PokemonStorageManager.cs:121-172 | a move commits exactly when both storages resolve, both indices are valid, the last-member guard does not fire, and the source slot is filled or the storages are the same |
| StorageManager.MoveBetweenBoxToParty | Assets/Scripts/PokemonStorageManager.cs:142-172 | from a filled box slot to the party, the displaced party member goes back to the box slot and the party holds the box creature in place of the target, compacted |
| StorageManager.MoveBetweenWithinParty | Assets/Scripts/PokemonStorageManager.cs:137-172 | within the party the two slots are swapped and the party is compacted; the boxes are unchanged |
| StorageManager.MoveBetweenPartyToBox | Assets/Scripts/PokemonStorageManager.cs:142-172 | from the party to a box, the creature lands in the box and the party ends compacted |
| StorageManager.ReleaseFrom | Assets/Scripts/PokemonStorageManager.cs:179-192 | a refused release (last party member after the first catch) changes nothing; a real release removes one creature; an invalid call is ignored |
| StorageManager.ReleaseFromBoxEmptiesSlot | Assets/Scripts/PokemonStorageManager.cs:179-192 | releasing from a box empties exactly that slot |
| StorageManager.GetSaveData | Assets/Scripts/PokemonStorageManager.cs:28-55 | the save holds the party slots with their occupancy mask, one masked box per unlocked box, and the first-catch flag |
| StorageManager.LoadedParty | Assets/Scripts/PokemonStorageManager.cs:63-66 | the masked party is `SetFromMasked` of its slots and mask when present and non-empty; otherwise `SetFromList` of the legacy list, or an empty party when there is none |
| StorageManager.LoadedPC | Assets/Scripts/PokemonStorageManager.cs:71-81 | with masked boxes present and non-empty, one box per entry, each `SetFromMasked` of its slots and mask (missing lists taken as empty); otherwise `SetFromSave` of the legacy boxes |
| StorageManager.LoadFromSave | Assets/Scripts/PokemonStorageManager.cs:57-85 | the loaded party is compacted, the loaded boxes come first in order, box 0 is active, the unlocks reach the target and the flag is restored (false for a null save) |
| StorageManager.SaveLoadRoundTrip | Assets/Scripts/PokemonStorageManager.cs:28-85 | loading the save of a compacted manager whose unlocks are current restores it, except that the active box becomes 0 |
| DragDrop.BeginDrag | Assets/Scripts/DragDropController.cs:89-136 | a drag records its source and index |
| DragDrop.FinalizeDrop | Assets/Scripts/DragDropController.cs:249-262 | after a drop the drag state is cleared |
| DragDrop.HandleDrop | Assets/Scripts/DragDropController.cs:151-221 | invalid ends change nothing; every drop keeps the total and ends the drag |
| DragDrop.MinPartyRule | Assets/Scripts/DragDropController.cs:163-174 | with the rule on, a party at the minimum cannot drop a member onto an empty slot elsewhere, but can exchange it with an occupant |
| DragDrop.SameStorageDrop | Assets/Scripts/DragDropController.cs:176-195 | a drop within one storage swaps the two slots |
| DragDrop.CrossStorageDrop | Assets/Scripts/DragDropController.cs:197-221 | a drop across storages exchanges the two slots |
| DragDrop.DropCanLeavePartyUncompacted | Assets/Scripts/DragDropController.cs:197-221 | unlike `MoveBetween`, a drop does not compact the party: moving the first of two members to a box leaves a gap |
| MoveGrid.Refresh | Assets/Scripts/MoveGridUI.cs:41-88 | with a creature the grid has four rows, the first showing its real moves among the first four entries in order, the rest placeholders |
| MoveGrid.ClampToNonNullZone | Assets/Scripts/MoveGridUI.cs:109-114 | the request is clamped to a row showing a real move, or 0 when there is none |
| MoveGrid.FirstNullIndex | Assets/Scripts/MoveGridUI.cs:164-169 | the first empty entry among the first four, or -1 exactly when there is none |
| MoveGrid.LastNonNullIndex | Assets/Scripts/MoveGridUI.cs:170-175 | the last real move among the first four, or -1 exactly when there is none |
| MoveGrid.NotifyDrop | Assets/Scripts/MoveGridUI.cs:117-141 | a drop from a placeholder does nothing; from a real row it always acts, and it swaps exactly when the clamped target row shows another real move; otherwise it moves the entry to the first gap (or after the last move) |
| MoveGrid.NotifyDropDecidesOnRefreshedGrid | Assets/Scripts/MoveGridUI.cs:117-141 | on a refreshed grid a drop from a real row swaps exactly when the clamped target is another row and moves exactly when it is the same row; a drop from any other row only refreshes |
| MoveGrid.NotifyDropOnShownGrid | Assets/Scripts/MoveGridUI.cs:117-141 | on any grid showing the list's real moves, a swap names two distinct real moves, a move names a real move and a destination in 0..3, and a move happens only when a row is dropped on itself |
| MoveGrid.NotifyDropOnRefreshedGrid | Assets/Scripts/MoveGridUI.cs:117-141 | the same for the grid `Refresh` builds from the list |
| Healer.RestorePP | Assets/Scripts/HealerStation.cs:83-91 | every non-null move gets its PP back to its maximum, and null entries stay null |
| Healer.HealParty | Assets/Scripts/HealerStation.cs:62-100 | without a party nothing happens; otherwise every creature is healed to max HP (and PP when asked), the count is the number of creatures, and the message depends on it |
| Healer.HealTwiceIsHealOnce | Assets/Scripts/HealerStation.cs:62-100 | healing a healed party changes nothing |
| ItemDatabase.ByCategory | Assets/Scripts/Data/ItemDatabase.cs:9-12 | only items of the category are returned |
| ItemDatabase.ByCategoryMembers | Assets/Scripts/Data/ItemDatabase.cs:9-12 | an item is returned exactly when it is in the database with the category |
| ItemDatabase.ByCategoryAppend | Assets/Scripts/Data/ItemDatabase.cs:9-12 | the filter distributes over concatenation, so database order is kept |
| ItemDatabase.ByCategoryAllOfCategory | Assets/Scripts/Data/ItemDatabase.cs:9-12 | a database of one category is returned whole |
| ItemDatabase.GetItemByName | Assets/Scripts/Data/ItemDatabase.cs:14-17 | the first item with the name, or none exactly when no item has it |
| Inventory.AddItem | Assets/Scripts/InventoryManager.cs:39-51 | a held item gains the amount in place and its unlocked flag is or-ed; a new item is appended as one entry |
| Inventory.UseItem | Assets/Scripts/InventoryManager.cs:54-63 | succeeds exactly when the first entry with the item's name has a unit, and takes exactly one away |
| Inventory.GetQuantity | Assets/Scripts/InventoryManager.cs:65-69 | the quantity of the first entry with the name, 0 when none |
| Inventory.EntriesByCategory | Assets/Scripts/InventoryManager.cs:73-76 | only entries of the category are returned |
| Inventory.EntriesByCategoryMembers | Assets/Scripts/InventoryManager.cs:73-76 | an entry is returned exactly when it is held with the category |
| Inventory.EntriesByCategoryAppend | Assets/Scripts/InventoryManager.cs:73-76 | the filter keeps inventory order |
| Inventory.UnlockItem | Assets/Scripts/InventoryManager.cs:78-89 | a held item becomes unlocked in place; a new one is appended unlocked with quantity 0 |
| Inventory.LockItem | Assets/Scripts/InventoryManager.cs:91-98 | a held item becomes locked; items and quantities are untouched |
| Inventory.Start | Assets/Scripts/InventoryManager.cs:23-36 | after start every database item is held, nothing held is lost, and items stay unique |
| Inventory.AddItemEffect | Assets/Scripts/InventoryManager.cs:39-51 | `AddItem` adds the amount to the item's entry and ors in the flag; every other item's quantity and flag are unchanged |
| Inventory.StartAddsFive | Assets/Scripts/InventoryManager.cs:23-36 | after `Start`, each item's quantity has grown by five per database listing, and it is unlocked exactly when it was before or the database lists it and `StartUnlocked` holds |
| Inventory.AddItemKeepsItems | Assets/Scripts/InventoryManager.cs:39-51 | adding keeps every held item and adds the new one |
| Inventory.AddItemKeepsUnique | Assets/Scripts/InventoryManager.cs:39-51 | adding never creates a second entry for an item |
| Inventory.OtherOperationsKeepUnique | Assets/Scripts/InventoryManager.cs:54-98 | use, unlock and lock never create a second entry for an item |
| Inventory.AddThenQuantity | Assets/Scripts/InventoryManager.cs:39-69 | when the name is unambiguous, the quantity after adding is the old one plus the amount |
| Inventory.UseThenQuantity | Assets/Scripts/InventoryManager.cs:54-69 | a successful use lowers the quantity by one; a failed use leaves it |
| Inventory.UnlockThenLock | Assets/Scripts/InventoryManager.cs:78-98 | after unlocking the item is unlocked, and locking it again relocks it without touching quantities |
| MoveExecutor.RoundHalfEven | Assets/Scripts/MoveExecutor.cs:46 | the result is within one half of the input, and ties go to the even integer |
| MoveExecutor.RoundMonotone | Assets/Scripts/MoveExecutor.cs:46 | rounding never reverses an order |
| MoveExecutor.CheckAccuracy | Assets/Scripts/MoveExecutor.cs:8-13 | a hit exactly when the roll is at most the accuracy clamped to 1..100 |
| MoveExecutor.AccuracyProperties | Assets/Scripts/MoveExecutor.cs:8-13 | accuracy 100 always hits, and a higher accuracy hits whenever a lower one does |
| MoveExecutor.ConvertElementToPokemonType | Assets/Scripts/MoveExecutor.cs:61-66 | the conversion keeps the ordinal and never gives the none type |
| MoveExecutor.NoSTABFromNoneType | Assets/Scripts/MoveExecutor.cs:51-59 | without a secondary type, STAB applies exactly when the primary type matches the move |
| MoveExecutor.ComputeDamage | Assets/Scripts/MoveExecutor.cs:16-48 | a missing party, a powerless move or a status move deals 0; any other move deals at least 1 |
| MoveExecutor.DamageDependsOnlyOn | Assets/Scripts/MoveExecutor.cs:16-48 | only the floored level, the species, the attacking stat of the move's category and the floored defending stat enter the damage |
| MoveExecutor.BaseDamageMonotone | Assets/Scripts/MoveExecutor.cs:30-38 | the base damage is at least 2 and grows with the attacking stat |
| MoveExecutor.DamageMonotone | Assets/Scripts/MoveExecutor.cs:16-48 | a stronger attacking stat never deals less, and a critical hit never deals less |
| WildAI.FirstUsableFrom | Assets/Scripts/WildAI.cs:3-12 | the first move with data and PP from the given index, or 0 when there is none |
| WildAI.ChooseMoveIndex | Assets/Scripts/WildAI.cs:3-12 | a wild creature without a move list picks 0; otherwise the first usable move, or 0 |
| Combatant.Init | Assets/Scripts/CombatantController.cs:14-20 | a new combatant holds its model, has handled no faint, and is fainted exactly when the model has no HP |
| Combatant.OnFainted | Assets/Scripts/CombatantController.cs:74-96 | the first faint is handled once: the counter grows and the world object is deactivated when there is a transform; later calls change nothing |
| Combatant.ApplyDamage | Assets/Scripts/CombatantController.cs:62-72 | HP drops by the amount and stops at 0; reaching 0 faints; without a model nothing happens |
| Combatant.FaintLatchSticks | Assets/Scripts/CombatantController.cs:62-96 | once fainted, a combatant stays fainted whatever damage follows |
| Combatant.FaintHandledAtMostOnce | Assets/Scripts/CombatantController.cs:62-96 | over any run of damage the faint is handled at most once |
| Turns.ExecuteMove | Assets/Scripts/TurnController.cs:78-113 | an unknown move or refused PP wastes the turn; otherwise PP is spent, and on a hit the defender takes the computed damage |
| Turns.DoPlayerTurn | Assets/Scripts/TurnController.cs:25-65 | without a decision it waits; otherwise the queue is cleared, run raises the run event, and only a move turn touches the battle |
| Turns.DoEnemyTurn | Assets/Scripts/TurnController.cs:68-75 | the enemy spends the entry the wild AI picks and keeps its HP; the player's moves are untouched, and the player is unchanged on a miss or takes exactly `ComputeDamage` on a hit |
| Turns.ActionPriority | Assets/Scripts/TurnController.cs:30-64 | run beats capture, which beats switch, which beats a move |
| Turns.RunOverridesEverything | Assets/Scripts/TurnController.cs:33-39 | after queuing a run, the turn is a run whatever else was queued, and the battle is untouched |
| Turns.MissSparesDefender | Assets/Scripts/TurnController.cs:93-104 | a miss uses up the move entry but leaves the defender untouched |
| Turns.HitHurts | Assets/Scripts/TurnController.cs:93-113 | a hit with a damaging move lowers a living defender's HP |
| Behavior.Fresh | Assets/Scripts/CreatureBehavior.cs:47-57 | a new behaviour is enabled, out of combat, with no loop |
| Behavior.EnsureLoop | Assets/Scripts/CreatureBehavior.cs:71-75 | a loop is started only when none runs and the object is active, so exactly one runs afterwards on an active object and nothing changes on an inactive one |
| Behavior.EnsureLoopIdempotent | Assets/Scripts/CreatureBehavior.cs:71-75 | ensuring the loop twice is ensuring it once |
| Behavior.SetCombatMode | Assets/Scripts/CreatureBehavior.cs:201-216 | entering combat stops the action and movement; leaving it resumes the loop exactly when one ran or the object is active |
| Behavior.SetDestination | Assets/Scripts/CreatureBehavior.cs:121-126 | in combat no action starts; otherwise a move action starts on an active object, and the action handle is cleared on an inactive one |
| Behavior.OnDisable | Assets/Scripts/CreatureBehavior.cs:39-45 | disabling stops every coroutine and clears the moving flag |
| Behavior.OnEnable | Assets/Scripts/CreatureBehavior.cs:26-37 | enabling resumes the loop |
| Behavior.GetCatchRate | Assets/Scripts/CreatureBehavior.cs:156-162 | the species' catch rate, or 0 without an instance or species |
| Behavior.AtMostOneLoop | Assets/Scripts/CreatureBehavior.cs:26-75 | over any sequence of enable, disable, combat and destination calls, at most one behaviour loop runs, none runs on an inactive object, and a creature in combat is not moving |
| Encounter.Fresh | Assets/Scripts/EncounterController.cs:12-52 | a new encounter is idle, not ended, and keeps the invariant |
| Encounter.ApplyConfig | Assets/Scripts/EncounterController.cs:54-60 | a given offset is kept at 0.1 or more and a given ring radius at 1 or more; absent values are unchanged |
| Encounter.ToggleCombatOn | Assets/Scripts/EncounterController.cs:226-235 | a player actor takes the mode; a wild actor enters or leaves combat mode |
| Encounter.Sweep | Assets/Scripts/EncounterController.cs:341-368 | enabled bystanders inside the ring that were not yet being evicted are suspended and start being evicted; others are untouched |
| Encounter.ScannerTick | Assets/Scripts/EncounterController.cs:331-339 | the scanner sweeps only while the encounter runs |
| Encounter.EvictionDone | Assets/Scripts/EncounterController.cs:413-419 | an eviction ends by forgetting the bystander, which resumes only if the encounter still runs |
| Encounter.StopEviction | Assets/Scripts/EncounterController.cs:316-329 | the scanner stops and every enabled bystander still being evicted leaves combat mode |
| Encounter.EndEncounter | Assets/Scripts/EncounterController.cs:201-224 | the encounter ends once, runs its callback if it has one, stops evictions and takes both actors out of combat |
| Encounter.EndIgnoresResult | Assets/Scripts/EncounterController.cs:201-224 | the result passed to the end leaves no trace in the end state |
| Encounter.Begin | Assets/Scripts/EncounterController.cs:63-101 | the combatants are set up from the two records, both actors enter combat, the queue is empty and the loop enters positioning |
| Encounter.FaintCheck | Assets/Scripts/EncounterController.cs:118-127 | a fainted player ends with that result first; otherwise a fainted enemy ends it; otherwise the loop goes on |
| Encounter.Step | Assets/Scripts/EncounterController.cs:111-134 | an ended or idle encounter does not step |
| Encounter.ForceEnd | Assets/Scripts/EncounterController.cs:104-108 | ends with the forced result unless already ended |
| Encounter.NotifyCaptureSuccess | Assets/Scripts/EncounterController.cs:250-254 | ends with the capture result unless already ended |
| Encounter.NotifyCaptureFailed | Assets/Scripts/EncounterController.cs:256-261 | queues a capture decision when there is a turn controller and nothing else |
| Encounter.StepKeepsInv | Assets/Scripts/EncounterController.cs:111-134 | a step ends the encounter at most once, runs the callback at most once, and never starts a turn with a fainted combatant |
| Encounter.OtherOperationsKeepInv | Assets/Scripts/EncounterController.cs:104-108 | forced end, capture notifications, scanner ticks, eviction ends and configuration keep the invariant |
| Encounter.TurnsAlternate | Assets/Scripts/EncounterController.cs:111-134 | a player turn leads to the enemy turn or the end, or waits unchanged without a decision; an enemy turn leads to a player turn or the end |
| Encounter.DoubleKnockOutIsPlayerFainted | Assets/Scripts/EncounterController.cs:118-119 | when both are down, the player's faint is the one reported |
| Encounter.RunDoesNotEnd | Assets/Scripts/EncounterController.cs:126-130 | running raises the run event but the loop goes on to the enemy turn |
| Encounter.ForceEndIdempotent | Assets/Scripts/EncounterController.cs:104-108 | forcing the end twice is forcing it once |
| Encounter.EndReleasesEveryone | Assets/Scripts/EncounterController.cs:201-224 | after the end no actor and no enabled evicted bystander is left in combat mode |
| CombatService.StartEncounter | Assets/Scripts/CombatService.cs:34-78 | refused during an encounter or without a usable prefab; otherwise an encounter in positioning whose offset and radius are the service's serialized settings floored at 0.1 and 1, the two records, and the UI shown |
| CombatService.StepEncounter | Assets/Scripts/CombatService.cs:69-77 | the service stays in an encounter exactly until a step ends it, when the callback clears it |
| CombatService.ForceEndEncounter | Assets/Scripts/CombatService.cs:81-92 | afterwards there is no encounter and no latch, and a running encounter was force-ended |
| CombatService.BeginCaptureAttempt | Assets/Scripts/CombatService.cs:99-105 | always allowed outside an encounter; during one, allowed exactly when no attempt is running, and the latch is set |
| CombatService.SecondAttemptRefused | Assets/Scripts/CombatService.cs:99-105 | a second attempt during an encounter is refused |
| CombatService.NotifyCaptureSuccessAsWritten | Assets/Scripts/CombatService.cs:108-113 | the latch is cleared; during an encounter the only call is `EndByCapture` on it, which the encounter does not declare |
| CombatService.NotifyCaptureFailedAsWritten | Assets/Scripts/CombatService.cs:116-126 | the latch is cleared; during an encounter its `TurnController` property is read and, with a controller, `ConsumePlayerTurn` is called; neither member is declared |
| CombatService.AsWrittenNamesUndeclared | Assets/Scripts/CombatService.cs:108-126 | during an encounter both notifications name an undeclared member, while the encounter's `NotifyCaptureSuccess`/`NotifyCaptureFailed` and the controller's `QueueCapture` are declared |
| CombatService.NotifyCaptureSuccess | Assets/Scripts/EncounterController.cs:249-254 | the intended forwarding: the encounter ends with the capture result and the service is cleared |
| CombatService.NotifyCaptureFailed | Assets/Scripts/EncounterController.cs:256-261 | the intended forwarding: a capture decision is queued on the running encounter |
| CombatService.CaptureNotificationsReachEncounter | Assets/Scripts/CombatService.cs:108-126 | with the forwarding, a capture ends the encounter, and a failed one spends the player's turn without touching the battle |
| Ball.CatchChance | Assets/Scripts/Ball.cs:110-113 | the chance is in [0, 1]: the clamped rate without ball data, 0 for a rate or multiplier of 0 or less |
| Ball.ChanceMonotone | Assets/Scripts/Ball.cs:110-113 | a better rate or a stronger ball never lowers the chance |
| Ball.CertainCapture | Assets/Scripts/Ball.cs:110-116 | a rate and multiplier of at least 1 catch on every roll |
| Ball.Shakes | Assets/Scripts/Ball.cs:116 | 3 shakes on success, 1 or 2 otherwise |
| Ball.Hit | Assets/Scripts/Ball.cs:63-156 | a resolved ball or a non-wild hit does nothing; a missing instance or species aborts with the target hidden; a catch happens exactly when the roll is within the chance, and then the target is destroyed; an escape reactivates the target |
| Ball.AtMostOneCapture | Assets/Scripts/Ball.cs:91-92 | a ball that started a capture starts no other |
| Ball.CaughtIsStoredAndEndsEncounter | Assets/Scripts/Ball.cs:125-145 | a catch stores the creature when there is room and, under the corrected forwarding, ends a running encounter |
| Ball.EscapeSpendsTurn | Assets/Scripts/Ball.cs:146-155 | an escape keeps the encounter and storage and, under the corrected forwarding, spends the player's turn |
| Contact.Bind | Assets/Scripts/CombatContact.cs:18-23 | binds the record and side, falling back to the hook's own transform |
| Contact.AutoBind | Assets/Scripts/CombatContact.cs:38-54 | a player record wins over a wild one; with neither, nothing changes |
| Contact.Awake | Assets/Scripts/CombatContact.cs:25-30 | a new hook has never tried, has the serialized debounce, and is bound when a record is found |
| Contact.OnEnable | Assets/Scripts/CombatContact.cs:32-36 | binding is retried only while unbound |
| Contact.TryStart | Assets/Scripts/CombatContact.cs:59-88 | inside the debounce nothing happens; a request is made exactly when there is a service outside an encounter and a bound hook meets an opposing bound hook; the player side comes first |
| Contact.SameRequestFromEitherSide | Assets/Scripts/CombatContact.cs:81-87 | either side's hook makes the same request |
| Contact.RequestsAreSpaced | Assets/Scripts/CombatContact.cs:61-63 | two requests from one hook are at least the debounce apart |
| Contact.OnlyPlayerAgainstWild | Assets/Scripts/CombatContact.cs:69-79 | two hooks of the same side never start an encounter |
| Spawner.PickIndex | Assets/Scripts/Spawner.cs:70-82 | the pick is the first entry whose running weight total reaches the roll |
| Spawner.GetRandomPokemon | Assets/Scripts/Spawner.cs:70-82 | the picked entry's species, or none when the scan runs off the end |
| Spawner.RollInRangePicks | Assets/Scripts/Spawner.cs:70-82 | a roll up to the total over a non-empty list always picks an entry |
| Spawner.PickedWeightIsPositive | Assets/Scripts/Spawner.cs:70-82 | a positive roll never picks an entry of weight 0 or less |
| Spawner.CumMonotone | Assets/Scripts/Spawner.cs:70-82 | with non-negative weights the running totals never decrease |
| Spawner.IntervalPicks | Assets/Scripts/Spawner.cs:70-82 | each entry is picked by exactly the rolls between the total before it and the total after it |
| Spawner.SpawnCreature | Assets/Scripts/Spawner.cs:34-55 | no creature without a species; otherwise a new creature of the picked species at a level in the range, or at `levelMin` when `levelMax + 1 == levelMin` |
| Spawner.EveryLevelReachable | Assets/Scripts/Spawner.cs:42 | every level of the range can be spawned |
| Spawner.SpawnCreatures | Assets/Scripts/Spawner.cs:32 | one creature per productive draw, each of a listed species and at a level in the range |

## Left out

- Rendering, physics, geometry, animation, HUDs, audio, input and scene management. This includes ring positioning, `KeepOnRing`, the eviction walk, the ball's flight and shakes, ground raycasts, ghost icons and pointer hit tests. A collision or trigger is an event parameter.
- Saving to disk (`SaveManager`, `SaveSystem`). The storage manager's `committed` flag stands for the save call and change events that follow a committed change.
- Events and subscribers. `TurnController.RaiseEncounterEnded` is reported as `raised`; nothing in the modelled classes subscribes to it.
- Random draws, the clock and `FindGameObjectWithTag`/`GetComponent` lookups are parameters. This covers the accuracy roll, critical draw, spawn roll, level draw, shake count and `Time.time`.
- `Encounter.Step`: `CoRun` is one step per loop stage. The `WaitUntil` of the player turn is a step that changes nothing until a decision is queued.
- The float experience curves (MediumSlow, Fluctuating, Erratic) are a parameter `floatCurve`, because their results depend on float rounding. Other floats are exact reals.
- `PlayerCreatureBehavior`, `PlayerController`, the party/PC UI managers and the settings and inventory parts of the save file are not part of this model.
- `Instance.NewInstance`: the record's `species` field is `baseData`. `PokemonInstance` as shown declares only `baseData`, while `Ball`, `CreatureBehavior` and the storages read a `species` member that is defined outside the modelled classes. The model assumes that member returns `baseData`.
- `Common.RangeInt`: reversed bounds (`hi < lo`) are not specified. Unity's behaviour for them is defined outside the modelled classes. For the same reason `Spawner.SpawnCreature` does not specify the level when `levelMax + 1 < levelMin`.
- `Instance.NewInstance`: the gender draw (made only when the species' `genderType` is not `Unknown`), the ability draw and the GUID are not modelled, and neither are the `isShiny` parameter and the `ability` field. The record's id and move list are inputs.
- `Healer.HealParty`: the maximum HP is `stats.MaxHP`, which is defined outside the modelled classes; it is a parameter `maxHPOf`.
- `Turns.ExecuteMove`:
  - `MoveInstance.TryConsumePP` is defined outside the modelled classes; its outcome is the draw `consumed`.
  - A negative move index, which would throw in C#, is modelled as a wasted turn.
  - A null move list is modelled as a wasted turn.
- `MoveGrid.NotifyDrop`: `CompactMoves`, `SwapMoves` and `MoveMove` are defined outside the modelled classes. The drop returns the call it makes as a `GridAction`.
- `StorageManager.MoveBetween`: the fallback branches after a failed `TryInsertAt` (lines 152-158 and 162-167) are left out. The indices are checked at line 124 and `TryInsertAt` at a valid index always succeeds, so these branches never run.
- `StorageManager.ReleaseFrom`: the log line reads `p.species.pokemonName`; a creature without a species would throw there after it was removed. This is the `Faulted` outcome.
- Reference identity of storages is modelled by `StoreRef`: the party, or a box by position. Two references to the same box are the same storage.
- `Combatant.CleanupAfterBattle` is empty in the source and is not modelled.
- `CombatService.StartEncounter`: the prefab lookup and instantiation are flags `hasPrefab` and `hasController`.
- `CombatService.StartEncounter` and `Contact.Awake`: the serialized fields `defaultOffsetFromCenter`, `defaultPlayerRingRadius` and `debounce` can be changed in the Inspector, so they are parameters rather than their declared defaults (2.5, 10 and 0.15). The spawner's `levelMin`/`levelMax` are parameters for the same reason.
- `Spawner.SpawnCreatures`: `numberOfCreatures` is the number of draws given.
- `Ball.Hit`: the capture coroutine resolves in one step. The wait between hiding the target and the result is not modelled.
- `Ball.Hit`: a running encounter is told through the corrected forwarding (`CombatService.NotifyCaptureSuccess`/`NotifyCaptureFailed`), not the calls as written, which name undeclared members and have no behaviour to model (see Findings).
- `Ball.Hit` and `Encounter.Begin`: creatures are values, while the C# shares one `PokemonInstance` between the battle, the world behaviour and storage. Damage taken in battle therefore does not reach the creature `Hit` stores or the party's record of the player creature.
- `Ball.Hit` and `Encounter.EndEncounter`: one C# `CreatureBehavior` is held as two independent values, the ball's `World.target` and the running encounter's `wildActor.wild`. `Hit` applies `OnDisable` only to `target`. After a catch, the encounter's end (`ToggleCombatOn(wildActor, false)`) acts on the other copy, which is still enabled and still has its loop; in C# the one object has just been deactivated, which cleared its loop, so `SetCombatMode(false)` asks an inactive object to start its loop before the object is destroyed. After an escape the encounter's copy likewise misses the disable and re-enable that `Hit` applies to `target`, which in C# stop the running action and restart the loop. The model does not follow the wild behaviour across the two.

Where the code and the written design differ, the model follows the code:

- Damage is rounded with `Mathf.RoundToInt`, not floored.
- Queuing a run raises the run event but does not end the encounter.
- The ball never calls `BeginCaptureAttempt`, so a throw does not take the capture latch.
- `EndEncounter` drops its result.

## Findings

| source | as written | input that shows it | evidently intended | confidence | as-written member | corrected member |
|---|---|---|---|---|---|---|
| Assets/Scripts/CombatService.cs:108-126 | `NotifyCaptureSuccess` calls `activeEncounter.EndByCapture()` and `NotifyCaptureFailed` calls `ConsumePlayerTurn()` on the turn controller. Neither member exists in the encounter or turn controller, whose capture entry points are `NotifyCaptureSuccess`/`NotifyCaptureFailed` (EncounterController.cs:249-261). | In the files shown, `EncounterController` is not partial and declares neither `EndByCapture` nor a `TurnController` property (its controller is the private `turnCtl`, line 38), and `TurnController` declares no `ConsumePlayerTurn`, so lines 112, 121 and 123 name members those classes do not have. The files shown are not one consistent build: `PokemonInstance` as shown also lacks `species` and `Moves`, which other files use, so the missing members may exist in a version not shown. | Forward to the encounter's `NotifyCaptureSuccess` (end with `Capture`) and `NotifyCaptureFailed` (queue a capture so the turn is spent). | not executed | CombatService.NotifyCaptureSuccessAsWritten, CombatService.NotifyCaptureFailedAsWritten, CombatService.AsWrittenNamesUndeclared | CombatService.NotifyCaptureSuccess, CombatService.NotifyCaptureFailed, CombatService.CaptureNotificationsReachEncounter |

=== FILE: ball.dfy ===
/** A thrown ball (`Ball`): the hit on a wild creature and the capture that
    follows. The flight, the shake animation and the UI refresh are not
    modelled; the capture resolves in one step. The accuracy-free roll
    (`Random.value`, in [0, 1]) and the shake-count draw are parameters. */
module Ball {
  import opened Common
  import opened Data
  import SM = StorageManager
  import CS = CombatService
  import Beh = Behavior

  /** `resolved`, and the ball data's catch multiplier when it has data. */
  datatype BallState = BallState(resolved: bool, catchMultiplier: Option<real>)

  /** The catch chance: the species rate clamped to [0, 1], scaled by the
      ball's multiplier (never below 0; 1 without data), clamped again. */
  function CatchChance(catchRate: real, catchMultiplier: Option<real>): (r: real)
    ensures 0.0 <= r <= 1.0
    ensures catchMultiplier.None? ==> r == Clamp01(catchRate)
    ensures catchMultiplier.Some? && catchMultiplier.value <= 0.0 ==> r == 0.0
    ensures catchRate <= 0.0 ==> r == 0.0
  {
    var mult := if catchMultiplier.Some? then MaxReal(0.0, catchMultiplier.value) else 1.0;
    Clamp01(Clamp01(catchRate) * mult)
  }

  /** A better rate or a stronger ball never lowers the chance. */
  lemma ChanceMonotone(rate1: real, rate2: real, m1: real, m2: real)
    requires rate1 <= rate2 && m1 <= m2
    ensures CatchChance(rate1, Some(m1)) <= CatchChance(rate2, Some(m2))
    ensures CatchChance(rate1, None) <= CatchChance(rate2, None)
  {
    var a1 := Clamp01(rate1);
    var a2 := Clamp01(rate2);
    Clamp01Monotone(rate1, rate2);
    ProductLe(a1, a2, MaxReal(0.0, m1), MaxReal(0.0, m2));
    Clamp01Monotone(a1 * MaxReal(0.0, m1), a2 * MaxReal(0.0, m2));
    Clamp01Monotone(a1 * 1.0, a2 * 1.0);
  }

  lemma Clamp01Monotone(x: real, y: real)
    requires x <= y
    ensures Clamp01(x) <= Clamp01(y)
  {
  }

  lemma ProductLe(a1: real, a2: real, f1: real, f2: real)
    requires 0.0 <= a1 <= a2 && 0.0 <= f1 <= f2
    ensures a1 * f1 <= a2 * f2
  {
    ScaleLe(f1, a1, a2);
    ScaleLe(a2, f1, f2);
    assert a1 * f1 == f1 * a1 && f1 * a2 == a2 * f1;
  }

  lemma ScaleLe(k: real, x: real, y: real)
    requires 0.0 <= k && x <= y
    ensures k * x <= k * y
  {
    assert k * y - k * x == k * (y - x);
  }

  /** A species rate of 1 or more with a ball whose multiplier is 1 or more
      is caught on every roll. */
  lemma CertainCapture(rate: real, m: real, roll: real)
    requires rate >= 1.0 && m >= 1.0 && 0.0 <= roll <= 1.0
    ensures roll <= CatchChance(rate, Some(m))
  {
  }

  /** The number of shakes: 3 on success, otherwise `Random.Range(1, 3)`. */
  function Shakes(success: bool, shakeDraw: nat): (r: int)
    ensures success ==> r == 3
    ensures !success ==> 1 <= r <= 2
  {
    if success then 3 else RangeInt(1, 3, shakeDraw)
  }

  /** The part of the world a capture touches: the hit creature's behaviour
      and whether its object is active or destroyed, the storage manager
      and the combat service (each `None` when there is no instance). */
  datatype World = World(
    target: Beh.B,
    targetActive: bool,
    targetDestroyed: bool,
    manager: Option<SM.Manager>,
    service: Option<CS.Service>)

  predicate WorldWf(w: World) {
    (w.manager.Some? ==> SM.Wf(w.manager.value)) && (w.service.Some? ==> CS.Inv(w.service.value))
  }

  predicate InEncounter(w: World) {
    w.service.Some? && CS.IsInEncounter(w.service.value)
  }

  /** How a hit ended: no capture started, the capture aborted for a
      missing instance or species, or it resolved after so many shakes. */
  datatype Outcome = NotStarted | Aborted | Caught(shakes: int) | Escaped(shakes: int)

  datatype Throw = Throw(ball: BallState, world: World, outcome: Outcome)

  /** The creature the capture is about: the behaviour's instance, when it
      has one with a species. */
  predicate Catchable(w: World) {
    w.target.instance.Some? && w.target.instance.value.species.Some?
  }

  /** `OnCollisionEnter` and `CoCaptureFlow`. A resolved ball and a hit on
      anything but a wild creature start nothing. Otherwise the ball is
      resolved and the target's object deactivated (its behaviour is
      disabled); without an instance or species the capture stops there. On
      success the creature goes to storage, a running encounter is told and
      the target is destroyed; on failure the target is reactivated and a
      running encounter is told. The encounter is told through the corrected
      forwarding (`CombatService.NotifyCaptureSuccess`/`NotifyCaptureFailed`),
      because the calls as written name members that do not exist. */
  function Hit(b: BallState, hitWild: bool, w: World, roll: real, shakeDraw: nat): (r: Throw)
    requires WorldWf(w)
    ensures WorldWf(r.world)
    ensures b.resolved || !hitWild <==> r.outcome == NotStarted
    ensures r.outcome == NotStarted ==> r == Throw(b, w, NotStarted)
    ensures r.outcome != NotStarted ==> r.ball.resolved && r.ball.catchMultiplier == b.catchMultiplier
    ensures r.outcome == Aborted <==> !b.resolved && hitWild && !Catchable(w)
    ensures r.outcome == Aborted ==> !r.world.targetActive && r.world.manager == w.manager && r.world.service == w.service
    ensures r.outcome.Caught? <==>
              !b.resolved && hitWild && Catchable(w)
              && roll <= CatchChance(w.target.instance.value.species.value.catchRate, b.catchMultiplier)
    ensures r.outcome.Caught? ==> r.outcome.shakes == 3 && r.world.targetDestroyed
    ensures r.outcome.Escaped? ==> 1 <= r.outcome.shakes <= 2 && r.world.targetActive && r.world.manager == w.manager
  {
    if b.resolved || !hitWild then Throw(b, w, NotStarted)
    else
      var ball := b.(resolved := true);
      var hidden := w.(target := Beh.OnDisable(w.target), targetActive := false);
      if !Catchable(w) then Throw(ball, hidden, Aborted)
      else
        var inst := w.target.instance.value;
        var success := roll <= CatchChance(inst.species.value.catchRate, b.catchMultiplier);
        var shakes := Shakes(success, shakeDraw);
        if success then
          var stored := if w.manager.Some? then Some(SM.CapturePokemon(w.manager.value, Some(inst)).m) else None;
          var told := if InEncounter(w) then Some(CS.NotifyCaptureSuccess(w.service.value).s) else w.service;
          Throw(ball, hidden.(manager := stored, service := told, targetDestroyed := true), Caught(shakes))
        else
          var told := if InEncounter(w) then Some(CS.NotifyCaptureFailed(w.service.value)) else w.service;
          Throw(ball, hidden.(target := Beh.OnEnable(hidden.target), targetActive := true, service := told),
                Escaped(shakes))
  }

  /** A ball captures at most once: after any hit that started a capture,
      every further hit starts nothing. */
  lemma AtMostOneCapture(b: BallState, hitWild: bool, w: World, roll: real, k: nat,
                         hitWild2: bool, w2: World, roll2: real, k2: nat)
    requires WorldWf(w) && WorldWf(w2)
    requires Hit(b, hitWild, w, roll, k).outcome != NotStarted
    ensures Hit(Hit(b, hitWild, w, roll, k).ball, hitWild2, w2, roll2, k2).outcome == NotStarted
  {
  }

  /** A catch stores the creature when there is room, and ends a running
      encounter; the capture latch is left clear either way. */
  lemma CaughtIsStoredAndEndsEncounter(b: BallState, w: World, roll: real, k: nat)
    requires WorldWf(w)
    requires Hit(b, true, w, roll, k).outcome.Caught?
    ensures var r := Hit(b, true, w, roll, k);
      && (w.manager.Some? && SM.HasRoomFor(w.manager.value) ==>
            SM.Total(r.world.manager.value) == SM.Total(w.manager.value) + 1)
      && !InEncounter(r.world)
      && (r.world.service.Some? ==> !r.world.service.value.latch)
  {
  }

  /** An escape keeps the encounter running, with the player's turn spent on
      the capture, and leaves storage untouched. */
  lemma EscapeSpendsTurn(b: BallState, w: World, roll: real, k: nat)
    requires WorldWf(w) && InEncounter(w)
    requires Hit(b, true, w, roll, k).outcome.Escaped?
    ensures var r := Hit(b, true, w, roll, k);
      && InEncounter(r.world)
      && !r.world.service.value.latch
      && (w.service.value.active.value.hasTurnController ==> r.world.service.value.active.value.queue.capture)
      && r.world.manager == w.manager
  {
  }
}

=== FILE: behavior.dfy ===
/** The flag state of a wild creature's world behaviour (`CreatureBehavior`):
    combat suspension, the current move action, the behaviour loop and the
    moving flag. Coroutine handles are flags and the number of running
    behaviour loops is counted; wandering geometry and the loop bodies are
    not modelled. */
module Behavior {
  import opened Common
  import opened Data

  /** `hasAction` and `hasLoop` stand for the non-null `currentAction` and
      `behaviorLoop` handles; `loops` counts running behaviour loops;
      `enabled` is `isActiveAndEnabled`. */
  datatype B = B(
    inCombat: bool,
    isMoving: bool,
    hasAction: bool,
    hasLoop: bool,
    loops: nat,
    enabled: bool,
    instance: Option<Creature>)

  /** The loop handle is set exactly when one loop runs. */
  predicate Wf(b: B) {
    b.loops == (if b.hasLoop then 1 else 0)
  }

  /** A behaviour as created: enabled, no loop yet, not in combat. */
  function Fresh(instance: Option<Creature>): (r: B)
    ensures Wf(r) && r.enabled && !r.inCombat && r.loops == 0
  {
    B(false, false, false, false, 0, true, instance)
  }

  /** `EnsureBehaviorLoopRunning`: a loop is started only when there is none.
      On an inactive object the engine refuses to start a coroutine and the
      handle stays null. */
  function EnsureLoop(b: B): (r: B)
    ensures b.enabled ==> r.hasLoop
    ensures b.hasLoop || !b.enabled ==> r == b
    ensures !b.hasLoop && b.enabled ==> r == b.(hasLoop := true, loops := b.loops + 1)
    ensures Wf(b) ==> Wf(r)
    ensures Wf(b) && b.enabled ==> r.loops == 1
  {
    if b.hasLoop || !b.enabled then b else b.(hasLoop := true, loops := b.loops + 1)
  }

  /** Ensuring the loop twice is the same as once, so repeated calls never
      start a second loop. */
  lemma EnsureLoopIdempotent(b: B)
    ensures EnsureLoop(EnsureLoop(b)) == EnsureLoop(b)
  {
  }

  /** `SetCombatMode`: entering combat stops the current action and the
      movement; leaving it makes sure the behaviour loop runs, which starts
      nothing on an inactive object. */
  function SetCombatMode(b: B, active: bool): (r: B)
    ensures r.inCombat == active
    ensures active ==> !r.hasAction && !r.isMoving && r.hasLoop == b.hasLoop && r.loops == b.loops
    ensures !active ==> r.isMoving == b.isMoving && r.hasAction == b.hasAction
    ensures !active ==> (r.hasLoop <==> b.hasLoop || b.enabled)
    ensures Wf(b) ==> Wf(r)
    ensures Wf(b) && !active && b.enabled ==> r.loops == 1
    ensures r.enabled == b.enabled && r.instance == b.instance
  {
    var flagged := b.(inCombat := active);
    if active then flagged.(hasAction := false, isMoving := false)
    else EnsureLoop(flagged)
  }

  /** `SetDestination`: ignored in combat; otherwise the current action is
      replaced by a move towards the target, which is moving unless it is
      already there (`atTarget`). On an inactive object the move does not
      start and the action handle becomes null. */
  function SetDestination(b: B, atTarget: bool): (r: B)
    ensures b.inCombat ==> r == b
    ensures !b.inCombat && b.enabled ==> r == b.(hasAction := true, isMoving := !atTarget)
    ensures !b.inCombat && !b.enabled ==> r == b.(hasAction := false)
  {
    if b.inCombat then b
    else if !b.enabled then b.(hasAction := false)
    else b.(hasAction := true, isMoving := !atTarget)
  }

  /** `OnDisable`: both coroutines are stopped and the handles cleared. */
  function OnDisable(b: B): (r: B)
    ensures !r.hasAction && !r.hasLoop && !r.isMoving && r.loops == 0 && !r.enabled
    ensures Wf(r) && r.inCombat == b.inCombat && r.instance == b.instance
  {
    b.(hasAction := false, hasLoop := false, loops := 0, isMoving := false, enabled := false)
  }

  /** `OnEnable`: the behaviour loop is resumed. */
  function OnEnable(b: B): (r: B)
    ensures r.enabled && r.hasLoop
    ensures Wf(b) ==> Wf(r)
  {
    EnsureLoop(b.(enabled := true))
  }

  /** `GetCatchRate`: the species rate, or 0 without an instance or species. */
  function GetCatchRate(b: B): (r: real)
    ensures b.instance.Some? && b.instance.value.species.Some? ==> r == b.instance.value.species.value.catchRate
    ensures b.instance.None? || b.instance.value.species.None? ==> r == 0.0
  {
    if b.instance.Some? && b.instance.value.species.Some? then b.instance.value.species.value.catchRate else 0.0
  }

  /** The operations a behaviour goes through. */
  datatype Op = Combat(active: bool) | Destination(atTarget: bool) | Disable | Enable | Ensure

  function Apply(b: B, op: Op): B {
    match op
    case Combat(a) => SetCombatMode(b, a)
    case Destination(t) => SetDestination(b, t)
    case Disable => OnDisable(b)
    case Enable => OnEnable(b)
    case Ensure => EnsureLoop(b)
  }

  function ApplyAll(b: B, ops: seq<Op>): B
    decreases |ops|
  {
    if ops == [] then b else ApplyAll(Apply(b, ops[0]), ops[1..])
  }

  /** Whatever sequence of operations a fresh behaviour goes through, at most
      one behaviour loop runs, none runs while the object is inactive, and a
      creature in combat never starts moving. */
  lemma {:induction false} AtMostOneLoop(b: B, ops: seq<Op>)
    requires Wf(b) && (b.inCombat ==> !b.isMoving) && (!b.enabled ==> !b.hasLoop)
    ensures Wf(ApplyAll(b, ops)) && ApplyAll(b, ops).loops <= 1
    ensures !ApplyAll(b, ops).enabled ==> ApplyAll(b, ops).loops == 0
    ensures ApplyAll(b, ops).inCombat ==> !ApplyAll(b, ops).isMoving
    decreases |ops|
  {
    if ops != [] {
      AtMostOneLoop(Apply(b, ops[0]), ops[1..]);
    }
  }
}

=== FILE: combatant.dfy ===
/** One side of a battle (`CombatantController`): the creature record it
    fights with, the fainted latch and what faint handling does to the world
    object. Movement and facing are geometry and are not modelled. */
module Combatant {
  import opened Common
  import opened Data

  /** `hasTransform` says whether a world object was given to `Init`;
      `worldActive` is that object's active flag; `faintHandled` counts the
      runs of the faint handling past its latch. */
  datatype Combatant = Combatant(
    model: Option<Creature>,
    isPlayer: bool,
    hasTransform: bool,
    fainted: bool,
    worldActive: bool,
    faintHandled: nat)

  /** The faint handling ran at most once, and only together with the latch. */
  predicate Wf(c: Combatant) {
    c.faintHandled <= 1 && (c.faintHandled == 1 ==> c.fainted)
  }

  /** `Init`: the latch starts set exactly when the creature is already at
      0 HP or below. */
  function Init(hasTransform: bool, worldActive: bool, model: Option<Creature>, isPlayer: bool): (r: Combatant)
    ensures Wf(r) && r.faintHandled == 0
    ensures r.model == model && r.isPlayer == isPlayer
    ensures r.fainted <==> model.Some? && model.value.currentHP <= 0
  {
    Combatant(model, isPlayer, hasTransform, model.Some? && model.value.currentHP <= 0, worldActive, 0)
  }

  /** `IsFainted`: the latch, or a creature at 0 HP or below. */
  predicate IsFainted(c: Combatant) {
    c.fainted || (c.model.Some? && c.model.value.currentHP <= 0)
  }

  /** `OnFainted`: after the first run the latch makes it do nothing; the
      first run sets the latch and, when there is a world object, hides it. */
  function OnFainted(c: Combatant): (r: Combatant)
    ensures r.fainted
    ensures c.fainted ==> r == c
    ensures !c.fainted ==> r.faintHandled == c.faintHandled + 1
    ensures !c.fainted ==> r.worldActive == (c.worldActive && !c.hasTransform)
    ensures r.model == c.model && r.isPlayer == c.isPlayer && r.hasTransform == c.hasTransform
  {
    if c.fainted then c
    else
      var latched := c.(fainted := true, faintHandled := c.faintHandled + 1);
      if !c.hasTransform then latched else latched.(worldActive := false)
  }

  /** The HP a creature is left with: a negative amount counts as 0 and the
      result never goes below 0. */
  function HPAfter(hp: int, amount: int): int {
    Max(0, hp - Max(0, amount))
  }

  /** `ApplyDamage`. */
  function ApplyDamage(c: Combatant, amount: int): (r: Combatant)
    ensures c.model.None? ==> r == c
    ensures c.model.Some? ==>
              (r.model.Some?
               && r.model.value == c.model.value.(currentHP := r.model.value.currentHP)
               && 0 <= r.model.value.currentHP <= Max(0, c.model.value.currentHP)
               && (amount <= 0 ==> r.model.value.currentHP == Max(0, c.model.value.currentHP))
               && (amount > 0 ==> r.model.value.currentHP == Max(0, c.model.value.currentHP - amount)))
    ensures c.model.Some? ==>
              (r.faintHandled == c.faintHandled + 1
               <==> !c.fainted && c.model.value.currentHP > 0 && r.model.value.currentHP == 0)
    ensures r.faintHandled == c.faintHandled || r.faintHandled == c.faintHandled + 1
    ensures r.isPlayer == c.isPlayer && r.hasTransform == c.hasTransform
    ensures Wf(c) ==> Wf(r)
  {
    if c.model.None? then c
    else
      var before := c.model.value.currentHP;
      var after := HPAfter(before, amount);
      var hit := c.(model := Some(c.model.value.(currentHP := after)));
      if before > 0 && after == 0 then OnFainted(hit) else hit
  }

  /** The latch only ever turns on: a fainted combatant stays fainted under
      further damage, and a combatant brought to 0 HP is fainted. */
  lemma FaintLatchSticks(c: Combatant, amount: int)
    ensures IsFainted(c) && c.model.Some? ==> IsFainted(ApplyDamage(c, amount))
    ensures c.fainted ==> ApplyDamage(c, amount).fainted
    ensures c.model.Some? && ApplyDamage(c, amount).model.value.currentHP == 0 ==> IsFainted(ApplyDamage(c, amount))
  {
  }

  /** A sequence of hits, in order. */
  function ApplyAll(c: Combatant, amounts: seq<int>): Combatant
    decreases |amounts|
  {
    if amounts == [] then c else ApplyAll(ApplyDamage(c, amounts[0]), amounts[1..])
  }

  /** However many hits follow `Init`, the faint handling runs at most once. */
  lemma {:induction false} FaintHandledAtMostOnce(c: Combatant, amounts: seq<int>)
    requires Wf(c)
    ensures Wf(ApplyAll(c, amounts)) && ApplyAll(c, amounts).faintHandled <= 1
    decreases |amounts|
  {
    if amounts != [] {
      FaintHandledAtMostOnce(ApplyDamage(c, amounts[0]), amounts[1..]);
    }
  }
}

=== FILE: common.dfy ===
/** Small shared vocabulary: the optional value that stands for a nullable
    reference, Unity's integer and float clamps, and counting occupied slots. */
module Common {

  /** A nullable reference: `None` is C#'s `null`. */
  datatype Option<+T> = None | Some(value: T) {
    function GetOr(default: T): T {
      match this
      case Some(v) => v
      case None => default
    }
  }

  /** `Mathf.Clamp(int, int, int)`: the lower bound is tested first, so when
      `lo > hi` a value below `lo` still yields `lo`. */
  function Clamp(x: int, lo: int, hi: int): (r: int)
    ensures lo <= hi ==> lo <= r <= hi
    ensures lo <= x <= hi ==> r == x
    ensures r == x || r == lo || r == hi
  {
    if x < lo then lo else if x > hi then hi else x
  }

  /** `Mathf.Clamp01` on exact reals. */
  function Clamp01(x: real): (r: real)
    ensures 0.0 <= r <= 1.0
    ensures 0.0 <= x <= 1.0 ==> r == x
  {
    if x < 0.0 then 0.0 else if x > 1.0 then 1.0 else x
  }

  /** `Random.Range(int lo, int hi)` with the draw `k` as a parameter: a
      value in `[lo, hi)` when that range is not empty, and `lo` when the
      bounds are equal. Reversed bounds are left unspecified. */
  function RangeInt(lo: int, hi: int, k: nat): (r: int)
    ensures lo < hi ==> lo <= r < hi
    ensures hi == lo ==> r == lo
  {
    if lo < hi then lo + k % (hi - lo) else lo
  }

  /** Every value of a non-empty range is drawn by some `k`. */
  lemma RangeIntCovers(lo: int, hi: int, v: int)
    requires lo <= v < hi
    ensures RangeInt(lo, hi, v - lo) == v
  {
  }

  function Max(a: int, b: int): int { if a < b then b else a }
  function Min(a: int, b: int): int { if a < b then a else b }
  function MaxReal(a: real, b: real): real { if a < b then b else a }

  /** Number of occupied (non-null) entries: `CountNonNull`. */
  function CountSome<T>(s: seq<Option<T>>): (n: nat)
    ensures n <= |s|
  {
    if |s| == 0 then 0 else CountSome(s[..|s| - 1]) + (if s[|s| - 1].Some? then 1 else 0)
  }

  /** A sequence of `n` empty slots. */
  function Nones<T>(n: nat): (r: seq<Option<T>>)
    ensures |r| == n
    ensures forall i :: 0 <= i < n ==> r[i].None?
  {
    if n == 0 then [] else Nones(n - 1) + [None]
  }

  lemma CountSomeAppend<T>(a: seq<Option<T>>, b: seq<Option<T>>)
    ensures CountSome(a + b) == CountSome(a) + CountSome(b)
  {
    if |b| == 0 {
      assert a + b == a;
    } else {
      assert (a + b)[..|a + b| - 1] == a + b[..|b| - 1];
      CountSomeAppend(a, b[..|b| - 1]);
    }
  }

  lemma CountSomeNones<T>(n: nat)
    ensures CountSome(Nones<T>(n)) == 0
  {
    if n > 0 {
      assert Nones<T>(n)[..n - 1] == Nones<T>(n - 1);
      CountSomeNones<T>(n - 1);
    }
  }

  /** Overwriting one slot changes the occupied count only by that slot. */
  lemma CountSomeUpdate<T>(s: seq<Option<T>>, i: int, v: Option<T>)
    requires 0 <= i < |s|
    ensures CountSome(s[i := v]) + (if s[i].Some? then 1 else 0)
         == CountSome(s) + (if v.Some? then 1 else 0)
  {
    var t := s[i := v];
    assert s == s[..i] + [s[i]] + s[i + 1..];
    assert t == s[..i] + [v] + s[i + 1..];
    CountSomeAppend(s[..i] + [s[i]], s[i + 1..]);
    CountSomeAppend(s[..i], [s[i]]);
    CountSomeAppend(s[..i] + [v], s[i + 1..]);
    CountSomeAppend(s[..i], [v]);
    assert CountSome([s[i]]) == (if s[i].Some? then 1 else 0) by {
      assert [s[i]][..0] == [];
    }
    assert CountSome([v]) == (if v.Some? then 1 else 0) by {
      assert [v][..0] == [];
    }
  }

  /** A sequence with no empty slot is counted in full. */
  lemma CountSomeAll<T>(s: seq<Option<T>>)
    requires forall i :: 0 <= i < |s| ==> s[i].Some?
    ensures CountSome(s) == |s|
  {
    if |s| > 0 {
      CountSomeAll(s[..|s| - 1]);
    }
  }

  /** A sequence whose count equals its length has no empty slot. */
  lemma CountSomeFull<T>(s: seq<Option<T>>, i: int)
    requires CountSome(s) == |s|
    requires 0 <= i < |s|
    ensures s[i].Some?
  {
    if i < |s| - 1 {
      CountSomeFull(s[..|s| - 1], i);
    }
  }

  /** A sequence with an empty slot is not counted in full. */
  lemma CountSomeWithGap<T>(s: seq<Option<T>>, i: int)
    requires 0 <= i < |s| && s[i].None?
    ensures CountSome(s) < |s|
  {
    if i < |s| - 1 {
      CountSomeWithGap(s[..|s| - 1], i);
    }
  }

  /** A sequence not counted in full has an empty slot. */
  lemma CountSomeGapExists<T>(s: seq<Option<T>>) returns (i: nat)
    requires CountSome(s) < |s|
    ensures i < |s| && s[i].None?
  {
    if s[|s| - 1].None? {
      i := |s| - 1;
    } else {
      i := CountSomeGapExists(s[..|s| - 1]);
    }
  }
}

=== FILE: contact.dfy ===
/** The combat start hook (`CombatContact`): binding a world object to its
    creature record and turning a contact between a player creature and a
    wild one into an encounter start request. The clock, the collision and
    the parent search for the other side's hook are parameters. */
module Contact {
  import opened Common
  import opened Data

  /** What auto-binding finds on the object: the record of a player
      behaviour and that of a wild behaviour, `None` when the component or
      its record is missing. */
  datatype Discovery = Discovery(player: Option<Creature>, wild: Option<Creature>)

  /** `own` is the hook's own transform and `worldTf` the bound one, both by
      identity. */
  datatype Contact = Contact(
    own: nat,
    worldTf: nat,
    instance: Option<Creature>,
    isWild: bool,
    lastTry: real,
    debounce: real,
    discovery: Discovery)

  /** The initial last try. */
  const NeverTried: real := -999.0

  /** `Bind`: a missing transform falls back to the hook's own. */
  function Bind(c: Contact, tf: Option<nat>, inst: Option<Creature>, wild: bool): (r: Contact)
    ensures r.worldTf == (if tf.Some? then tf.value else c.own)
    ensures r.instance == inst && r.isWild == wild
    ensures r == c.(worldTf := r.worldTf, instance := inst, isWild := wild)
  {
    c.(worldTf := if tf.Some? then tf.value else c.own, instance := inst, isWild := wild)
  }

  /** `AutoBindIfPossible`: a player record wins over a wild one; with
      neither, nothing changes. */
  function AutoBind(c: Contact): (r: Contact)
    ensures c.discovery.player.Some? ==> r == Bind(c, Some(c.own), c.discovery.player, false)
    ensures c.discovery.player.None? && c.discovery.wild.Some? ==> r == Bind(c, Some(c.own), c.discovery.wild, true)
    ensures c.discovery.player.None? && c.discovery.wild.None? ==> r == c
    ensures r.instance.Some? <==> c.discovery.player.Some? || c.discovery.wild.Some? || c.instance.Some?
  {
    if c.discovery.player.Some? then Bind(c, Some(c.own), c.discovery.player, false)
    else if c.discovery.wild.Some? then Bind(c, Some(c.own), c.discovery.wild, true)
    else c
  }

  /** A new hook after `Awake`; `debounce` is the serialized debounce (0.15
      unless set in the Inspector). */
  function Awake(own: nat, debounce: real, discovery: Discovery): (r: Contact)
    ensures r.lastTry == NeverTried && r.debounce == debounce
    ensures r.instance.Some? <==> discovery.player.Some? || discovery.wild.Some?
    ensures r.instance.Some? ==> r.worldTf == own
  {
    AutoBind(Contact(own, own, None, false, NeverTried, debounce, discovery))
  }

  /** `OnEnable`: binding is retried only while there is no record. */
  function OnEnable(c: Contact): (r: Contact)
    ensures c.instance.Some? ==> r == c
    ensures c.instance.None? ==> r == AutoBind(c)
  {
    if c.instance.None? then AutoBind(c) else c
  }

  /** The hook as `TryStart` sees it after its late binding attempt. */
  function Bound(c: Contact): (r: Contact)
    ensures c.instance.Some? ==> r == c
  {
    if c.instance.None? then AutoBind(c) else c
  }

  /** The `StartEncounter` call a successful try makes. */
  datatype Request = Request(playerTf: nat, playerMon: Creature, wildTf: nat, wildMon: Creature)

  datatype Attempted = Attempted(c: Contact, request: Option<Request>)

  /** Whether the other side can take part: it has a hook with a record of
      the opposite kind. */
  predicate Opposes(me: Contact, other: Option<Contact>) {
    other.Some? && other.value.instance.Some? && me.isWild != other.value.isWild
  }

  /** `TryStart`. Inside the debounce window nothing happens; otherwise the
      try is recorded. Without a service, during an encounter, without a
      record after late binding, without an opposing side, nothing starts.
      Otherwise the request puts the player side first. `inEncounter` is the
      service's answer, `None` when there is no service. */
  function TryStart(c: Contact, now: real, inEncounter: Option<bool>, other: Option<Contact>): (r: Attempted)
    ensures now - c.lastTry < c.debounce ==> r == Attempted(c, None)
    ensures now - c.lastTry >= c.debounce ==> r.c.lastTry == now
    ensures r.request.Some? <==>
              now - c.lastTry >= c.debounce && inEncounter == Some(false)
              && Bound(c).instance.Some? && Opposes(Bound(c), other)
    ensures r.request.Some? ==>
              var me := Bound(c);
              && r.request.value.playerMon == (if me.isWild then other.value else me).instance.value
              && r.request.value.wildMon == (if me.isWild then me else other.value).instance.value
  {
    if now - c.lastTry < c.debounce then Attempted(c, None)
    else
      var tried := c.(lastTry := now);
      if inEncounter != Some(false) then Attempted(tried, None)
      else
        var me := Bound(tried);
        if me.instance.None? || !Opposes(me, other) then Attempted(me, None)
        else
          var player := if me.isWild then other.value else me;
          var wild := if me.isWild then me else other.value;
          Attempted(me, Some(Request(player.worldTf, player.instance.value, wild.worldTf, wild.instance.value)))
  }

  /** A contact between a player creature and a wild one makes the same
      request whichever side's hook reports it. */
  lemma SameRequestFromEitherSide(a: Contact, b: Contact, now: real)
    requires a.instance.Some? && b.instance.Some? && a.isWild != b.isWild
    requires now - a.lastTry >= a.debounce && now - b.lastTry >= b.debounce
    ensures TryStart(a, now, Some(false), Some(b)).request.Some?
    ensures TryStart(a, now, Some(false), Some(b)).request == TryStart(b, now, Some(false), Some(a)).request
  {
  }

  /** Two requests from one hook are at least the debounce apart. */
  lemma RequestsAreSpaced(c: Contact, t1: real, s1: Option<bool>, o1: Option<Contact>,
                          t2: real, s2: Option<bool>, o2: Option<Contact>)
    requires TryStart(c, t1, s1, o1).request.Some?
    requires TryStart(TryStart(c, t1, s1, o1).c, t2, s2, o2).request.Some?
    ensures t2 - t1 >= c.debounce
  {
  }

  /** Two hooks of the same kind, or one meeting a side without a record,
      never start an encounter. */
  lemma OnlyPlayerAgainstWild(c: Contact, now: real, s: Option<bool>, other: Contact)
    requires c.instance.Some? && (other.isWild == c.isWild || other.instance.None?)
    ensures TryStart(c, now, s, Some(other)).request.None?
  {
  }
}

=== FILE: data.dfy ===
/** The records the core reads: species definitions, attacks, the move slots
    of a creature and the creature record itself. These mirror the data-only
    ScriptableObjects of the game (PokemonData, AttackData) and the fields of
    PokemonInstance that the core touches. */
module Data {
  import opened Common

  /** `ElementType` by ordinal: Normal = 0 … Fairy = 17. */
  type Element = e: int | 0 <= e < 18

  /** `PokemonType` by ordinal: the same eighteen names in the same order,
      followed by `None` = 18. */
  type PokemonType = t: int | 0 <= t < 19

  const TypeNone: PokemonType := 18

  datatype AttackCategory = Physical | Special | Status

  datatype GrowthRate = Fast | MediumFast | MediumSlow | Slow | Fluctuating | Erratic

  /** One attack definition (`AttackData`); the move data a move slot refers
      to has the same fields as far as the core reads them. `id` is the
      asset's identity: two distinct assets have distinct ids, so comparing
      records compares references even when every other field agrees. */
  datatype Attack = Attack(
    id: nat,
    name: string,
    element: Element,
    category: AttackCategory,
    power: int,
    accuracy: int,
    pp: int)

  /** Six values in the fixed stat order; used for base stats, individual
      values, effort values and computed stats alike. */
  datatype StatBlock = StatBlock(
    hp: int,
    attack: int,
    defense: int,
    spAttack: int,
    spDefense: int,
    speed: int)

  datatype LearnEntry = LearnEntry(attack: Attack, level: int)

  /** A species definition (`PokemonData`). */
  datatype Species = Species(
    name: string,
    primaryType: PokemonType,
    secondaryType: PokemonType,
    catchRate: real,
    base: StatBlock,
    growth: GrowthRate,
    learnable: seq<LearnEntry>)

  /** One entry of a creature's move list (`MoveInstance`): the move data may
      be missing, which the game treats as an empty slot. */
  datatype MoveSlot = MoveSlot(data: Option<Attack>, currentPP: int, maxPP: int)

  /** A creature record (`PokemonInstance`). `species` stands for both
      `baseData` and the `species` accessor; `moves` is the `Moves` list,
      which may be missing. */
  datatype Creature = Creature(
    id: nat,
    species: Option<Species>,
    level: int,
    currentExp: int,
    ivs: StatBlock,
    evs: StatBlock,
    stats: StatBlock,
    currentHP: int,
    learned: seq<Attack>,
    moves: Option<seq<Option<MoveSlot>>>)

  /** The default spreads of a new instance: every IV is 31, every EV is 0. */
  const DefaultIVs := StatBlock(31, 31, 31, 31, 31, 31)
  const DefaultEVs := StatBlock(0, 0, 0, 0, 0, 0)
}

=== FILE: dragdrop.dfy ===
/** The transfer rule of the storage screen's drag and drop
    (`DragDropController`): the drag source recorded by `BeginDrag`, the
    slot changes of `HandleDrop` and the reset of `FinalizeDrop`. Unlike
    `MoveBetween`, a drop neither compacts the party nor recalculates the
    unlocks. */
module DragDrop {
  import opened Common
  import opened Data
  import Storage
  import SM = StorageManager

  datatype DragState = DragState(src: SM.StoreRef, srcIndex: int, srcIsParty: bool, isDraggingAny: bool)

  /** `srcIsParty` is recorded together with the source storage. */
  predicate Consistent(d: DragState) {
    d.srcIsParty <==> d.src.PartyStore?
  }

  /** The state `BeginDrag` records: the source slot, whether its storage is
      the party, and the global dragging flag. */
  function BeginDrag(src: SM.StoreRef, index: int): (r: DragState)
    ensures Consistent(r) && r.isDraggingAny
    ensures r.src == src && r.srcIndex == index
  {
    DragState(src, index, src.PartyStore?, true)
  }

  /** `FinalizeDrop`: no source storage, index -1, not the party, not dragging. */
  function FinalizeDrop(d: DragState): (r: DragState)
    ensures r.src.NoStore? && r.srcIndex == -1 && !r.srcIsParty && !r.isDraggingAny
    ensures Consistent(r)
  {
    DragState(SM.NoStore, -1, false, false)
  }

  datatype DropResult = DropResult(m: SM.Manager, drag: DragState)

  /** The minimum-party rule of a drop: moving out of the party into an
      empty slot of another storage is refused when the party holds at most
      `minPartyCount` creatures. */
  predicate MinPartyBlocks(m: SM.Manager, d: DragState, dst: SM.StoreRef, dstIndex: int,
                           enforceMinPartyOne: bool, minPartyCount: int)
    requires SM.Wf(m) && SM.Resolves(m, dst) && Storage.IsIndexValid(SM.KindOf(dst), dstIndex)
  {
    enforceMinPartyOne && d.srcIsParty && d.src != dst
    && CountSome(m.party) <= minPartyCount && SM.SlotsOf(m, dst)[dstIndex].None?
  }

  /** Both ends resolve to storages and both indices are valid for them. */
  predicate EndsValid(m: SM.Manager, d: DragState, dst: SM.StoreRef, dstIndex: int) {
    SM.Resolves(m, d.src) && SM.Resolves(m, dst)
    && Storage.IsIndexValid(SM.KindOf(d.src), d.srcIndex) && Storage.IsIndexValid(SM.KindOf(dst), dstIndex)
  }

  /** `HandleDrop`. */
  function HandleDrop(m: SM.Manager, d: DragState, dst: SM.StoreRef, dstIndex: int,
                      enforceMinPartyOne: bool, minPartyCount: int): (r: DropResult)
    requires SM.Wf(m) && Consistent(d)
    ensures SM.Wf(r.m)
    ensures r.drag == FinalizeDrop(d)
    ensures SM.Total(r.m) == SM.Total(m)
    ensures r.m.hasCaughtFirst == m.hasCaughtFirst && r.m.pc.unlocked == m.pc.unlocked
    ensures !EndsValid(m, d, dst, dstIndex) ==> r.m == m
  {
    var done := FinalizeDrop(d);
    if !EndsValid(m, d, dst, dstIndex) then DropResult(m, done)
    else if MinPartyBlocks(m, d, dst, dstIndex, enforceMinPartyOne, minPartyCount) then DropResult(m, done)
    else if d.src == dst then
      if d.srcIndex != dstIndex then
        var swapped := Storage.Swap(SM.KindOf(dst), SM.SlotsOf(m, dst), d.srcIndex, dstIndex);
        DropResult(SM.WithSlots(m, dst, swapped), done)
      else DropResult(m, done)
    else if SM.SlotsOf(m, d.src)[d.srcIndex].None? then DropResult(m, done)
    else DropResult(SM.Transfer(m, d.src, d.srcIndex, dst, dstIndex), done)
  }

  /** The minimum-party rule refuses exactly the moves out of a small party
      into an empty slot elsewhere; a move onto an occupied slot (an exchange)
      goes through. */
  lemma MinPartyRule(m: SM.Manager, d: DragState, dst: SM.StoreRef, dstIndex: int, minPartyCount: int)
    requires SM.Wf(m) && Consistent(d) && EndsValid(m, d, dst, dstIndex)
    requires d.src.PartyStore? && dst != d.src && CountSome(m.party) <= minPartyCount
    ensures SM.SlotsOf(m, dst)[dstIndex].None? ==> HandleDrop(m, d, dst, dstIndex, true, minPartyCount).m == m
    ensures SM.SlotsOf(m, dst)[dstIndex].Some? && m.party[d.srcIndex].Some? ==>
              SM.SlotsOf(HandleDrop(m, d, dst, dstIndex, true, minPartyCount).m, dst)[dstIndex] == m.party[d.srcIndex]
  {
  }

  /** Inside one storage, distinct indices are swapped (with every other
      storage untouched) and a drop on the source slot itself changes nothing. */
  lemma SameStorageDrop(m: SM.Manager, d: DragState, dstIndex: int, enforce: bool, minPartyCount: int)
    requires SM.Wf(m) && Consistent(d) && EndsValid(m, d, d.src, dstIndex)
    ensures var r := HandleDrop(m, d, d.src, dstIndex, enforce, minPartyCount).m;
      && SM.SlotsOf(r, d.src) == Storage.Swap(SM.KindOf(d.src), SM.SlotsOf(m, d.src), d.srcIndex, dstIndex)
      && (d.srcIndex == dstIndex ==> r == m)
      && forall o :: SM.Resolves(m, o) && o != d.src ==> SM.SlotsOf(r, o) == SM.SlotsOf(m, o)
  {
  }

  /** Across storages, an empty source changes nothing; an occupied one is
      placed at the destination and the displaced occupant (or an empty slot)
      returns to the source index. */
  lemma CrossStorageDrop(m: SM.Manager, d: DragState, dst: SM.StoreRef, dstIndex: int, enforce: bool, minPartyCount: int)
    requires SM.Wf(m) && Consistent(d) && EndsValid(m, d, dst, dstIndex) && dst != d.src
    requires !MinPartyBlocks(m, d, dst, dstIndex, enforce, minPartyCount)
    ensures var r := HandleDrop(m, d, dst, dstIndex, enforce, minPartyCount).m;
      if SM.SlotsOf(m, d.src)[d.srcIndex].None? then r == m
      else
        && SM.SlotsOf(r, dst) == SM.SlotsOf(m, dst)[dstIndex := SM.SlotsOf(m, d.src)[d.srcIndex]]
        && SM.SlotsOf(r, d.src) == SM.SlotsOf(m, d.src)[d.srcIndex := SM.SlotsOf(m, dst)[dstIndex]]
  {
  }

  /** A drop never compacts: dragging the first of two party members onto an
      empty box slot leaves a hole at the front of the party. */
  lemma DropCanLeavePartyUncompacted(m: SM.Manager, c1: Creature, c2: Creature)
    requires SM.Wf(m) && m.party == [Some(c1), Some(c2)] + Nones(4) && m.pc.boxes[0][0].None?
    ensures !Storage.IsCompacted(HandleDrop(m, BeginDrag(SM.PartyStore, 0), SM.BoxStore(0), 0, true, 1).m.party)
  {
    var front: Storage.Slots := [Some(c1), Some(c2)];
    CountSomeAppend(front, Nones(4));
    CountSomeNones<Creature>(4);
    assert front[..1] == [Some(c1)] && [Some(c1)][..0] == [];
    assert CountSome(m.party) == 2;
    var r := HandleDrop(m, BeginDrag(SM.PartyStore, 0), SM.BoxStore(0), 0, true, 1).m;
    assert SM.SlotsOf(r, SM.PartyStore) == m.party[0 := None];
    assert r.party[0].None? && r.party[1].Some?;
  }
}

=== FILE: encounter.dfy ===
/** The encounter (`EncounterController`) as a state machine. The turn loop
    of `CoRun` is cut at its waits: each `Step` runs from one wait to the
    next. Ring geometry, positioning and the eviction movement are not
    modelled; which bystanders stand inside the ring is a parameter, and each
    eviction's end is its own step. */
module Encounter {
  import opened Common
  import opened Data
  import opened Turns
  import C = Combatant
  import Beh = Behavior

  datatype Phase = Idle | Positioning | PlayerTurn | EnemyTurn | Ended

  /** What `ToggleCombatOn` finds on an actor's object: the player creature's
      behaviour (only its requested combat mode is kept) and a wild
      creature's behaviour. */
  datatype Actor = Actor(playerMode: Option<bool>, wild: Option<Beh.B>)

  /** `ends` counts runs of `EndEncounter` and `callbacks` the end callback's
      invocations. `bystanders` are the other wild behaviours in the world,
      by identity; `evicting` holds those with an eviction running. */
  datatype Enc = Enc(
    phase: Phase,
    ended: bool,
    offset: real,
    ringRadius: real,
    battle: Battle,
    queue: Queue,
    hasTurnController: bool,
    hasCallback: bool,
    playerActor: Actor,
    wildActor: Actor,
    bystanders: map<nat, Beh.B>,
    evicting: set<nat>,
    scannerRunning: bool,
    ends: nat,
    callbacks: nat)

  /** A fresh encounter object with its serialized offset and ring radius. */
  function Fresh(offset: real, ringRadius: real, bystanders: map<nat, Beh.B>): (r: Enc)
    ensures Inv(r) && r.phase == Idle && !r.ended
  {
    Enc(Idle, false, offset, ringRadius,
        Battle(C.Init(false, false, None, true), C.Init(false, false, None, false)),
        EmptyQueue, false, false, Actor(None, None), Actor(None, None),
        bystanders, {}, false, 0, 0)
  }

  /** The invariant every reachable encounter keeps. */
  predicate Inv(e: Enc) {
    && (e.ended <==> e.phase == Ended)
    && e.ends == (if e.ended then 1 else 0)
    && e.callbacks <= e.ends
    && ((e.phase == PlayerTurn || e.phase == EnemyTurn) ==>
          !C.IsFainted(e.battle.player) && !C.IsFainted(e.battle.enemy))
    && (e.ended ==> e.evicting == {} && !e.scannerRunning)
    && e.evicting <= e.bystanders.Keys
    && C.Wf(e.battle.player) && C.Wf(e.battle.enemy)
  }

  /** `ApplyConfig`: a given offset is kept at 0.1 or more and a given ring
      radius at 1 or more; an absent argument leaves its value. */
  function ApplyConfig(e: Enc, offset: Option<real>, ringRadius: Option<real>): (r: Enc)
    ensures offset.Some? ==> r.offset >= 0.1 && (offset.value >= 0.1 ==> r.offset == offset.value)
    ensures offset.None? ==> r.offset == e.offset
    ensures ringRadius.Some? ==> r.ringRadius >= 1.0 && (ringRadius.value >= 1.0 ==> r.ringRadius == ringRadius.value)
    ensures ringRadius.None? ==> r.ringRadius == e.ringRadius
    ensures r == e.(offset := r.offset, ringRadius := r.ringRadius)
  {
    var e1 := if offset.Some? then e.(offset := MaxReal(0.1, offset.value)) else e;
    if ringRadius.Some? then e1.(ringRadius := MaxReal(1.0, ringRadius.value)) else e1
  }

  /** `ToggleCombatOn` on one actor. */
  function ToggleCombatOn(a: Actor, active: bool): (r: Actor)
    ensures a.playerMode.Some? <==> r.playerMode.Some?
    ensures r.playerMode.Some? ==> r.playerMode.value == active
    ensures a.wild.Some? <==> r.wild.Some?
    ensures r.wild.Some? ==> r.wild.value == Beh.SetCombatMode(a.wild.value, active)
  {
    Actor(if a.playerMode.Some? then Some(active) else None,
          if a.wild.Some? then Some(Beh.SetCombatMode(a.wild.value, active)) else None)
  }

  /** Bystanders a sweep starts evicting: enabled, inside the ring and not
      already being evicted. */
  function NewEvictions(e: Enc, inside: set<nat>): set<nat> {
    set id | id in e.bystanders && id in inside && e.bystanders[id].enabled && id !in e.evicting
  }

  /** `EvictCreaturesInsideRing`: every new eviction suspends the bystander's
      behaviour at once. */
  function Sweep(e: Enc, inside: set<nat>): (r: Enc)
    ensures r.bystanders.Keys == e.bystanders.Keys
    ensures r.evicting == e.evicting + NewEvictions(e, inside)
    ensures forall id :: id in NewEvictions(e, inside) ==> r.bystanders[id] == Beh.SetCombatMode(e.bystanders[id], true)
    ensures forall id :: id in e.bystanders && id !in NewEvictions(e, inside) ==> r.bystanders[id] == e.bystanders[id]
    ensures r == e.(bystanders := r.bystanders, evicting := r.evicting)
  {
    var started := NewEvictions(e, inside);
    e.(bystanders := map id | id in e.bystanders ::
                       if id in started then Beh.SetCombatMode(e.bystanders[id], true) else e.bystanders[id],
       evicting := e.evicting + started)
  }

  /** One tick of the eviction scanner, which sweeps only while the
      encounter runs. */
  function ScannerTick(e: Enc, inside: set<nat>): (r: Enc)
    ensures e.ended || !e.scannerRunning ==> r == e
  {
    if e.ended || !e.scannerRunning then e else Sweep(e, inside)
  }

  /** The end of one eviction (`CoEvict` after its movement): the bystander
      resumes its world behaviour if the encounter still runs and it is
      enabled, and the eviction is forgotten. */
  function EvictionDone(e: Enc, id: nat): (r: Enc)
    ensures id !in e.evicting ==> r == e
    ensures id !in r.evicting && r.evicting == e.evicting - {id}
    ensures r.bystanders.Keys == e.bystanders.Keys
  {
    if id !in e.evicting then e
    else if id !in e.bystanders then e.(evicting := e.evicting - {id})
    else
      var b := e.bystanders[id];
      var b' := if !e.ended && b.enabled then Beh.SetCombatMode(b, false) else b;
      e.(bystanders := e.bystanders[id := b'], evicting := e.evicting - {id})
  }

  /** `StopEviction`: the scanner stops, and every bystander still being
      evicted and enabled gets its world behaviour back. */
  function StopEviction(e: Enc): (r: Enc)
    ensures r.evicting == {} && !r.scannerRunning
    ensures r.bystanders.Keys == e.bystanders.Keys
    ensures forall id :: id in e.evicting && id in e.bystanders && e.bystanders[id].enabled ==> !r.bystanders[id].inCombat
    ensures forall id :: id in e.bystanders && id !in e.evicting ==> r.bystanders[id] == e.bystanders[id]
  {
    e.(bystanders := map id | id in e.bystanders ::
                       if id in e.evicting && e.bystanders[id].enabled then Beh.SetCombatMode(e.bystanders[id], false)
                       else e.bystanders[id],
       evicting := {}, scannerRunning := false)
  }

  /** `EndEncounter`. The result is not passed on: the callback takes no
      argument, so nothing about the encounter records it. */
  function EndEncounter(e: Enc, result: EncounterResult): (r: Enc)
    ensures r.ended && r.phase == Ended
    ensures r.ends == e.ends + 1
    ensures r.callbacks == e.callbacks + (if e.hasCallback then 1 else 0)
    ensures r.evicting == {} && !r.scannerRunning
    ensures r.playerActor == ToggleCombatOn(e.playerActor, false) && r.wildActor == ToggleCombatOn(e.wildActor, false)
    ensures r.battle == e.battle && r.queue == e.queue
  {
    var stopped := StopEviction(e);
    stopped.(ended := true, phase := Ended,
             playerActor := ToggleCombatOn(e.playerActor, false),
             wildActor := ToggleCombatOn(e.wildActor, false),
             ends := e.ends + 1,
             callbacks := e.callbacks + (if e.hasCallback then 1 else 0))
  }

  /** The end result is invisible in the end state. */
  lemma EndIgnoresResult(e: Enc, r1: EncounterResult, r2: EncounterResult)
    ensures EndEncounter(e, r1) == EndEncounter(e, r2)
  {
  }

  /** `Begin`: the combatants are set up, both actors enter combat mode, the
      first sweep and the scanner start, and the loop enters positioning. */
  function Begin(e: Enc, playerMon: Option<Creature>, wildMon: Option<Creature>,
                 playerActor: Actor, wildActor: Actor, inside: set<nat>): (r: Enc)
    requires Inv(e) && !e.ended
    ensures Inv(r) && r.phase == Positioning && !r.ended && r.hasCallback && r.hasTurnController
    ensures r.battle == Battle(C.Init(true, true, playerMon, true), C.Init(true, true, wildMon, false))
    ensures r.queue == EmptyQueue
    ensures r.playerActor == ToggleCombatOn(playerActor, true) && r.wildActor == ToggleCombatOn(wildActor, true)
  {
    var set_up := e.(battle := Battle(C.Init(true, true, playerMon, true), C.Init(true, true, wildMon, false)),
                     queue := EmptyQueue, hasTurnController := true, hasCallback := true,
                     playerActor := ToggleCombatOn(playerActor, true),
                     wildActor := ToggleCombatOn(wildActor, true),
                     scannerRunning := true);
    Sweep(set_up, inside).(phase := Positioning)
  }

  /** A step's result: the encounter after it, the result `EndEncounter` was
      called with if it was, and the event the player turn raised. */
  datatype StepResult = StepResult(e: Enc, endedWith: Option<EncounterResult>, raised: Option<EncounterResult>)

  /** The fainted checks at the head of the loop and after the player turn:
      the player is checked first. */
  function FaintCheck(e: Enc, next: Phase): (r: StepResult)
    ensures C.IsFainted(e.battle.player) ==> r == StepResult(EndEncounter(e, PlayerFainted), Some(PlayerFainted), None)
    ensures !C.IsFainted(e.battle.player) && C.IsFainted(e.battle.enemy) ==>
              r == StepResult(EndEncounter(e, EnemyFainted), Some(EnemyFainted), None)
    ensures !C.IsFainted(e.battle.player) && !C.IsFainted(e.battle.enemy) ==>
              r == StepResult(e.(phase := next), None, None)
  {
    if C.IsFainted(e.battle.player) then StepResult(EndEncounter(e, PlayerFainted), Some(PlayerFainted), None)
    else if C.IsFainted(e.battle.enemy) then StepResult(EndEncounter(e, EnemyFainted), Some(EnemyFainted), None)
    else StepResult(e.(phase := next), None, None)
  }

  /** One step of `CoRun`: from positioning to the first turn, through a
      player turn once a decision is queued, or through an enemy turn. */
  function Step(e: Enc, d: Draws): (r: StepResult)
    ensures e.ended || e.phase == Idle || e.phase == Ended ==> r == StepResult(e, None, None)
  {
    if e.ended then StepResult(e, None, None)
    else match e.phase
      case Idle => StepResult(e, None, None)
      case Ended => StepResult(e, None, None)
      case Positioning => FaintCheck(e, PlayerTurn)
      case PlayerTurn =>
        var pt := DoPlayerTurn(e.battle, e.queue, d);
        if pt.kind == Waiting then StepResult(e, None, None)
        else
          var checked := FaintCheck(e.(battle := pt.battle, queue := pt.queue), EnemyTurn);
          checked.(raised := pt.raised)
      case EnemyTurn =>
        FaintCheck(e.(battle := DoEnemyTurn(e.battle, d)), PlayerTurn)
  }

  /** `ForceEnd`: nothing once ended, otherwise the end with `ForcedEnd`. */
  function ForceEnd(e: Enc): (r: Enc)
    ensures e.ended ==> r == e
    ensures !e.ended ==> r == EndEncounter(e, ForcedEnd)
  {
    if e.ended then e else EndEncounter(e, ForcedEnd)
  }

  /** `NotifyCaptureSuccess`: the end with `Capture`, unless already ended. */
  function NotifyCaptureSuccess(e: Enc): (r: Enc)
    ensures e.ended ==> r == e
    ensures !e.ended ==> r == EndEncounter(e, Capture)
  {
    if e.ended then e else EndEncounter(e, Capture)
  }

  /** `NotifyCaptureFailed`: queues a capture decision on the turn
      controller, and does nothing else. */
  function NotifyCaptureFailed(e: Enc): (r: Enc)
    ensures r == e || r == e.(queue := QueueCapture(e.queue))
    ensures !e.ended && e.hasTurnController ==> r.queue.capture
    ensures r.ended == e.ended && r.phase == e.phase
  {
    if e.ended || !e.hasTurnController then e else e.(queue := QueueCapture(e.queue))
  }

  // ---- Properties ----

  /** Every operation keeps the invariant: the end runs at most once, the
      callback at most once, and no turn starts with a fainted combatant. */
  lemma StepKeepsInv(e: Enc, d: Draws)
    requires Inv(e)
    ensures Inv(Step(e, d).e)
  {
    if !e.ended && e.phase == Positioning {
      FaintCheckKeepsInv(e, PlayerTurn);
    } else if !e.ended && e.phase == PlayerTurn {
      var pt := DoPlayerTurn(e.battle, e.queue, d);
      if pt.kind != Waiting {
        if pt.kind == MoveTurn {
          var p := ExecuteMove(e.battle.player, e.battle.enemy, e.queue.moveIndex.value, d);
          assert C.Wf(p.attacker) && C.Wf(p.defender);
        }
        FaintCheckKeepsInv(e.(battle := pt.battle, queue := pt.queue), EnemyTurn);
      }
    } else if !e.ended && e.phase == EnemyTurn {
      var p := ExecuteMove(e.battle.enemy, e.battle.player, WildAI.ChooseMoveIndex(e.battle.enemy.model), d);
      assert C.Wf(p.attacker) && C.Wf(p.defender);
      FaintCheckKeepsInv(e.(battle := DoEnemyTurn(e.battle, d)), PlayerTurn);
    }
  }

  /** The end keeps the invariant of an encounter that has not ended. */
  lemma EndKeepsInv(e: Enc, result: EncounterResult)
    requires Inv(e) && !e.ended
    ensures Inv(EndEncounter(e, result))
  {
  }

  /** A faint check after a turn keeps the invariant, whatever the turn did
      to the combatants' health. */
  lemma FaintCheckKeepsInv(e: Enc, next: Phase)
    requires !e.ended && e.phase != Ended && next != Ended
    requires Inv(e.(phase := Positioning))
    ensures Inv(FaintCheck(e, next).e)
  {
    if C.IsFainted(e.battle.player) {
      EndKeepsInv(e.(phase := Positioning), PlayerFainted);
      assert EndEncounter(e, PlayerFainted) == EndEncounter(e.(phase := Positioning), PlayerFainted);
    } else if C.IsFainted(e.battle.enemy) {
      EndKeepsInv(e.(phase := Positioning), EnemyFainted);
      assert EndEncounter(e, EnemyFainted) == EndEncounter(e.(phase := Positioning), EnemyFainted);
    }
  }

  lemma OtherOperationsKeepInv(e: Enc, inside: set<nat>, id: nat, offset: Option<real>, ringRadius: Option<real>)
    requires Inv(e)
    ensures Inv(ForceEnd(e)) && Inv(NotifyCaptureSuccess(e)) && Inv(NotifyCaptureFailed(e))
    ensures Inv(ScannerTick(e, inside)) && Inv(EvictionDone(e, id)) && Inv(ApplyConfig(e, offset, ringRadius))
  {
    if !e.ended {
      EndKeepsInv(e, ForcedEnd);
      EndKeepsInv(e, Capture);
    }
    ScannerTickKeepsInv(e, inside);
    EvictionDoneKeepsInv(e, id);
  }

  lemma ScannerTickKeepsInv(e: Enc, inside: set<nat>)
    requires Inv(e)
    ensures Inv(ScannerTick(e, inside))
  {
  }

  lemma EvictionDoneKeepsInv(e: Enc, id: nat)
    requires Inv(e)
    ensures Inv(EvictionDone(e, id))
  {
  }

  /** The loop alternates: a player turn leads to the enemy turn or the end
      (or keeps waiting), and an enemy turn leads to the next player turn or
      the end. */
  lemma TurnsAlternate(e: Enc, d: Draws)
    requires Inv(e) && !e.ended
    ensures e.phase == PlayerTurn ==> Step(e, d).e.phase in {PlayerTurn, EnemyTurn, Ended}
    ensures e.phase == PlayerTurn && Step(e, d).e.phase == PlayerTurn ==> Step(e, d).e == e && !HasDecision(e.queue)
    ensures e.phase == EnemyTurn ==> Step(e, d).e.phase in {PlayerTurn, Ended}
    ensures e.phase == Positioning ==> Step(e, d).e.phase in {PlayerTurn, Ended}
  {
  }

  /** When both combatants are down at a check, the player's faint is the
      one reported. */
  lemma DoubleKnockOutIsPlayerFainted(e: Enc, d: Draws)
    requires Inv(e) && e.phase == Positioning
    requires C.IsFainted(e.battle.player) && C.IsFainted(e.battle.enemy)
    ensures Step(e, d).endedWith == Some(PlayerFainted)
  {
  }

  /** Running away raises the run event but does not end the encounter:
      the loop goes on to the enemy turn. */
  lemma RunDoesNotEnd(e: Enc, d: Draws)
    requires Inv(e) && e.phase == PlayerTurn && e.queue.run
    ensures Step(e, d).raised == Some(Run)
    ensures Step(e, d).endedWith.None? && Step(e, d).e.phase == EnemyTurn
  {
  }

  /** `ForceEnd` is idempotent. */
  lemma ForceEndIdempotent(e: Enc)
    ensures ForceEnd(ForceEnd(e)) == ForceEnd(e)
  {
  }

  /** After the end, both actors have left combat mode and no bystander is
      still held by an eviction. */
  lemma EndReleasesEveryone(e: Enc, result: EncounterResult)
    ensures var r := EndEncounter(e, result);
      && (r.wildActor.wild.Some? ==> !r.wildActor.wild.value.inCombat)
      && (r.playerActor.wild.Some? ==> !r.playerActor.wild.value.inCombat)
      && (r.playerActor.playerMode.Some? ==> r.playerActor.playerMode.value == false)
      && (forall id :: id in e.evicting && id in e.bystanders && e.bystanders[id].enabled ==> !r.bystanders[id].inCombat)
  {
  }
}

=== FILE: healer.dfy ===
/** Party healing at a healer station (`HealerStation.HealParty`). The
    maximum HP comes from the creature's stat block accessor, which is not
    part of this model; it is the parameter `maxHPOf`. */
module Healer {
  import opened Common
  import opened Data

  datatype Message = NoParty | Healed | NothingToHeal

  datatype HealResult = HealResult(party: Option<seq<Option<Creature>>>, message: Message, healedCount: nat)

  /** Move slots with their PP refilled; a missing entry stays missing, and an
      entry without move data is refilled too. */
  function RestorePP(moves: seq<Option<MoveSlot>>): (r: seq<Option<MoveSlot>>)
    ensures |r| == |moves|
    ensures forall k :: 0 <= k < |moves| ==>
              (moves[k].None? ==> r[k].None?)
              && (moves[k].Some? ==> r[k] == Some(moves[k].value.(currentPP := moves[k].value.maxPP)))
  {
    seq(|moves|, k requires 0 <= k < |moves| =>
      if moves[k].None? then None else Some(moves[k].value.(currentPP := moves[k].value.maxPP)))
  }

  /** One party member after healing. */
  function HealOne(p: Creature, restorePP: bool, maxHPOf: Creature -> int): Creature {
    var moves := if restorePP && p.moves.Some? then Some(RestorePP(p.moves.value)) else p.moves;
    p.(currentHP := maxHPOf(p), moves := moves)
  }

  /** What healing promises for slot `i`: an empty slot stays empty; a member
      gets its maximum HP and, only when `restorePP` is set and it has a
      move list, every move's PP refilled; nothing else about it changes. */
  predicate HealedSlot(before: Option<Creature>, after: Option<Creature>, restorePP: bool, maxHPOf: Creature -> int) {
    (before.None? <==> after.None?)
    && (before.Some? ==>
          var p := before.value;
          var q := after.value;
          q.currentHP == maxHPOf(p)
          && q == p.(currentHP := q.currentHP, moves := q.moves)
          && (restorePP && p.moves.Some? ==>
                q.moves.Some? && |q.moves.value| == |p.moves.value|
                && forall k :: 0 <= k < |p.moves.value| ==>
                     (p.moves.value[k].None? ==> q.moves.value[k].None?)
                     && (p.moves.value[k].Some? ==>
                           (q.moves.value[k].Some?
                            && q.moves.value[k].value.currentPP == p.moves.value[k].value.maxPP
                            && q.moves.value[k].value == p.moves.value[k].value.(currentPP := q.moves.value[k].value.currentPP))))
          && (!(restorePP && p.moves.Some?) ==> q.moves == p.moves))
  }

  /** `HealParty`: with no party only the message is set; otherwise every
      member is healed, the members are counted, and the success message
      is shown exactly when at least one was healed. */
  method HealParty(party: Option<seq<Option<Creature>>>, restorePP: bool, maxHPOf: Creature -> int)
    returns (r: HealResult)
    ensures party.None? ==> r == HealResult(None, NoParty, 0)
    ensures party.Some? ==> r.party.Some? && |r.party.value| == |party.value|
    ensures party.Some? ==> forall i :: 0 <= i < |party.value| ==>
              HealedSlot(party.value[i], r.party.value[i], restorePP, maxHPOf)
    ensures party.Some? ==> r.healedCount == CountSome(party.value)
    ensures party.Some? ==> (r.message == Healed <==> r.healedCount > 0)
    ensures party.Some? ==> (r.message == NothingToHeal <==> r.healedCount == 0)
  {
    if party.None? {
      return HealResult(None, NoParty, 0);
    }
    var list := party.value;
    var out := list;
    var healedCount := 0;
    var i := 0;
    while i < |list|
      invariant 0 <= i <= |list| && |out| == |list|
      invariant healedCount == CountSome(list[..i])
      invariant forall j :: 0 <= j < i ==> HealedSlot(list[j], out[j], restorePP, maxHPOf)
      invariant forall j :: i <= j < |list| ==> out[j] == list[j]
    {
      assert list[..i + 1] == list[..i] + [list[i]];
      var p := list[i];
      if p.Some? {
        out := out[i := Some(HealOne(p.value, restorePP, maxHPOf))];
        healedCount := healedCount + 1;
      }
      i := i + 1;
    }
    assert list[..i] == list;
    r := HealResult(Some(out), if healedCount > 0 then Healed else NothingToHeal, healedCount);
  }

  /** Healing a freshly healed party again changes nothing, provided the
      maximum HP does not depend on the current HP and PP. */
  lemma HealTwiceIsHealOnce(a: Option<Creature>, b: Option<Creature>, c: Option<Creature>,
                            restorePP: bool, maxHPOf: Creature -> int)
    requires HealedSlot(a, b, restorePP, maxHPOf) && HealedSlot(b, c, restorePP, maxHPOf)
    requires a.Some? ==> maxHPOf(b.value) == maxHPOf(a.value)
    ensures c == b
  {
    if a.Some? {
      var q := b.value;
      var w := c.value;
      assert w.currentHP == q.currentHP;
      if restorePP && q.moves.Some? {
        var qm := q.moves.value;
        var wm := w.moves.value;
        assert |wm| == |qm|;
        forall k | 0 <= k < |qm|
          ensures wm[k] == qm[k]
        {
          if qm[k].Some? {
            assert wm[k].value.currentPP == qm[k].value.maxPP == qm[k].value.currentPP;
          }
        }
        assert wm == qm;
      }
      assert w.moves == q.moves;
    }
  }
}

=== FILE: instance.dfy ===
/** Creature construction, experience and level-up (`PokemonInstance`). */
module Instance {
  import opened Common
  import opened Data
  import Stats

  const MaxLevel := 100
  const MaxAttacks := 4

  predicate NoDuplicates<T(==)>(s: seq<T>) {
    forall i, j :: 0 <= i < j < |s| ==> s[i] != s[j]
  }

  /** Reference definition: the attacks of the learnable entries whose level is
      at most `level`, in table order. */
  function Eligible(entries: seq<LearnEntry>, level: int): (r: seq<Attack>)
    ensures |r| <= |entries|
  {
    if |entries| == 0 then []
    else (if entries[0].level <= level then [entries[0].attack] else []) + Eligible(entries[1..], level)
  }

  function TakeAtMost<T>(s: seq<T>, n: nat): (r: seq<T>)
    ensures |r| <= n && |r| <= |s|
    ensures r == s[..|r|]
    ensures |s| >= n ==> |r| == n
  {
    if |s| <= n then s else s[..n]
  }

  /** The constructor's `foreach` over the learnable table: an entry whose level
      is at most `level` is appended, and the loop breaks as soon as four
      attacks are known. */
  function LearnInitial(entries: seq<LearnEntry>, level: int, acc: seq<Attack>): seq<Attack>
    decreases |entries|
  {
    if |entries| == 0 then acc
    else if entries[0].level <= level then
      var next := acc + [entries[0].attack];
      if |next| >= MaxAttacks then next else LearnInitial(entries[1..], level, next)
    else LearnInitial(entries[1..], level, acc)
  }

  /** The loop with the early break learns exactly the first four eligible
      attacks (or all of them when there are fewer). */
  lemma {:induction false} LearnInitialIsFirstEligible(entries: seq<LearnEntry>, level: int, acc: seq<Attack>)
    requires |acc| < MaxAttacks
    ensures LearnInitial(entries, level, acc) == TakeAtMost(acc + Eligible(entries, level), MaxAttacks)
    decreases |entries|
  {
    if |entries| == 0 {
      assert acc + Eligible(entries, level) == acc;
    } else if entries[0].level <= level {
      var next := acc + [entries[0].attack];
      assert acc + Eligible(entries, level) == next + Eligible(entries[1..], level);
      if |next| < MaxAttacks {
        LearnInitialIsFirstEligible(entries[1..], level, next);
      } else {
        assert (next + Eligible(entries[1..], level))[..MaxAttacks] == next;
      }
    } else {
      assert Eligible(entries, level) == Eligible(entries[1..], level);
      LearnInitialIsFirstEligible(entries[1..], level, acc);
    }
  }

  /** The constructor `PokemonInstance(data, level)`, minus the gender draw,
      the ability draw, the GUID and the `isShiny` parameter. The `Moves` list is not set by the
      constructor shown, so it is taken as given. */
  function NewInstance(id: nat, species: Species, level: int, moves: Option<seq<Option<MoveSlot>>>): (r: Creature)
    ensures r.species == Some(species) && r.level == level
    ensures r.currentExp == 0
    ensures r.ivs == DefaultIVs && r.evs == DefaultEVs
    ensures r.stats == Stats.CalculateAllStats(species.base, level, DefaultIVs, DefaultEVs)
    ensures r.currentHP == r.stats.hp
    ensures r.learned == TakeAtMost(Eligible(species.learnable, level), MaxAttacks)
  {
    var stats := Stats.CalculateAllStats(species.base, level, DefaultIVs, DefaultEVs);
    LearnInitialIsFirstEligible(species.learnable, level, []);
    assert [] + Eligible(species.learnable, level) == Eligible(species.learnable, level);
    Creature(id, Some(species), level, 0, DefaultIVs, DefaultEVs, stats, stats.hp,
             LearnInitial(species.learnable, level, []), moves)
  }

  /** `GetRequiredExpForLevel`. The MediumSlow, Fluctuating and Erratic curves
      are computed with float powers in the source; they are the parameter
      `floatCurve` here. The integer curves are exact for levels 1..100. */
  function RequiredExp(g: GrowthRate, level: int, floatCurve: (GrowthRate, int) -> int): (r: int)
    ensures g == MediumFast ==> r == level * level * level
    ensures g == Fast ==> 5 * r <= 4 * (level * level * level) < 5 * r + 5
    ensures g == Slow ==> 4 * r <= 5 * (level * level * level) < 4 * r + 4
    ensures g.MediumSlow? || g.Fluctuating? || g.Erratic? ==> r == floatCurve(g, level)
  {
    match g
    case Fast => (4 * (level * level * level)) / 5
    case MediumFast => level * level * level
    case Slow => (5 * (level * level * level)) / 4
    case _ => floatCurve(g, level)
  }

  /** The `foreach` of `LevelUp` over the learnable table: an entry at exactly
      the new level whose attack is not yet known is appended, first dropping
      the oldest attack when four are known. */
  function LearnAtLevel(entries: seq<LearnEntry>, level: int, learned: seq<Attack>): (r: seq<Attack>)
    ensures NoDuplicates(learned) ==> NoDuplicates(r)
    ensures |learned| <= MaxAttacks ==> |r| <= MaxAttacks
    ensures |r| >= |learned|
    ensures forall a :: a in r ==> a in learned || a in ListedAt(entries, level)
    ensures (forall e :: e in entries && e.level == level ==> e.attack in learned) ==> r == learned
    decreases |entries|
  {
    if |entries| == 0 then learned
    else
      var e := entries[0];
      var next := if e.level == level then LearnOne(learned, e.attack) else learned;
      assert forall x :: x in entries[1..] ==> x in entries;
      assert ListedAt(entries, level) == (if e.level == level then [e.attack] else []) + ListedAt(entries[1..], level);
      LearnAtLevel(entries[1..], level, next)
  }

  /** Whenever the walk changes the known attacks, the newest one (at the end)
      is an attack listed at that level. */
  lemma LearnAtLevelLastIsListed(entries: seq<LearnEntry>, level: int, learned: seq<Attack>)
    ensures EndsWithOneOf(learned, LearnAtLevel(entries, level, learned), ListedAt(entries, level))
  {
    LearnAtLevelIsLearnAll(entries, level, learned);
    LearnAllLastIn(learned, ListedAt(entries, level));
  }

  /** `after` differs from `before` only if it ends with one of `attacks`. */
  predicate EndsWithOneOf(before: seq<Attack>, after: seq<Attack>, attacks: seq<Attack>) {
    after != before ==> |after| > 0 && after[|after| - 1] in attacks
  }

  /** Learning a list changes the known attacks only by ending them with one
      of the listed attacks. */
  lemma {:induction false} LearnAllLastIn(learned: seq<Attack>, attacks: seq<Attack>)
    ensures EndsWithOneOf(learned, LearnAll(learned, attacks), attacks)
    decreases |attacks|
  {
    if |attacks| > 0 {
      var next := LearnOne(learned, attacks[0]);
      LearnAllLastIn(next, attacks[1..]);
      var r := LearnAll(next, attacks[1..]);
      assert LearnAll(learned, attacks) == r;
      if r != next {
        var x := r[|r| - 1];
        assert x in attacks[1..];
        var k :| 0 <= k < |attacks[1..]| && attacks[1..][k] == x;
        assert attacks[k + 1] == x;
      } else if r != learned {
        assert r[|r| - 1] == attacks[0];
      }
    }
  }

  /** One step of the table walk. */
  lemma LearnAtLevelUnfold(entries: seq<LearnEntry>, level: int, learned: seq<Attack>)
    requires |entries| > 0
    ensures LearnAtLevel(entries, level, learned)
         == LearnAtLevel(entries[1..], level, if entries[0].level == level then LearnOne(learned, entries[0].attack) else learned)
  {
  }

  /** Reference definition: the attacks listed at exactly `level`, in table
      order. */
  function ListedAt(entries: seq<LearnEntry>, level: int): (r: seq<Attack>)
    ensures |r| <= |entries|
    ensures forall e :: e in entries && e.level == level ==> e.attack in r
  {
    if |entries| == 0 then []
    else (if entries[0].level == level then [entries[0].attack] else []) + ListedAt(entries[1..], level)
  }

  /** Learning one attack: a known attack changes nothing; a new one goes to
      the end, after the oldest is dropped when four are known. */
  function LearnOne(learned: seq<Attack>, a: Attack): (r: seq<Attack>)
    ensures a in learned ==> r == learned
    ensures a !in learned ==>
              |r| > 0 && r[|r| - 1] == a && r[..|r| - 1] == (if |learned| >= MaxAttacks then learned[1..] else learned)
    ensures NoDuplicates(learned) ==> NoDuplicates(r)
    ensures |learned| <= MaxAttacks ==> |r| <= MaxAttacks
    ensures |r| >= |learned|
    ensures forall x :: x in r ==> x in learned || x == a
  {
    if a in learned then learned
    else (if |learned| >= MaxAttacks then learned[1..] else learned) + [a]
  }

  /** Learning a list of attacks one after the other. */
  function LearnAll(learned: seq<Attack>, attacks: seq<Attack>): seq<Attack>
    decreases |attacks|
  {
    if |attacks| == 0 then learned else LearnAll(LearnOne(learned, attacks[0]), attacks[1..])
  }

  /** The table walk of `LevelUp` is the listed attacks learned one by one. */
  lemma {:induction false} LearnAtLevelIsLearnAll(entries: seq<LearnEntry>, level: int, learned: seq<Attack>)
    ensures LearnAtLevel(entries, level, learned) == LearnAll(learned, ListedAt(entries, level))
    decreases |entries|
  {
    if |entries| > 0 {
      var e := entries[0];
      LearnAtLevelIsLearnAll(entries[1..], level, LearnOne(learned, e.attack));
      LearnAtLevelIsLearnAll(entries[1..], level, learned);
      if e.level == level {
        var listed := ListedAt(entries, level);
        assert listed == [e.attack] + ListedAt(entries[1..], level);
        assert listed[1..] == ListedAt(entries[1..], level);
      } else {
        assert ListedAt(entries, level) == ListedAt(entries[1..], level);
      }
    }
  }

  /** When the known attacks and the listed ones fit in four, nothing is
      dropped: the known attacks stay in front and every listed attack is
      learned. */
  lemma {:induction false} LearnAtLevelWithRoom(entries: seq<LearnEntry>, level: int, learned: seq<Attack>)
    ensures |learned| + |ListedAt(entries, level)| <= MaxAttacks ==>
      var r := LearnAtLevel(entries, level, learned);
      |r| >= |learned| && r[..|learned|] == learned
      && forall e :: e in entries && e.level == level ==> e.attack in r
    decreases |entries|
  {
    if |entries| > 0 && |learned| + |ListedAt(entries, level)| <= MaxAttacks {
      var e := entries[0];
      var rest := entries[1..];
      var r := LearnAtLevel(entries, level, learned);
      if e.level == level {
        assert ListedAt(entries, level) == [e.attack] + ListedAt(rest, level);
        if e.attack !in learned {
          var next := learned + [e.attack];
          assert LearnOne(learned, e.attack) == next;
          LearnAtLevelWithRoom(rest, level, next);
          assert r[..|learned|] == r[..|next|][..|learned|];
          assert r[|learned|] == r[..|next|][|learned|] == e.attack;
        } else {
          LearnAtLevelWithRoom(rest, level, learned);
        }
      } else {
        assert ListedAt(entries, level) == ListedAt(rest, level);
        LearnAtLevelWithRoom(rest, level, learned);
      }
      forall x | x in entries && x.level == level
        ensures x.attack in r
      {
        if x != e {
          assert x in rest;
        }
      }
    }
  }

  /** With four attacks known and one new attack listed, the oldest is
      dropped and the new one goes to the end. */
  lemma DropsOldest(entries: seq<LearnEntry>, level: int, learned: seq<Attack>, a: Attack)
    requires |learned| == MaxAttacks && a !in learned && ListedAt(entries, level) == [a]
    ensures LearnAtLevel(entries, level, learned) == learned[1..] + [a]
  {
    LearnAtLevelIsLearnAll(entries, level, learned);
    assert LearnAll(learned, [a]) == LearnAll(LearnOne(learned, a), []);
  }

  /** Two distinct assets listed at the same level are both learned, even
      when they agree in every field but their identity. */
  lemma DistinctAssetsBothLearned(a: Attack, level: int)
    ensures var b := a.(id := a.id + 1);
      LearnAtLevel([LearnEntry(a, level), LearnEntry(b, level)], level, []) == [a, b]
  {
    var b := a.(id := a.id + 1);
    LearnFirstOfTwo(a, b, level);
    LearnLastOfOne(a, b, level);
  }

  lemma LearnFirstOfTwo(a: Attack, b: Attack, level: int)
    ensures LearnAtLevel([LearnEntry(a, level), LearnEntry(b, level)], level, [])
         == LearnAtLevel([LearnEntry(b, level)], level, [a])
  {
    var entries := [LearnEntry(a, level), LearnEntry(b, level)];
    LearnAtLevelUnfold(entries, level, []);
    assert entries[1..] == [LearnEntry(b, level)];
  }

  lemma LearnLastOfOne(a: Attack, b: Attack, level: int)
    requires a != b
    ensures LearnAtLevel([LearnEntry(b, level)], level, [a]) == [a, b]
  {
    var entries := [LearnEntry(b, level)];
    LearnAtLevelUnfold(entries, level, [a]);
    assert entries[1..] == [];
    assert LearnOne([a], b) == [a, b];
  }

  /** What learning at `level` does to the known attacks `before`: they are
      the listed attacks learned one by one; when everything fits in four,
      the known attacks stay in front and every listed attack is learned;
      when nothing listed is new, nothing changes. */
  predicate LearnsAt(entries: seq<LearnEntry>, level: int, before: seq<Attack>, after: seq<Attack>) {
    && after == LearnAll(before, ListedAt(entries, level))
    && (|before| + |ListedAt(entries, level)| <= MaxAttacks ==>
          |after| >= |before| && after[..|before|] == before
          && forall e :: e in entries && e.level == level ==> e.attack in after)
    && ((forall e :: e in entries && e.level == level ==> e.attack in before) ==> after == before)
  }

  /** The table walk meets the reference definition. */
  lemma LearnAtLevelLearnsAt(entries: seq<LearnEntry>, level: int, before: seq<Attack>)
    ensures LearnsAt(entries, level, before, LearnAtLevel(entries, level, before))
  {
    LearnAtLevelIsLearnAll(entries, level, before);
    LearnAtLevelWithRoom(entries, level, before);
  }

  /** `LevelUp`: a no-op at level 100 or above; otherwise one level higher,
      stats recomputed, current HP raised by exactly the change in the HP stat,
      and new attacks of that level learned. */
  function LevelUp(c: Creature): (r: Creature)
    requires c.species.Some?
    ensures c.level >= MaxLevel ==> r == c
    ensures c.level < MaxLevel ==> r.level == c.level + 1
    ensures c.level < MaxLevel ==> r.stats == Stats.CalculateAllStats(c.species.value.base, r.level, c.ivs, c.evs)
    ensures r.currentHP - c.currentHP == r.stats.hp - c.stats.hp
    ensures r.species == c.species && r.ivs == c.ivs && r.evs == c.evs
    ensures r.currentExp == c.currentExp && r.id == c.id && r.moves == c.moves
    ensures NoDuplicates(c.learned) ==> NoDuplicates(r.learned)
    ensures |c.learned| <= MaxAttacks ==> |r.learned| <= MaxAttacks
    ensures c.level < MaxLevel ==> r.learned == LearnAtLevel(c.species.value.learnable, c.level + 1, c.learned)
  {
    if c.level >= MaxLevel then c
    else
      var sp := c.species.value;
      var level := c.level + 1;
      var stats := Stats.CalculateAllStats(sp.base, level, c.ivs, c.evs);
      var learned := LearnAtLevel(sp.learnable, level, c.learned);
      var r := c.(level := level,
         stats := stats,
         currentHP := c.currentHP + (stats.hp - c.stats.hp),
         learned := learned);
      assert r.learned == learned;
      r
  }

  /** What `LevelUp` learns: the attacks listed at the new level, learned one
      by one after the known ones; when the known attacks change, the newest
      one is at the end and is listed at the new level. */
  lemma LevelUpLearns(c: Creature)
    requires c.species.Some? && c.level < MaxLevel
    ensures LearnsAt(c.species.value.learnable, c.level + 1, c.learned, LevelUp(c).learned)
    ensures EndsWithOneOf(c.learned, LevelUp(c).learned, ListedAt(c.species.value.learnable, c.level + 1))
  {
    var entries, level := c.species.value.learnable, c.level + 1;
    var r := LevelUp(c).learned;
    assert r == LearnAtLevel(entries, level, c.learned);
    LearnAtLevelLearnsAt(entries, level, c.learned);
    LearnAtLevelLastIsListed(entries, level, c.learned);
  }

  /** Experience consumed by climbing from level `from` to level `to`. */
  function ExpSpent(g: GrowthRate, from: int, to: int, floatCurve: (GrowthRate, int) -> int): int
    decreases to - from
  {
    if to <= from then 0 else ExpSpent(g, from, to - 1, floatCurve) + RequiredExp(g, to, floatCurve)
  }

  /** `GainExperience`: add the amount, then level up while below 100 and
      the stored experience covers the next level's requirement. Every level
      climbed was paid for: the experience spent up to it never exceeds what
      was held after the gain. */
  method GainExperience(c: Creature, amount: int, floatCurve: (GrowthRate, int) -> int) returns (r: Creature)
    requires c.species.Some?
    ensures r.species == c.species && r.id == c.id
    ensures r.level >= c.level
    ensures c.level <= MaxLevel ==> r.level <= MaxLevel
    ensures r.level >= MaxLevel || r.currentExp < RequiredExp(c.species.value.growth, r.level + 1, floatCurve)
    ensures r.currentExp + ExpSpent(c.species.value.growth, c.level, r.level, floatCurve) == c.currentExp + amount
    ensures forall L :: c.level < L <= r.level ==> ExpSpent(c.species.value.growth, c.level, L, floatCurve) <= c.currentExp + amount
    ensures r.level > c.level ==> r.stats == Stats.CalculateAllStats(c.species.value.base, r.level, c.ivs, c.evs)
    ensures r.ivs == c.ivs && r.evs == c.evs
    ensures r.currentHP - c.currentHP == r.stats.hp - c.stats.hp
    ensures NoDuplicates(c.learned) ==> NoDuplicates(r.learned)
    ensures |c.learned| <= MaxAttacks ==> |r.learned| <= MaxAttacks
  {
    var g := c.species.value.growth;
    r := c.(currentExp := c.currentExp + amount);
    while r.level < MaxLevel && r.currentExp >= RequiredExp(g, r.level + 1, floatCurve)
      invariant r.species == c.species && r.id == c.id
      invariant r.level >= c.level
      invariant c.level <= MaxLevel ==> r.level <= MaxLevel
      invariant r.currentExp + ExpSpent(g, c.level, r.level, floatCurve) == c.currentExp + amount
      invariant forall L :: c.level < L <= r.level ==> ExpSpent(g, c.level, L, floatCurve) <= c.currentExp + amount
      invariant r.level > c.level ==> r.stats == Stats.CalculateAllStats(c.species.value.base, r.level, c.ivs, c.evs)
      invariant r.ivs == c.ivs && r.evs == c.evs
      invariant r.currentHP - c.currentHP == r.stats.hp - c.stats.hp
      invariant NoDuplicates(c.learned) ==> NoDuplicates(r.learned)
      invariant |c.learned| <= MaxAttacks ==> |r.learned| <= MaxAttacks
      decreases MaxLevel - r.level
    {
      r := r.(currentExp := r.currentExp - RequiredExp(g, r.level + 1, floatCurve));
      r := LevelUp(r);
    }
  }
}

=== FILE: inventory.dfy ===
/** The player's item list (`InventoryManager`): entries of item, quantity
    and unlocked flag. `AddItem`, `UnlockItem` and `LockItem` find an entry by
    item identity, while `UseItem` and `GetQuantity` find it by item name. */
module Inventory {
  import opened Common
  import opened ItemDatabase

  datatype Entry = Entry(item: Item, quantity: int, unlocked: bool)

  type Inv = seq<Entry>

  /** Some entry holds exactly this item. */
  predicate Has(inv: Inv, item: Item) {
    exists i :: 0 <= i < |inv| && inv[i].item == item
  }

  /** No item has two entries. */
  predicate UniqueItems(inv: Inv) {
    forall i, j :: 0 <= i < j < |inv| ==> inv[i].item != inv[j].item
  }

  /** No quantity is negative. */
  predicate NonNegative(inv: Inv) {
    forall i :: 0 <= i < |inv| ==> inv[i].quantity >= 0
  }

  /** Every entry sharing the name of `item` is an entry of `item` itself, so
      looking up by name and by identity find the same entry. */
  predicate NameIsUnambiguous(inv: Inv, item: Item) {
    forall i :: 0 <= i < |inv| && inv[i].item.name == item.name ==> inv[i].item == item
  }

  /** `inventory.Find(e => e.item == item)`, as an index. */
  function FindByRef(inv: Inv, item: Item): (r: Option<nat>)
    ensures r.None? <==> !Has(inv, item)
    ensures r.Some? ==> r.value < |inv| && inv[r.value].item == item
                        && forall j :: 0 <= j < r.value ==> inv[j].item != item
  {
    if inv == [] then None
    else if inv[0].item == item then Some(0)
    else match FindByRef(inv[1..], item)
      case None => (assert forall j :: 1 <= j < |inv| ==> inv[j] == inv[1..][j - 1]; None)
      case Some(k) => Some(k + 1)
  }

  /** `inventory.Find(e => e.item.itemName == name)`, as an index. */
  function FindByName(inv: Inv, name: string): (r: Option<nat>)
    ensures r.None? <==> forall j :: 0 <= j < |inv| ==> inv[j].item.name != name
    ensures r.Some? ==> r.value < |inv| && inv[r.value].item.name == name
                        && forall j :: 0 <= j < r.value ==> inv[j].item.name != name
  {
    if inv == [] then None
    else if inv[0].item.name == name then Some(0)
    else match FindByName(inv[1..], name)
      case None => (assert forall j :: 1 <= j < |inv| ==> inv[j] == inv[1..][j - 1]; None)
      case Some(k) => Some(k + 1)
  }

  /** `AddItem`: an item already present has `amount` added and its unlocked
      flag or-ed with the new one, in place; a new item is appended as one
      entry. */
  function AddItem(inv: Inv, item: Item, amount: int, unlocked: bool): (r: Inv)
    ensures !Has(inv, item) ==> r == inv + [Entry(item, amount, unlocked)]
    ensures Has(inv, item) ==> |r| == |inv|
    ensures Has(inv, item) ==> forall j :: 0 <= j < |inv| && inv[j].item != item ==> r[j] == inv[j]
    ensures UniqueItems(inv) && Has(inv, item) ==>
              forall j :: 0 <= j < |inv| && inv[j].item == item ==>
                r[j] == Entry(item, inv[j].quantity + amount, inv[j].unlocked || unlocked)
  {
    match FindByRef(inv, item)
    case Some(i) =>
      inv[i := inv[i].(quantity := inv[i].quantity + amount, unlocked := inv[i].unlocked || unlocked)]
    case None => inv + [Entry(item, amount, unlocked)]
  }

  datatype UseResult = UseResult(inv: Inv, used: bool)

  /** `UseItem`: only the first entry with the item's name is considered; it
      loses exactly one unit when it has any, and otherwise nothing changes. */
  function UseItem(inv: Inv, item: Item): (r: UseResult)
    ensures |r.inv| == |inv|
    ensures r.used <==> exists i :: 0 <= i < |inv| && inv[i].item.name == item.name && inv[i].quantity > 0
                                    && forall j :: 0 <= j < i ==> inv[j].item.name != item.name
    ensures !r.used ==> r.inv == inv
    ensures r.used ==> exists i :: 0 <= i < |inv| && r.inv == inv[i := inv[i].(quantity := inv[i].quantity - 1)]
                                   && inv[i].item.name == item.name && inv[i].quantity > 0
  {
    match FindByName(inv, item.name)
    case Some(i) =>
      if inv[i].quantity > 0 then UseResult(inv[i := inv[i].(quantity := inv[i].quantity - 1)], true)
      else UseResult(inv, false)
    case None => UseResult(inv, false)
  }

  /** `GetQuantity`: the quantity of the first entry with the item's name, or 0. */
  function GetQuantity(inv: Inv, item: Item): (r: int)
    ensures (forall j :: 0 <= j < |inv| ==> inv[j].item.name != item.name) ==> r == 0
    ensures forall i :: (0 <= i < |inv| && inv[i].item.name == item.name
                         && (forall j :: 0 <= j < i ==> inv[j].item.name != item.name)) ==> r == inv[i].quantity
  {
    match FindByName(inv, item.name)
    case Some(i) => inv[i].quantity
    case None => 0
  }

  /** `GetItemsByCategory`: the entries whose item has category `c`, in
      inventory order. */
  function EntriesByCategory(inv: Inv, c: ItemCategory): (r: Inv)
    ensures |r| <= |inv|
    ensures forall i :: 0 <= i < |r| ==> r[i].item.category == c
  {
    if inv == [] then []
    else EntriesByCategory(inv[..|inv| - 1], c)
         + (if inv[|inv| - 1].item.category == c then [inv[|inv| - 1]] else [])
  }

  /** The result holds exactly the inventory's entries of category `c`. */
  lemma {:induction false} EntriesByCategoryMembers(inv: Inv, c: ItemCategory, x: Entry)
    ensures x in EntriesByCategory(inv, c) <==> x in inv && x.item.category == c
  {
    if inv != [] {
      var init := inv[..|inv| - 1];
      EntriesByCategoryMembers(init, c, x);
      assert inv == init + [inv[|inv| - 1]];
    }
  }

  /** Filtering distributes over concatenation, so the result keeps the
      inventory's relative order. */
  lemma {:induction false} EntriesByCategoryAppend(a: Inv, b: Inv, c: ItemCategory)
    ensures EntriesByCategory(a + b, c) == EntriesByCategory(a, c) + EntriesByCategory(b, c)
    decreases |b|
  {
    if b == [] {
      assert a + b == a;
    } else {
      var b' := b[..|b| - 1];
      var last := b[|b| - 1];
      var tail := if last.item.category == c then [last] else [];
      assert EntriesByCategory(a + b, c) == EntriesByCategory(a + b', c) + tail by {
        assert (a + b)[..|a + b| - 1] == a + b';
        assert (a + b)[|a + b| - 1] == last;
      }
      assert EntriesByCategory(b, c) == EntriesByCategory(b', c) + tail;
      EntriesByCategoryAppend(a, b', c);
    }
  }

  /** `UnlockItem`: an existing entry becomes unlocked in place; a new item is
      appended unlocked with quantity 0. */
  function UnlockItem(inv: Inv, item: Item): (r: Inv)
    ensures !Has(inv, item) ==> r == inv + [Entry(item, 0, true)]
    ensures Has(inv, item) ==> |r| == |inv|
    ensures forall j :: 0 <= j < |inv| && inv[j].item != item ==> r[j] == inv[j]
    ensures UniqueItems(inv) ==>
              forall j :: 0 <= j < |inv| && inv[j].item == item ==> r[j] == inv[j].(unlocked := true)
  {
    match FindByRef(inv, item)
    case Some(i) => inv[i := inv[i].(unlocked := true)]
    case None => inv + [Entry(item, 0, true)]
  }

  /** `LockItem`: an existing entry becomes locked in place; an absent item
      changes nothing, in particular no entry is created. */
  function LockItem(inv: Inv, item: Item): (r: Inv)
    ensures |r| == |inv|
    ensures !Has(inv, item) ==> r == inv
    ensures forall j :: 0 <= j < |inv| ==> r[j].item == inv[j].item && r[j].quantity == inv[j].quantity
    ensures forall j :: 0 <= j < |inv| && inv[j].item != item ==> r[j] == inv[j]
    ensures UniqueItems(inv) ==> forall j :: 0 <= j < |inv| && inv[j].item == item ==> !r[j].unlocked
  {
    match FindByRef(inv, item)
    case Some(i) => inv[i := inv[i].(unlocked := false)]
    case None => inv
  }

  /** Whether `item` is present and unlocked (by identity). */
  predicate IsUnlocked(inv: Inv, item: Item) {
    exists i :: 0 <= i < |inv| && inv[i].item == item && inv[i].unlocked
  }

  /** The starting amount and unlock state `Start` gives a database item:
      five units, unlocked unless it is a ball that starts locked. */
  function StartUnlocked(item: Item): bool {
    if item.kind.BallItem? then item.kind.unlockedByDefault else true
  }

  /** The quantity of the entry holding exactly `item`, or 0 without one. */
  function QuantityOf(inv: Inv, item: Item): int {
    match FindByRef(inv, item)
    case Some(i) => inv[i].quantity
    case None => 0
  }

  /** Whether the entry holding exactly `item` is unlocked; false without one. */
  predicate UnlockedOf(inv: Inv, item: Item) {
    match FindByRef(inv, item)
    case Some(i) => inv[i].unlocked
    case None => false
  }

  /** `Start`: every database item added in order with five units. */
  function Start(inv: Inv, allItems: seq<Item>): (r: Inv)
    ensures UniqueItems(inv) ==> UniqueItems(r)
    ensures forall x :: x in allItems ==> Has(r, x)
    ensures forall i :: 0 <= i < |inv| ==> Has(r, inv[i].item)
    decreases |allItems|
  {
    if allItems == [] then inv
    else
      var next := AddItem(inv, allItems[0], 5, StartUnlocked(allItems[0]));
      assert UniqueItems(inv) ==> UniqueItems(next);
      AddItemKeepsItems(inv, allItems[0], 5, StartUnlocked(allItems[0]));
      var r := Start(next, allItems[1..]);
      assert forall x :: x in allItems ==> x == allItems[0] || x in allItems[1..];
      r
  }

  // ---- Properties ----

  /** `AddItem` keeps every item it had and adds the new one. */
  lemma AddItemKeepsItems(inv: Inv, item: Item, amount: int, unlocked: bool)
    ensures var r := AddItem(inv, item, amount, unlocked);
      Has(r, item) && forall i :: 0 <= i < |inv| ==> Has(r, inv[i].item)
  {
    var r := AddItem(inv, item, amount, unlocked);
    forall i | 0 <= i < |inv|
      ensures Has(r, inv[i].item)
    {
      assert r[i].item == inv[i].item;
    }
    if Has(inv, item) {
      var k := FindByRef(inv, item).value;
      assert r[k].item == item;
    } else {
      assert r[|inv|].item == item;
    }
  }

  /** Entries stay unique per item under `AddItem`. */
  lemma AddItemKeepsUnique(inv: Inv, item: Item, amount: int, unlocked: bool)
    requires UniqueItems(inv)
    ensures UniqueItems(AddItem(inv, item, amount, unlocked))
  {
  }

  /** With unique entries, the entry of `x` is the only one holding `x`. */
  lemma FindByRefUnique(inv: Inv, x: Item, k: nat)
    requires UniqueItems(inv) && k < |inv| && inv[k].item == x
    ensures FindByRef(inv, x) == Some(k)
  {
    var j := FindByRef(inv, x).value;
    assert inv[j].item == x;
  }

  /** `AddItem` adds `amount` to the entry of `item` and ors in its flag,
      and leaves every other item's quantity and flag as they were. */
  lemma AddItemEffect(inv: Inv, item: Item, amount: int, unlocked: bool, x: Item)
    requires UniqueItems(inv)
    ensures var r := AddItem(inv, item, amount, unlocked);
      && QuantityOf(r, x) == QuantityOf(inv, x) + (if x == item then amount else 0)
      && (UnlockedOf(r, x) <==> UnlockedOf(inv, x) || (x == item && unlocked))
  {
    var r := AddItem(inv, item, amount, unlocked);
    AddItemKeepsUnique(inv, item, amount, unlocked);
    assert forall j :: 0 <= j < |inv| ==> r[j].item == inv[j].item;
    match FindByRef(inv, x)
    case Some(k) =>
      FindByRefUnique(r, x, k);
    case None =>
      if x == item {
        assert r[|inv|].item == x;
        FindByRefUnique(r, x, |inv|);
      } else {
        assert forall j :: 0 <= j < |r| ==> r[j].item != x;
        assert FindByRef(r, x).None?;
      }
  }

  /** What `Start` gives each item: five units per time the database lists
      it, on top of what was held, and unlocked when it was unlocked before
      or the database lists it and `StartUnlocked` says so. */
  lemma {:induction false} StartAddsFive(inv: Inv, allItems: seq<Item>, x: Item)
    requires UniqueItems(inv)
    ensures QuantityOf(Start(inv, allItems), x) == QuantityOf(inv, x) + 5 * multiset(allItems)[x]
    ensures UnlockedOf(Start(inv, allItems), x) <==> UnlockedOf(inv, x) || (x in allItems && StartUnlocked(x))
    decreases |allItems|
  {
    if allItems != [] {
      var a := allItems[0];
      var next := AddItem(inv, a, 5, StartUnlocked(a));
      AddItemKeepsUnique(inv, a, 5, StartUnlocked(a));
      AddItemEffect(inv, a, 5, StartUnlocked(a), x);
      StartAddsFive(next, allItems[1..], x);
      assert Start(inv, allItems) == Start(next, allItems[1..]);
      assert allItems == [a] + allItems[1..];
      assert multiset(allItems) == multiset{a} + multiset(allItems[1..]);
      assert x in allItems <==> x == a || x in allItems[1..];
    }
  }

  /** Entries stay unique per item under `UnlockItem`, `LockItem` and `UseItem`. */
  lemma OtherOperationsKeepUnique(inv: Inv, item: Item)
    requires UniqueItems(inv)
    ensures UniqueItems(UnlockItem(inv, item))
    ensures UniqueItems(LockItem(inv, item))
    ensures UniqueItems(UseItem(inv, item).inv)
  {
    var u := UseItem(inv, item);
    if u.used {
      var i :| 0 <= i < |inv| && u.inv == inv[i := inv[i].(quantity := inv[i].quantity - 1)];
      assert forall j :: 0 <= j < |inv| ==> u.inv[j].item == inv[j].item;
    }
  }

  /** With an unambiguous name, adding `amount` raises the reported quantity
      by exactly `amount`. */
  lemma AddThenQuantity(inv: Inv, item: Item, amount: int, unlocked: bool)
    requires UniqueItems(inv) && NameIsUnambiguous(inv, item)
    ensures GetQuantity(AddItem(inv, item, amount, unlocked), item) == GetQuantity(inv, item) + amount
  {
    var r := AddItem(inv, item, amount, unlocked);
    match FindByRef(inv, item)
    case Some(k) =>
      assert FindByName(inv, item.name) == Some(k);
      assert r[k].item.name == item.name;
      assert FindByName(r, item.name) == Some(k);
    case None =>
      assert FindByName(inv, item.name).None?;
      assert r[|inv|].item.name == item.name;
      assert FindByName(r, item.name) == Some(|inv|);
  }

  /** A successful `UseItem` lowers the reported quantity by one; a refused
      one leaves it at zero or below. Quantities never become negative. */
  lemma UseThenQuantity(inv: Inv, item: Item)
    ensures var u := UseItem(inv, item);
      && (u.used ==> GetQuantity(u.inv, item) == GetQuantity(inv, item) - 1 >= 0)
      && (!u.used ==> GetQuantity(inv, item) <= 0)
      && (NonNegative(inv) ==> NonNegative(u.inv))
  {
    var u := UseItem(inv, item);
    match FindByName(inv, item.name)
    case Some(i) =>
      if u.used {
        assert forall j :: 0 <= j < |inv| ==> u.inv[j].item == inv[j].item;
        assert FindByName(u.inv, item.name) == Some(i);
      }
    case None =>
  }

  /** Unlocking makes the item present and unlocked; locking it afterwards
      keeps it present but no longer unlocked, with its quantity intact. */
  lemma UnlockThenLock(inv: Inv, item: Item)
    requires UniqueItems(inv)
    ensures IsUnlocked(UnlockItem(inv, item), item)
    ensures var l := LockItem(UnlockItem(inv, item), item);
      Has(l, item) && !IsUnlocked(l, item)
  {
    var u := UnlockItem(inv, item);
    OtherOperationsKeepUnique(inv, item);
    match FindByRef(inv, item)
    case Some(k) =>
      assert u[k].item == item && u[k].unlocked;
    case None =>
      assert u[|inv|].item == item && u[|inv|].unlocked;
    var k := FindByRef(u, item).value;
    var l := LockItem(u, item);
    assert l[k].item == item;
  }
}

=== FILE: itemdb.dfy ===
/** Item definitions (`ItemData`) and the database lookups of
    `ItemDatabase`. An item asset is identified by reference in the program;
    here that identity is the `id` field, so two items are the same asset
    exactly when they are equal values. */
module ItemDatabase {
  import opened Common

  datatype ItemCategory = Pokeball | Healing | Battle | KeyItem

  /** The concrete asset class: a plain item, a ball (`PokeballData`) or a
      healing item (`HealingItemData`). */
  datatype ItemKind =
    | Plain
    | BallItem(catchMultiplier: real, unlockedByDefault: bool)
    | HealingItem(restoreHP: int, revive: bool)

  datatype Item = Item(id: nat, name: string, category: ItemCategory, kind: ItemKind)

  /** `GetItemsByCategory`: the items of category `c`, in database order. */
  function ByCategory(items: seq<Item>, c: ItemCategory): (r: seq<Item>)
    ensures |r| <= |items|
    ensures forall i :: 0 <= i < |r| ==> r[i].category == c
  {
    if items == [] then []
    else ByCategory(items[..|items| - 1], c)
         + (if items[|items| - 1].category == c then [items[|items| - 1]] else [])
  }

  /** The result holds exactly the database's items of category `c`. */
  lemma {:induction false} ByCategoryMembers(items: seq<Item>, c: ItemCategory, x: Item)
    ensures x in ByCategory(items, c) <==> x in items && x.category == c
  {
    if items != [] {
      var init := items[..|items| - 1];
      ByCategoryMembers(init, c, x);
      assert items == init + [items[|items| - 1]];
    }
  }

  /** Filtering distributes over concatenation, so the result keeps the
      database's relative order. */
  lemma {:induction false} ByCategoryAppend(a: seq<Item>, b: seq<Item>, c: ItemCategory)
    ensures ByCategory(a + b, c) == ByCategory(a, c) + ByCategory(b, c)
    decreases |b|
  {
    if b == [] {
      assert a + b == a;
    } else {
      var b', x := b[..|b| - 1], b[|b| - 1];
      var tail := if x.category == c then [x] else [];
      assert (a + b)[..|a + b| - 1] == a + b' && (a + b)[|a + b| - 1] == x;
      ByCategoryAppend(a, b', c);
      calc {
        ByCategory(a + b, c);
        ByCategory(a + b', c) + tail;
        (ByCategory(a, c) + ByCategory(b', c)) + tail;
        ByCategory(a, c) + (ByCategory(b', c) + tail);
      }
    }
  }

  /** A database holding only items of category `c` is returned whole: no
      matching item is dropped, duplicated or reordered. */
  lemma {:induction false} ByCategoryAllOfCategory(items: seq<Item>, c: ItemCategory)
    requires forall i :: 0 <= i < |items| ==> items[i].category == c
    ensures ByCategory(items, c) == items
  {
    if items != [] {
      ByCategoryAllOfCategory(items[..|items| - 1], c);
      assert items[..|items| - 1] + [items[|items| - 1]] == items;
    }
  }

  /** Index of the first item named `name`, if any. */
  function FirstNamed(items: seq<Item>, name: string): (r: Option<nat>)
    ensures r.None? <==> forall i :: 0 <= i < |items| ==> items[i].name != name
    ensures r.Some? ==> r.value < |items| && items[r.value].name == name
                        && forall i :: 0 <= i < r.value ==> items[i].name != name
  {
    if items == [] then None
    else if items[0].name == name then Some(0)
    else match FirstNamed(items[1..], name)
      case None => None
      case Some(k) => Some(k + 1)
  }

  /** `GetItemByName`: the first item whose name matches, or none exactly
      when no item matches. */
  function GetItemByName(items: seq<Item>, name: string): (r: Option<Item>)
    ensures r.None? <==> forall i :: 0 <= i < |items| ==> items[i].name != name
    ensures r.Some? ==> exists i :: 0 <= i < |items| && items[i] == r.value && r.value.name == name
                                    && forall j :: 0 <= j < i ==> items[j].name != name
  {
    match FirstNamed(items, name)
    case None => None
    case Some(i) => Some(items[i])
  }
}

=== FILE: manager.dfy ===
/** The storage manager (`PokemonStorageManager`): the player's party, the
    PC and the first-catch flag, with capture, move, release and the
    save/load bridge. Event notification and the save call that follow a
    committed change are reported through the `committed` flag. */
module StorageManager {
  import opened Common
  import opened Data
  import Storage
  import PCStorage

  datatype Manager = Manager(party: Storage.Slots, pc: PCStorage.PC, hasCaughtFirst: bool)

  predicate Wf(m: Manager) {
    Storage.Wf(Storage.Party, m.party) && PCStorage.Wf(m.pc)
  }

  /** Creatures held in the party and in every box. */
  function Total(m: Manager): nat {
    CountSome(m.party) + PCStorage.BoxesTotal(m.pc.boxes)
  }

  /** `Awake`: an empty party and a new PC. */
  function NewManager(): (r: Manager)
    ensures Wf(r) && Total(r) == 0 && !r.hasCaughtFirst
  {
    Manager(Storage.EmptyParty(), PCStorage.NewPC(), false)
  }

  /** A storage reference as the callers pass it: the party, one of the PC's
      boxes by position, or null. A box position outside the PC is treated
      like null. */
  datatype StoreRef = NoStore | PartyStore | BoxStore(index: int)

  predicate Resolves(m: Manager, ref: StoreRef) {
    ref.PartyStore? || (ref.BoxStore? && 0 <= ref.index < |m.pc.boxes|)
  }

  function KindOf(ref: StoreRef): Storage.Kind {
    if ref.PartyStore? then Storage.Party else Storage.Box
  }

  function SlotsOf(m: Manager, ref: StoreRef): (r: Storage.Slots)
    requires Resolves(m, ref)
    ensures Wf(m) ==> Storage.Wf(KindOf(ref), r)
  {
    if ref.PartyStore? then m.party else m.pc.boxes[ref.index]
  }

  /** Replaces the slots of one storage; the others are untouched. */
  function WithSlots(m: Manager, ref: StoreRef, s: Storage.Slots): (r: Manager)
    requires Resolves(m, ref)
    ensures Resolves(r, ref) && SlotsOf(r, ref) == s
    ensures forall o :: Resolves(m, o) && o != ref ==> Resolves(r, o) && SlotsOf(r, o) == SlotsOf(m, o)
    ensures |r.pc.boxes| == |m.pc.boxes|
    ensures r.hasCaughtFirst == m.hasCaughtFirst
    ensures r.pc.active == m.pc.active && r.pc.unlocked == m.pc.unlocked
    ensures Total(r) + CountSome(SlotsOf(m, ref)) == Total(m) + CountSome(s)
    ensures Wf(m) && Storage.Wf(KindOf(ref), s) ==> Wf(r)
  {
    if ref.PartyStore? then m.(party := s)
    else
      PCStorage.BoxesTotalUpdate(m.pc.boxes, ref.index, s);
      m.(pc := m.pc.(boxes := m.pc.boxes[ref.index := s]))
  }

  /** `RecalcUnlocks`: unlocks boxes for the current total. */
  function RecalcUnlocks(m: Manager): (r: Manager)
    ensures r.party == m.party && r.hasCaughtFirst == m.hasCaughtFirst
    ensures Total(r) == Total(m)
    ensures r.pc.unlocked >= m.pc.unlocked && r.pc.unlocked >= PCStorage.TargetBoxes(Total(m))
    ensures |r.pc.boxes| >= |m.pc.boxes| && r.pc.boxes[..|m.pc.boxes|] == m.pc.boxes
    ensures Wf(m) ==> Wf(r)
  {
    m.(pc := PCStorage.UpdateUnlocks(m.pc, Total(m)))
  }

  /** Every mutation that goes through ends the same way: the party is
      compacted when it took part, then the unlocks are recalculated. */
  function Finish(m: Manager, compactParty: bool): (r: Manager)
    ensures Total(r) == Total(m)
    ensures r.hasCaughtFirst == m.hasCaughtFirst
    ensures compactParty ==> Storage.IsCompacted(r.party)
    ensures compactParty ==> Storage.Occupants(r.party) == Storage.Occupants(m.party)
    ensures !compactParty ==> r.party == m.party
    ensures r.pc.unlocked >= PCStorage.TargetBoxes(Total(m))
    ensures |r.pc.boxes| >= |m.pc.boxes| && r.pc.boxes[..|m.pc.boxes|] == m.pc.boxes
    ensures Wf(m) ==> Wf(r)
  {
    var party := if compactParty then Storage.Compact(m.party).slots else m.party;
    RecalcUnlocks(m.(party := party))
  }

  // ---------------- Capture ----------------

  datatype Outcome = Outcome(m: Manager, committed: bool)

  /** Whether some storage can take one more creature: the party, or an
      unlocked box. */
  predicate HasRoomFor(m: Manager) {
    CountSome(m.party) < Storage.Capacity(Storage.Party)
    || exists b :: 0 <= b < m.pc.unlocked && b < |m.pc.boxes| && PCStorage.HasRoom(m.pc.boxes[b])
  }

  /** `CapturePokemon`: nothing for null; otherwise the creature goes to the
      party if it has room, else to the first unlocked box with room (it is
      lost when everything is full), the first-catch flag is set, the party
      is compacted and the unlocks are recalculated. */
  function CapturePokemon(m: Manager, wild: Option<Creature>): (r: Outcome)
    requires Wf(m)
    ensures Wf(r.m)
    ensures wild.None? ==> r == Outcome(m, false)
    ensures wild.Some? ==> r.committed && r.m.hasCaughtFirst
    ensures wild.Some? ==> Storage.IsCompacted(r.m.party)
    ensures wild.Some? ==> Total(r.m) == Total(m) + (if HasRoomFor(m) then 1 else 0)
    ensures |r.m.pc.boxes| >= |m.pc.boxes|
    ensures wild.Some? && CountSome(m.party) < Storage.Capacity(Storage.Party) ==>
              r.m.pc.boxes[..|m.pc.boxes|] == m.pc.boxes
              && multiset(Storage.Occupants(r.m.party)) == multiset(Storage.Occupants(m.party)) + multiset{wild.value}
    ensures wild.Some? && CountSome(m.party) == Storage.Capacity(Storage.Party) ==>
              Storage.Occupants(r.m.party) == Storage.Occupants(m.party)
              && r.m.pc.boxes[..|m.pc.boxes|] == PCStorage.AddToFirstAvailable(m.pc, wild.value).boxes
  {
    match wild
    case None => Outcome(m, false)
    case Some(p) => Outcome(Finish(StoreCaught(m, p), true), true)
  }

  /** The storing part of a capture, before compaction and unlocks: the
      party takes the creature if it has room, else the first unlocked box
      with room does. */
  function StoreCaught(m: Manager, p: Creature): (r: Manager)
    requires Wf(m)
    ensures Wf(r) && r.hasCaughtFirst && |r.pc.boxes| == |m.pc.boxes|
    ensures Total(r) == Total(m) + (if HasRoomFor(m) then 1 else 0)
    ensures CountSome(m.party) < Storage.Capacity(Storage.Party) ==>
              r.pc.boxes == m.pc.boxes
              && multiset(Storage.Occupants(r.party)) == multiset(Storage.Occupants(m.party)) + multiset{p}
    ensures CountSome(m.party) == Storage.Capacity(Storage.Party) ==>
              r.party == m.party && r.pc.boxes == PCStorage.AddToFirstAvailable(m.pc, p).boxes
  {
    var add := Storage.TryAdd(Storage.Party, m.party, p);
    var pc := if add.ok then m.pc else m.pc.(boxes := PCStorage.AddToFirstAvailable(m.pc, p).boxes);
    PartyAddOccupants(m.party, p);
    Manager(add.slots, pc, true)
  }

  /** Adding to the party adds the creature to its occupants (in whatever
      slot was lowest and empty) or, when full, leaves them as they were. */
  lemma PartyAddOccupants(s: Storage.Slots, p: Creature)
    requires Storage.Wf(Storage.Party, s)
    ensures var a := Storage.TryAdd(Storage.Party, s, p);
      multiset(Storage.Occupants(a.slots)) == multiset(Storage.Occupants(s)) + (if a.ok then multiset{p} else multiset{})
  {
    var a := Storage.TryAdd(Storage.Party, s, p);
    if a.ok {
      var j :| 0 <= j < |s| && s[j].None? && (forall i :: 0 <= i < j ==> s[i].Some?) && a.slots == s[j := Some(p)];
      OccupantsFill(s, j, p);
    }
  }

  /** Filling one empty slot adds exactly that creature to the occupants. */
  lemma {:induction false} OccupantsFill(s: Storage.Slots, j: int, p: Creature)
    requires 0 <= j < |s| && s[j].None?
    ensures multiset(Storage.Occupants(s[j := Some(p)])) == multiset(Storage.Occupants(s)) + multiset{p}
    decreases |s|
  {
    var init := s[..|s| - 1];
    if j == |s| - 1 {
      OccupantsOfLast(s, Some(p));
      MultisetSnoc(Storage.Occupants(init), p);
    } else {
      var tail := if s[|s| - 1].Some? then [s[|s| - 1].value] else [];
      OccupantsOfInner(s, j, Some(p));
      OccupantsFill(init, j, p);
      MultisetAddBefore(Storage.Occupants(init), Storage.Occupants(init[j := Some(p)]), tail, p);
    }
  }

  lemma MultisetSnoc<T>(a: seq<T>, x: T)
    ensures multiset(a + [x]) == multiset(a) + multiset{x}
  {
  }

  lemma MultisetAddBefore<T>(a: seq<T>, a2: seq<T>, tail: seq<T>, x: T)
    requires multiset(a2) == multiset(a) + multiset{x}
    ensures multiset(a2 + tail) == multiset(a + tail) + multiset{x}
  {
  }

  /** Replacing the last slot changes only the last occupant. */
  lemma OccupantsOfLast(s: Storage.Slots, v: Option<Creature>)
    requires |s| > 0
    ensures Storage.Occupants(s[|s| - 1 := v])
            == Storage.Occupants(s[..|s| - 1]) + (if v.Some? then [v.value] else [])
  {
    assert s[|s| - 1 := v][..|s| - 1] == s[..|s| - 1];
  }

  /** Replacing an inner slot leaves the last occupant alone. */
  lemma OccupantsOfInner(s: Storage.Slots, j: int, v: Option<Creature>)
    requires 0 <= j < |s| - 1
    ensures var tail := if s[|s| - 1].Some? then [s[|s| - 1].value] else [];
      && Storage.Occupants(s[j := v]) == Storage.Occupants(s[..|s| - 1][j := v]) + tail
      && Storage.Occupants(s) == Storage.Occupants(s[..|s| - 1]) + tail
  {
    assert s[j := v][..|s| - 1] == s[..|s| - 1][j := v];
  }

  /** Capturing into a compacted party with room appends the creature after
      the current members. */
  lemma CaptureAppendsToParty(m: Manager, p: Creature)
    requires Wf(m) && Storage.IsCompacted(m.party) && CountSome(m.party) < Storage.Capacity(Storage.Party)
    ensures Storage.Occupants(CapturePokemon(m, Some(p)).m.party) == Storage.Occupants(m.party) + [p]
  {
    Storage.TryAddToCompacted(Storage.Party, m.party, p);
  }

  // ---------------- Moving ----------------

  /** The minimum-party rule: after the first catch, an occupied slot may
      not leave a party that holds at most one creature. */
  predicate LastMemberGuard(m: Manager, from: StoreRef, fi: int)
    requires Wf(m)
  {
    m.hasCaughtFirst && from.PartyStore? && CountSome(m.party) <= 1
    && Storage.GetAt(Storage.Party, m.party, fi).Some?
  }

  /** The cross-storage branch of `MoveBetween` once the source slot is known
      to be occupied: take the creature out, insert it at the destination and
      put any displaced occupant back at the source index. */
  function Transfer(m: Manager, from: StoreRef, fi: int, to: StoreRef, ti: int): (r: Manager)
    requires Wf(m) && Resolves(m, from) && Resolves(m, to) && from != to
    requires Storage.IsIndexValid(KindOf(from), fi) && Storage.IsIndexValid(KindOf(to), ti)
    requires SlotsOf(m, from)[fi].Some?
    ensures Wf(r) && Total(r) == Total(m)
    ensures r.hasCaughtFirst == m.hasCaughtFirst && r.pc.unlocked == m.pc.unlocked && |r.pc.boxes| == |m.pc.boxes|
    ensures SlotsOf(r, to) == SlotsOf(m, to)[ti := SlotsOf(m, from)[fi]]
    ensures SlotsOf(r, from) == SlotsOf(m, from)[fi := SlotsOf(m, to)[ti]]
    ensures forall o :: Resolves(m, o) && o != from && o != to ==> SlotsOf(r, o) == SlotsOf(m, o)
  {
    var removed := Storage.RemoveAt(KindOf(from), SlotsOf(m, from), fi);
    var p := removed.removed.value;
    var m1 := WithSlots(m, from, removed.slots);
    var ins := Storage.TryInsertAt(KindOf(to), SlotsOf(m1, to), ti, p);
    var m2 := WithSlots(m1, to, ins.slots);
    if ins.displaced.Some? then
      var back := Storage.TryInsertAt(KindOf(from), SlotsOf(m2, from), fi, ins.displaced.value);
      WithSlots(m2, from, back.slots)
    else
      m2
  }

  /** `MoveBetween`. Null storages, invalid indices, the minimum-party rule
      and an empty source across storages stop it with nothing changed;
      within one storage it swaps, across storages it transfers; then the
      party is compacted if it took part and the unlocks are recalculated. */
  function MoveBetween(m: Manager, from: StoreRef, fi: int, to: StoreRef, ti: int): (r: Outcome)
    requires Wf(m)
    ensures Wf(r.m)
    ensures Total(r.m) == Total(m)
    ensures !r.committed ==> r.m == m
    ensures r.committed ==> r.m.hasCaughtFirst == m.hasCaughtFirst
    ensures r.committed && (from.PartyStore? || to.PartyStore?) ==> Storage.IsCompacted(r.m.party)
  {
    if !Resolves(m, from) || !Resolves(m, to) then Outcome(m, false)
    else if !Storage.IsIndexValid(KindOf(from), fi) || !Storage.IsIndexValid(KindOf(to), ti) then Outcome(m, false)
    else if LastMemberGuard(m, from, fi) then Outcome(m, false)
    else if from == to then
      var swapped := Storage.Swap(KindOf(from), SlotsOf(m, from), fi, ti);
      Outcome(Finish(WithSlots(m, from, swapped), from.PartyStore?), true)
    else if SlotsOf(m, from)[fi].None? then Outcome(m, false)
    else Outcome(Finish(Transfer(m, from, fi, to, ti), from.PartyStore? || to.PartyStore?), true)
  }

  /** A move is refused whenever a storage is missing, an index is invalid,
      or the minimum-party rule applies (even for a swap inside the party). */
  lemma MoveBetweenRefusals(m: Manager, from: StoreRef, fi: int, to: StoreRef, ti: int)
    requires Wf(m)
    requires !Resolves(m, from) || !Resolves(m, to)
             || !Storage.IsIndexValid(KindOf(from), fi) || !Storage.IsIndexValid(KindOf(to), ti)
             || LastMemberGuard(m, from, fi)
    ensures MoveBetween(m, from, fi, to, ti) == Outcome(m, false)
  {
  }

  /** Inside one box, a move is the box's `Swap`; every other storage keeps
      its slots. */
  lemma MoveBetweenSwapsInBox(m: Manager, b: int, fi: int, ti: int)
    requires Wf(m) && 0 <= b < |m.pc.boxes|
    requires Storage.IsIndexValid(Storage.Box, fi) && Storage.IsIndexValid(Storage.Box, ti)
    ensures var r := MoveBetween(m, BoxStore(b), fi, BoxStore(b), ti);
      r.committed
      && r.m.pc.boxes[b] == Storage.Swap(Storage.Box, m.pc.boxes[b], fi, ti)
      && r.m.party == m.party
      && forall c :: 0 <= c < |m.pc.boxes| && c != b ==> r.m.pc.boxes[c] == m.pc.boxes[c]
  {
    var w := WithSlots(m, BoxStore(b), Storage.Swap(Storage.Box, m.pc.boxes[b], fi, ti));
    var f := Finish(w, false);
    assert forall c :: 0 <= c < |m.pc.boxes| ==> f.pc.boxes[c] == f.pc.boxes[..|w.pc.boxes|][c];
    forall c | 0 <= c < |m.pc.boxes| && c != b
      ensures w.pc.boxes[c] == m.pc.boxes[c]
    {
      assert SlotsOf(w, BoxStore(c)) == SlotsOf(m, BoxStore(c));
    }
  }

  /** Across storages with an occupied source, the mover lands on the
      destination index of a box and the displaced occupant (or an empty
      slot) returns to the source index of a box. */
  lemma MoveBetweenTransfersBoxes(m: Manager, b: int, fi: int, c: int, ti: int)
    requires Wf(m) && 0 <= b < |m.pc.boxes| && 0 <= c < |m.pc.boxes| && b != c
    requires Storage.IsIndexValid(Storage.Box, fi) && Storage.IsIndexValid(Storage.Box, ti)
    requires m.pc.boxes[b][fi].Some?
    ensures var r := MoveBetween(m, BoxStore(b), fi, BoxStore(c), ti);
      r.committed
      && r.m.pc.boxes[c] == m.pc.boxes[c][ti := m.pc.boxes[b][fi]]
      && r.m.pc.boxes[b] == m.pc.boxes[b][fi := m.pc.boxes[c][ti]]
      && r.m.party == m.party
  {
    var t := Transfer(m, BoxStore(b), fi, BoxStore(c), ti);
    var f := Finish(t, false);
    assert f.pc.boxes[b] == f.pc.boxes[..|t.pc.boxes|][b];
    assert f.pc.boxes[c] == f.pc.boxes[..|t.pc.boxes|][c];
    assert SlotsOf(t, PartyStore) == SlotsOf(m, PartyStore);
  }

  /** Between the party and a box, the mover joins the other side and the
      party ends compacted, keeping its other members. */
  lemma MoveBetweenPartyToBox(m: Manager, fi: int, c: int, ti: int)
    requires Wf(m) && 0 <= c < |m.pc.boxes|
    requires Storage.IsIndexValid(Storage.Party, fi) && Storage.IsIndexValid(Storage.Box, ti)
    requires m.party[fi].Some? && !LastMemberGuard(m, PartyStore, fi)
    ensures var r := MoveBetween(m, PartyStore, fi, BoxStore(c), ti);
      r.committed
      && r.m.pc.boxes[c] == m.pc.boxes[c][ti := m.party[fi]]
      && Storage.IsCompacted(r.m.party)
      && Storage.Occupants(r.m.party) == Storage.Occupants(m.party[fi := m.pc.boxes[c][ti]])
  {
    var t := Transfer(m, PartyStore, fi, BoxStore(c), ti);
    var f := Finish(t, true);
    assert f.pc.boxes[c] == f.pc.boxes[..|t.pc.boxes|][c];
  }

  /** The converse of the refusals: a move goes through exactly when both
      storages exist, both indices are valid, the minimum-party rule does not
      apply, and the source slot is occupied or the move stays inside one
      storage. */
  lemma MoveBetweenCommits(m: Manager, from: StoreRef, fi: int, to: StoreRef, ti: int)
    requires Wf(m)
    ensures MoveBetween(m, from, fi, to, ti).committed <==>
              && Resolves(m, from) && Resolves(m, to)
              && Storage.IsIndexValid(KindOf(from), fi) && Storage.IsIndexValid(KindOf(to), ti)
              && !LastMemberGuard(m, from, fi)
              && (from == to || SlotsOf(m, from)[fi].Some?)
  {
  }

  /** From a box to the party, the mover joins the party, which ends
      compacted; the displaced member (or an empty slot) goes back to the box. */
  lemma MoveBetweenBoxToParty(m: Manager, b: int, fi: int, ti: int)
    requires Wf(m) && 0 <= b < |m.pc.boxes|
    requires Storage.IsIndexValid(Storage.Box, fi) && Storage.IsIndexValid(Storage.Party, ti)
    requires m.pc.boxes[b][fi].Some?
    ensures var r := MoveBetween(m, BoxStore(b), fi, PartyStore, ti);
      r.committed
      && r.m.pc.boxes[b] == m.pc.boxes[b][fi := m.party[ti]]
      && Storage.IsCompacted(r.m.party)
      && Storage.Occupants(r.m.party) == Storage.Occupants(m.party[ti := m.pc.boxes[b][fi]])
  {
    var from := BoxStore(b);
    assert SlotsOf(m, from) == m.pc.boxes[b] && SlotsOf(m, PartyStore) == m.party;
    var t := Transfer(m, from, fi, PartyStore, ti);
    assert t.party == m.party[ti := m.pc.boxes[b][fi]];
    assert t.pc.boxes[b] == m.pc.boxes[b][fi := m.party[ti]];
    var f := Finish(t, true);
    assert MoveBetween(m, from, fi, PartyStore, ti) == Outcome(f, true);
    assert f.pc.boxes[b] == f.pc.boxes[..|t.pc.boxes|][b];
  }

  /** Inside the party, a move swaps the two slots and then compacts; the
      boxes are kept. */
  lemma MoveBetweenWithinParty(m: Manager, fi: int, ti: int)
    requires Wf(m)
    requires Storage.IsIndexValid(Storage.Party, fi) && Storage.IsIndexValid(Storage.Party, ti)
    requires !LastMemberGuard(m, PartyStore, fi)
    ensures var r := MoveBetween(m, PartyStore, fi, PartyStore, ti);
      r.committed
      && r.m.party == Storage.Compact(Storage.Swap(Storage.Party, m.party, fi, ti)).slots
      && r.m.pc.boxes[..|m.pc.boxes|] == m.pc.boxes
  {
  }

  // ---------------- Release ----------------

  /** `Ignored`: null storage, invalid index or empty slot. `Refused`: the
      minimum-party rule. `Faulted`: the released creature had no species,
      so the log line that names it throws after the slot was emptied (and
      the party compacted) and before the unlocks, events and save. */
  datatype ReleaseOutcome = Ignored | Refused | Released | Faulted

  datatype ReleaseResult = ReleaseResult(m: Manager, outcome: ReleaseOutcome)

  /** `ReleaseFrom`. */
  function ReleaseFrom(m: Manager, ref: StoreRef, index: int): (r: ReleaseResult)
    requires Wf(m)
    ensures Wf(r.m)
    ensures r.outcome.Ignored? || r.outcome.Refused? ==> r.m == m
    ensures r.outcome.Refused? <==> (Resolves(m, ref) && Storage.IsIndexValid(KindOf(ref), index)
                                    && m.hasCaughtFirst && ref.PartyStore? && CountSome(m.party) <= 1)
    ensures r.outcome.Released? || r.outcome.Faulted? ==>
              Resolves(m, ref) && Storage.IsIndexValid(KindOf(ref), index) && SlotsOf(m, ref)[index].Some?
              && Total(r.m) + 1 == Total(m)
              && (ref.PartyStore? ==> Storage.IsCompacted(r.m.party))
              && r.m.hasCaughtFirst == m.hasCaughtFirst
    ensures r.outcome.Faulted? <==> (Resolves(m, ref) && Storage.IsIndexValid(KindOf(ref), index)
                                    && !r.outcome.Refused? && SlotsOf(m, ref)[index].Some?
                                    && SlotsOf(m, ref)[index].value.species.None?)
  {
    if !Resolves(m, ref) || !Storage.IsIndexValid(KindOf(ref), index) then ReleaseResult(m, Ignored)
    else if m.hasCaughtFirst && ref.PartyStore? && CountSome(m.party) <= 1 then ReleaseResult(m, Refused)
    else
      var removed := Storage.RemoveAt(KindOf(ref), SlotsOf(m, ref), index);
      match removed.removed
      case None => ReleaseResult(m, Ignored)
      case Some(p) =>
        var m1 := WithSlots(m, ref, removed.slots);
        var m2 := if ref.PartyStore? then m1.(party := Storage.Compact(m1.party).slots) else m1;
        if p.species.None? then ReleaseResult(m2, Faulted)
        else ReleaseResult(RecalcUnlocks(m2), Released)
  }

  /** Releasing from a box empties exactly that slot. */
  lemma ReleaseFromBoxEmptiesSlot(m: Manager, b: int, index: int)
    requires Wf(m) && 0 <= b < |m.pc.boxes| && Storage.IsIndexValid(Storage.Box, index)
    requires m.pc.boxes[b][index].Some?
    ensures var r := ReleaseFrom(m, BoxStore(b), index);
      r.m.pc.boxes[b] == m.pc.boxes[b][index := None] && r.m.party == m.party
  {
    var r := ReleaseFrom(m, BoxStore(b), index);
    assert r.m.pc.boxes[b] == r.m.pc.boxes[..|m.pc.boxes|][b];
  }

  // ---------------- Save and load ----------------

  /** The storage part of `PlayerSaveData`. `pcDTO` is `None` when either the
      PC DTO or its box list is null. */
  datatype SaveData = SaveData(
    partyDTO: Option<Storage.SlotsDTO>,
    pcDTO: Option<seq<Storage.SlotsDTO>>,
    party: Option<Storage.Slots>,
    pcBoxes: Option<seq<Option<Storage.Slots>>>,
    hasCaughtFirst: bool)

  function MaskedDTO(s: Storage.Slots): Storage.SlotsDTO {
    Storage.SlotsDTO(Some(s), Some(Storage.OccupiedMask(s)))
  }

  /** `GetSaveData`: the six party slots with their occupancy mask, one masked
      DTO per unlocked box, the legacy lists and the first-catch flag. */
  function GetSaveData(m: Manager): (r: SaveData)
    requires Wf(m)
    ensures r.partyDTO.Some? && r.partyDTO.value.slots.Some? && r.partyDTO.value.occupied.Some?
    ensures var d := r.partyDTO.value;
      |d.slots.value| == 6 && |d.occupied.value| == 6
      && forall i :: 0 <= i < 6 ==> d.slots.value[i] == Storage.GetAt(Storage.Party, m.party, i)
                                    && (d.occupied.value[i] <==> d.slots.value[i].Some?)
    ensures r.pcDTO.Some? && |r.pcDTO.value| == m.pc.unlocked
    ensures forall b :: 0 <= b < |r.pcDTO.value| ==> r.pcDTO.value[b] == MaskedDTO(m.pc.boxes[b])
    ensures r.hasCaughtFirst == m.hasCaughtFirst
  {
    var boxes := seq(m.pc.unlocked, b requires 0 <= b < m.pc.unlocked => MaskedDTO(m.pc.boxes[b]));
    SaveData(Some(MaskedDTO(m.party)), Some(boxes), Some(m.party), Some(PCStorage.ToSave(m.pc)), m.hasCaughtFirst)
  }

  /** Whether the load takes the masked party DTO rather than the legacy list. */
  predicate UsesPartyDTO(save: Option<SaveData>) {
    save.Some? && save.value.partyDTO.Some? && save.value.partyDTO.value.slots.Some?
    && save.value.partyDTO.value.occupied.Some? && |save.value.partyDTO.value.slots.value| > 0
  }

  /** Whether the load takes the masked box DTOs rather than the legacy lists. */
  predicate UsesPcDTO(save: Option<SaveData>) {
    save.Some? && save.value.pcDTO.Some? && |save.value.pcDTO.value| > 0
  }

  /** A missing slot or mask list in a box DTO is read as an empty list. */
  function DefaultDTO(d: Storage.SlotsDTO): Storage.SlotsDTO {
    Storage.SlotsDTO(Some(d.slots.GetOr([])), Some(d.occupied.GetOr([])))
  }

  /** The party slots a load reads, before compaction. */
  function LoadedParty(save: Option<SaveData>): (r: Storage.Slots)
    ensures Storage.Wf(Storage.Party, r)
    ensures UsesPartyDTO(save) ==>
              r == Storage.SetFromMasked(Storage.Party, save.value.partyDTO.value.slots, save.value.partyDTO.value.occupied)
    ensures !UsesPartyDTO(save) && save.Some? && save.value.party.Some? ==>
              r == Storage.SetFromList(save.value.party)
    ensures !UsesPartyDTO(save) && (save.None? || save.value.party.None?) ==> r == Storage.EmptyParty()
  {
    if UsesPartyDTO(save) then
      Storage.SetFromMasked(Storage.Party, save.value.partyDTO.value.slots, save.value.partyDTO.value.occupied)
    else
      Storage.SetFromList(if save.Some? && save.value.party.Some? then save.value.party else Some([]))
  }

  /** The PC a load builds, before the unlocks are recalculated. */
  function LoadedPC(save: Option<SaveData>): (r: PCStorage.PC)
    ensures PCStorage.Wf(r) && r.active == 0
    ensures UsesPcDTO(save) ==>
              var dtos := save.value.pcDTO.value;
              && |r.boxes| == |dtos|
              && forall b :: 0 <= b < |dtos| ==>
                   r.boxes[b] == Storage.SetFromMasked(Storage.Box, Some(dtos[b].slots.GetOr([])),
                                                       Some(dtos[b].occupied.GetOr([])))
    ensures !UsesPcDTO(save) ==> r == PCStorage.SetFromSave(PCStorage.NewPC(), if save.Some? then save.value.pcBoxes else None)
  {
    var pc0 := PCStorage.NewPC();
    if UsesPcDTO(save) then
      var dtos := save.value.pcDTO.value;
      PCStorage.SetFromMasked(pc0, Some(seq(|dtos|, b requires 0 <= b < |dtos| => DefaultDTO(dtos[b]))))
    else
      PCStorage.SetFromSave(pc0, if save.Some? then save.value.pcBoxes else None)
  }

  /** `LoadFromSave`: a new party and PC, filled from the masked DTOs when they
      are present and non-empty and from the legacy lists otherwise; the
      party is compacted and the unlocks are recalculated. */
  function LoadFromSave(save: Option<SaveData>): (r: Manager)
    ensures Wf(r)
    ensures Storage.IsCompacted(r.party)
    ensures r.pc.active == 0
    ensures r.hasCaughtFirst == (save.Some? && save.value.hasCaughtFirst)
    ensures r.pc.unlocked >= PCStorage.TargetBoxes(Total(r))
    ensures UsesPartyDTO(save) ==>
              Storage.Occupants(r.party) == Storage.Occupants(
                Storage.SetFromMasked(Storage.Party, save.value.partyDTO.value.slots, save.value.partyDTO.value.occupied))
    ensures !UsesPartyDTO(save) ==>
              Storage.Occupants(r.party) == Storage.Occupants(
                Storage.SetFromList(if save.Some? && save.value.party.Some? then save.value.party else Some([])))
    ensures |r.pc.boxes| >= |LoadedPC(save).boxes| && r.pc.boxes[..|LoadedPC(save).boxes|] == LoadedPC(save).boxes
  {
    var hasCaught := save.Some? && save.value.hasCaughtFirst;
    RecalcUnlocks(Manager(Storage.Compact(LoadedParty(save)).slots, LoadedPC(save), hasCaught))
  }

  predicate PartyHasSpecies(m: Manager) {
    Storage.AllHaveSpecies(m.party)
  }

  predicate BoxesHaveSpecies(m: Manager) {
    forall b :: 0 <= b < |m.pc.boxes| ==> Storage.AllHaveSpecies(m.pc.boxes[b])
  }

  lemma LoadedPCOfSave(m: Manager)
    requires Wf(m) && BoxesHaveSpecies(m)
    ensures LoadedPC(Some(GetSaveData(m))) == m.pc.(active := 0)
  {
    var save := GetSaveData(m);
    var pc := LoadedPC(Some(save));
    assert UsesPcDTO(Some(save));
    forall b | 0 <= b < |m.pc.boxes|
      ensures pc.boxes[b] == m.pc.boxes[b]
    {
      Storage.MaskedRoundTrip(Storage.Box, m.pc.boxes[b]);
    }
    assert pc.boxes == m.pc.boxes;
  }

  /** Saving and loading restores the manager (with the first box active),
      provided the party is compacted, every stored creature has a species and
      the unlocks are up to date. */
  lemma SaveLoadRoundTrip(m: Manager)
    requires Wf(m) && Storage.IsCompacted(m.party)
    requires PartyHasSpecies(m) && BoxesHaveSpecies(m)
    requires m.pc.unlocked >= PCStorage.TargetBoxes(Total(m))
    ensures LoadFromSave(Some(GetSaveData(m))) == m.(pc := m.pc.(active := 0))
  {
    var save := GetSaveData(m);
    Storage.MaskedRoundTrip(Storage.Party, m.party);
    assert LoadedParty(Some(save)) == m.party;
    LoadedPCOfSave(m);
    var loaded := Manager(m.party, m.pc.(active := 0), m.hasCaughtFirst);
    assert Total(loaded) == Total(m);
  }
}

=== FILE: moveexec.dfy ===
/** The hit and damage rules of `MoveExecutor`, on exact reals. The two
    random draws are parameters: `roll` is the accuracy draw in [0, 100] and
    `critDraw` the integer draw in [0, 24). */
module MoveExecutor {
  import opened Common
  import opened Data

  /** `Mathf.RoundToInt`: to the nearest integer, halves to the even one. */
  function RoundHalfEven(x: real): (r: int)
    ensures (r as real) - 0.5 <= x <= (r as real) + 0.5
    ensures (x == (r as real) - 0.5 || x == (r as real) + 0.5) ==> r % 2 == 0
  {
    var f := x.Floor;
    var d := x - f as real;
    if d < 0.5 then f
    else if d > 0.5 then f + 1
    else if f % 2 == 0 then f
    else f + 1
  }

  /** Rounding never reverses the order of two values. */
  lemma RoundMonotone(x: real, y: real)
    requires x <= y
    ensures RoundHalfEven(x) <= RoundHalfEven(y)
  {
  }

  /** `CheckAccuracy`: the accuracy is clamped into [1, 100] and the move hits
      exactly when the draw does not exceed it. */
  function CheckAccuracy(accuracy: int, roll: real): (hit: bool)
    ensures hit <==> roll <= Clamp(accuracy, 1, 100) as real
  {
    var acc := Clamp(accuracy, 1, 100);
    roll <= acc as real
  }

  /** Accuracy 100 or more hits on every draw in [0, 100], and a hit stays a
      hit when the accuracy is raised. */
  lemma AccuracyProperties(accuracy: int, higher: int, roll: real)
    requires accuracy <= higher
    ensures accuracy >= 100 && 0.0 <= roll <= 100.0 ==> CheckAccuracy(accuracy, roll)
    ensures CheckAccuracy(accuracy, roll) ==> CheckAccuracy(higher, roll)
  {
  }

  /** `ConvertElementToPokemonType`: the cast by ordinal. No element maps to
      the type `None`. */
  function ConvertElementToPokemonType(e: Element): (t: PokemonType)
    ensures t as int == e as int && t != TypeNone
  {
    e as int
  }

  /** `HasSTAB`: the attacker has a species and the move's element matches
      its primary or its secondary type. */
  predicate HasSTAB(atk: Option<Creature>, move: Option<Attack>) {
    atk.Some? && atk.value.species.Some? && move.Some?
    && var t := ConvertElementToPokemonType(move.value.element);
       atk.value.species.value.primaryType == t || atk.value.species.value.secondaryType == t
  }

  /** A species whose secondary type is `None` gets the bonus only from its
      primary type. */
  lemma NoSTABFromNoneType(atk: Creature, move: Attack)
    requires atk.species.Some? && atk.species.value.secondaryType == TypeNone
    ensures HasSTAB(Some(atk), Some(move)) <==> atk.species.value.primaryType == move.element as int
  {
  }

  /** The unrounded base of the classic formula:
      `((2L/5 + 2) * P * A / max(1, D)) / 50 + 2`. */
  function BaseDamage(level: int, power: int, a: int, d: int): real {
    ((2.0 * level as real / 5.0) + 2.0) * power as real * a as real / (Max(1, d) as real) / 50.0 + 2.0
  }

  function StabFactor(stab: bool): real { if stab then 1.5 else 1.0 }

  /** The critical-hit factor: 1.5 exactly when the draw is 0. */
  function CritFactor(critDraw: int): real { if critDraw == 0 then 1.5 else 1.0 }

  /** Type effectiveness: there is no type table, so always 1. */
  const Effectiveness: real := 1.0

  /** Attack and defense stats used: physical moves use Attack against
      Defense, all others SpAttack against SpDefense. */
  function AttackStat(atk: Creature, move: Attack): int {
    if move.category == Physical then atk.stats.attack else atk.stats.spAttack
  }

  function DefenseStat(def: Creature, move: Attack): int {
    if move.category == Physical then def.stats.defense else def.stats.spDefense
  }

  /** `ComputeDamage`. */
  function ComputeDamage(atk: Option<Creature>, def: Option<Creature>, move: Option<Attack>, critDraw: int): (r: int)
    ensures (atk.None? || def.None? || move.None? || move.value.power <= 0) ==> r == 0
    ensures move.Some? && move.value.category == Status ==> r == 0
    ensures (atk.Some? && def.Some? && move.Some? && move.value.power > 0 && move.value.category != Status) ==> r >= 1
  {
    if atk.None? || def.None? || move.None? || move.value.power <= 0 then 0
    else if move.value.category == Status then 0
    else
      var level := Max(1, atk.value.level);
      var baseDmg := BaseDamage(level, move.value.power, AttackStat(atk.value, move.value), DefenseStat(def.value, move.value));
      Finish(baseDmg, HasSTAB(atk, move), critDraw)
  }

  /** A move that deals damage: positive power and not a status move. */
  predicate DamagingMove(move: Attack) {
    move.power > 0 && move.category != Status
  }

  /** Only the attacker's level (floored at 1), its species and its attacking
      stat for the move's category, and the defender's defending stat (floored
      at 1), enter the damage. */
  lemma DamageDependsOnlyOn(a1: Creature, a2: Creature, d1: Creature, d2: Creature, move: Attack, critDraw: int)
    requires Max(1, a1.level) == Max(1, a2.level) && a1.species == a2.species
    requires AttackStat(a1, move) == AttackStat(a2, move)
    requires Max(1, DefenseStat(d1, move)) == Max(1, DefenseStat(d2, move))
    ensures ComputeDamage(Some(a1), Some(d1), Some(move), critDraw) == ComputeDamage(Some(a2), Some(d2), Some(move), critDraw)
  {
    assert HasSTAB(Some(a1), Some(move)) == HasSTAB(Some(a2), Some(move));
    if DamagingMove(move) {
      assert BaseDamage(Max(1, a1.level), move.power, AttackStat(a1, move), DefenseStat(d1, move))
          == BaseDamage(Max(1, a2.level), move.power, AttackStat(a2, move), DefenseStat(d2, move));
    }
  }

  /** The base grows with the attacking stat and is at least 2 when every
      factor is non-negative. */
  lemma BaseDamageMonotone(level: int, power: int, a1: int, a2: int, d: int)
    requires level >= 1 && power > 0 && 0 <= a1 <= a2
    ensures 2.0 <= BaseDamage(level, power, a1, d) <= BaseDamage(level, power, a2, d)
  {
    var dd := Max(1, d) as real;
    var k := (2.0 * level as real / 5.0) + 2.0;
    var kp := k * power as real;
    assert kp >= 0.0 by {
      MulLe(k, 0.0, power as real);
    }
    assert BaseDamage(level, power, a1, d) == Scale(kp, a1 as real, dd);
    assert BaseDamage(level, power, a2, d) == Scale(kp, a2 as real, dd);
    ScaleMonotone(kp, a1 as real, a2 as real, dd);
  }

  /** The base with the level and power factor `kp` gathered. */
  function Scale(kp: real, a: real, dd: real): real
    requires dd > 0.0
  {
    kp * a / dd / 50.0 + 2.0
  }

  lemma ScaleMonotone(kp: real, a1: real, a2: real, dd: real)
    requires kp >= 0.0 && 0.0 <= a1 <= a2 && dd > 0.0
    ensures 2.0 <= Scale(kp, a1, dd) <= Scale(kp, a2, dd)
  {
    MulLe(kp, 0.0, a1);
    MulLe(kp, a1, a2);
    DivLe(0.0, kp * a1, dd);
    DivLe(kp * a1, kp * a2, dd);
    DivLe(0.0, kp * a1 / dd, 50.0);
    DivLe(kp * a1 / dd, kp * a2 / dd, 50.0);
  }

  /** The unrounded damage: the base times the bonus, critical and
      effectiveness factors. */
  function Scaled(baseDmg: real, stab: bool, critDraw: int): real {
    baseDmg * StabFactor(stab) * CritFactor(critDraw) * Effectiveness
  }

  /** The final damage for a given unrounded base, bonus and critical draw. */
  function Finish(baseDmg: real, stab: bool, critDraw: int): int {
    Max(1, RoundHalfEven(Scaled(baseDmg, stab, critDraw)))
  }

  lemma ScaledMonotone(b1: real, b2: real, stab: bool, critDraw: int)
    requires 0.0 <= b1 <= b2
    ensures Scaled(b1, stab, critDraw) <= Scaled(b2, stab, critDraw)
    ensures Scaled(b1, stab, critDraw) <= Scaled(b1, stab, 0)
  {
    var f := StabFactor(stab) * CritFactor(critDraw) * Effectiveness;
    assert Scaled(b1, stab, critDraw) == b1 * f && Scaled(b2, stab, critDraw) == b2 * f;
    assert Scaled(b1, stab, 0) == b1 * (StabFactor(stab) * 1.5);
    assert 1.0 <= f <= StabFactor(stab) * 1.5;
    MulLe(f, b1, b2);
    MulLe(b1, f, StabFactor(stab) * 1.5);
  }

  lemma FinishMonotone(b1: real, b2: real, stab: bool, critDraw: int)
    requires 0.0 <= b1 <= b2
    ensures Finish(b1, stab, critDraw) <= Finish(b2, stab, critDraw)
    ensures Finish(b1, stab, critDraw) <= Finish(b1, stab, 0)
  {
    ScaledMonotone(b1, b2, stab, critDraw);
    RoundMonotone(Scaled(b1, stab, critDraw), Scaled(b2, stab, critDraw));
    RoundMonotone(Scaled(b1, stab, critDraw), Scaled(b1, stab, 0));
  }

  /** With a non-negative attacking stat, damage never falls when the
      attacking stat rises, and a critical hit never deals less than a
      normal one. */
  lemma DamageMonotone(atk: Creature, stronger: Creature, def: Creature, move: Attack, critDraw: int)
    requires DamagingMove(move)
    requires stronger == atk.(stats := stronger.stats)
    requires 0 <= AttackStat(atk, move) <= AttackStat(stronger, move)
    ensures ComputeDamage(Some(atk), Some(def), Some(move), critDraw) <= ComputeDamage(Some(stronger), Some(def), Some(move), critDraw)
    ensures ComputeDamage(Some(atk), Some(def), Some(move), critDraw) <= ComputeDamage(Some(atk), Some(def), Some(move), 0)
  {
    var level := Max(1, atk.level);
    var dd := DefenseStat(def, move);
    var stab := HasSTAB(Some(atk), Some(move));
    assert stab == HasSTAB(Some(stronger), Some(move));
    var b1 := BaseDamage(level, move.power, AttackStat(atk, move), dd);
    var b2 := BaseDamage(level, move.power, AttackStat(stronger, move), dd);
    BaseDamageMonotone(level, move.power, AttackStat(atk, move), AttackStat(stronger, move), dd);
    FinishMonotone(b1, b2, stab, critDraw);
    assert ComputeDamage(Some(atk), Some(def), Some(move), critDraw) == Finish(b1, stab, critDraw);
    assert ComputeDamage(Some(stronger), Some(def), Some(move), critDraw) == Finish(b2, stab, critDraw);
    assert ComputeDamage(Some(atk), Some(def), Some(move), 0) == Finish(b1, stab, 0);
  }

  lemma MulLe(k: real, x: real, y: real)
    requires k >= 0.0 && x <= y
    ensures k * x <= k * y
  {
  }

  lemma DivLe(x: real, y: real, d: real)
    requires d > 0.0 && x <= y
    ensures x / d <= y / d
  {
  }
}

/** Wild move choice (`WildAI.ChooseMoveIndex`). */
module WildAI {
  import opened Common
  import opened Data

  /** A move the wild creature can use: present, with move data and PP left. */
  predicate Usable(m: Option<MoveSlot>) {
    m.Some? && m.value.data.Some? && m.value.currentPP > 0
  }

  /** The first usable index at or after `i`, or 0 when there is none. */
  function FirstUsableFrom(moves: seq<Option<MoveSlot>>, i: nat): (r: nat)
    ensures (exists j :: i <= j < |moves| && Usable(moves[j])) ==>
              i <= r < |moves| && Usable(moves[r]) && forall j :: i <= j < r ==> !Usable(moves[j])
    ensures (forall j :: i <= j < |moves| ==> !Usable(moves[j])) ==> r == 0
    decreases |moves| - i
  {
    if i >= |moves| then 0
    else if Usable(moves[i]) then i
    else FirstUsableFrom(moves, i + 1)
  }

  /** `ChooseMoveIndex`: 0 without a creature or move list; otherwise the
      first usable move, or 0 when no move is usable. */
  function ChooseMoveIndex(wild: Option<Creature>): (r: nat)
    ensures wild.None? || wild.value.moves.None? ==> r == 0
    ensures wild.Some? && wild.value.moves.Some? ==>
              var ms := wild.value.moves.value;
              && ((exists j :: 0 <= j < |ms| && Usable(ms[j])) ==>
                    r < |ms| && Usable(ms[r]) && forall j :: 0 <= j < r ==> !Usable(ms[j]))
              && ((forall j :: 0 <= j < |ms| ==> !Usable(ms[j])) ==> r == 0)
  {
    if wild.None? || wild.value.moves.None? then 0
    else FirstUsableFrom(wild.value.moves.value, 0)
  }
}

=== FILE: movegrid.dfy ===
/** The index bookkeeping of the move grid (`MoveGridUI`): four visual rows
    mapped onto the creature's move list, the drop-zone clamp and the
    decision a drop makes. `CompactMoves`, `SwapMoves` and `MoveMove` belong to
    the creature record, which is not part of this model: `Refresh` receives
    the list as it is after `CompactMoves`, and a drop returns the call it
    makes as a `GridAction`. */
module MoveGrid {
  import opened Common
  import opened Data

  const Rows := 4

  /** `IsNullMove`: a missing entry or one without move data. */
  predicate IsNullMove(mv: Option<MoveSlot>) {
    mv.None? || mv.value.data.None?
  }

  /** `visibleToModel` (row to model index, -1 for a placeholder row) and
      `nonNullVisualCount`. */
  datatype Grid = Grid(visibleToModel: seq<int>, nonNullCount: int)

  /** The shape every `Refresh` with a creature produces. */
  predicate GridWf(g: Grid) {
    |g.visibleToModel| == Rows && 0 <= g.nonNullCount <= Rows
  }

  /** Rows considered: the first four entries, or fewer if the list is shorter. */
  function Scan(moves: seq<Option<MoveSlot>>): nat {
    Min(Rows, |moves|)
  }

  /** Model indices in `[i, n)` holding a real move, in increasing order. */
  function NonNullFrom(moves: seq<Option<MoveSlot>>, i: nat, n: nat): (r: seq<int>)
    requires n <= |moves|
    ensures |r| <= (if i <= n then n - i else 0)
    ensures forall k :: 0 <= k < |r| ==> i <= r[k] < n && !IsNullMove(moves[r[k]])
    ensures forall k, l :: 0 <= k < l < |r| ==> r[k] < r[l]
    ensures forall j :: i <= j < n && !IsNullMove(moves[j]) ==> j in r
    decreases n - i
  {
    if i >= n then []
    else (if !IsNullMove(moves[i]) then [i] else []) + NonNullFrom(moves, i + 1, n)
  }

  /** The grid shows the real moves among the first four entries: its first
      rows map to them in increasing model order, and the other rows are
      placeholders. */
  predicate ShowsRealMoves(g: Grid, moves: seq<Option<MoveSlot>>)
    requires GridWf(g)
  {
    && (forall v :: 0 <= v < g.nonNullCount ==>
          0 <= g.visibleToModel[v] < Scan(moves) && !IsNullMove(moves[g.visibleToModel[v]]))
    && (forall v, w :: 0 <= v < w < g.nonNullCount ==> g.visibleToModel[v] < g.visibleToModel[w])
    && (forall v :: g.nonNullCount <= v < Rows ==> g.visibleToModel[v] == -1)
    && (forall j :: 0 <= j < Scan(moves) && !IsNullMove(moves[j]) ==>
          j in g.visibleToModel[..g.nonNullCount])
  }

  /** `Refresh`: no rows without a creature; otherwise exactly four rows
      showing the real moves. */
  function Refresh(present: bool, moves: seq<Option<MoveSlot>>): (r: Grid)
    ensures !present ==> r.visibleToModel == [] && r.nonNullCount == 0
    ensures present ==> GridWf(r) && ShowsRealMoves(r, moves)
  {
    if !present then Grid([], 0)
    else
      var nn := NonNullFrom(moves, 0, Scan(moves));
      Padded(nn, Rows);
      Grid(nn + Placeholders(Rows - |nn|), |nn|)
  }

  /** Padding with placeholders keeps the real rows in front. */
  lemma Padded(nn: seq<int>, n: nat)
    requires |nn| <= n
    ensures var rows := nn + Placeholders(n - |nn|);
      && |rows| == n && rows[..|nn|] == nn
      && (forall v :: 0 <= v < |nn| ==> rows[v] == nn[v])
      && (forall v :: |nn| <= v < n ==> rows[v] == -1)
  {
    var rows := nn + Placeholders(n - |nn|);
    assert rows[..|nn|] == nn;
  }

  /** `n` placeholder rows. */
  function Placeholders(n: nat): (r: seq<int>)
    ensures |r| == n && forall v :: 0 <= v < n ==> r[v] == -1
  {
    if n == 0 then [] else Placeholders(n - 1) + [-1]
  }

  /** `ClampToNonNullZone`: 0 without real moves, otherwise the request
      clamped to a row that shows one. */
  function ClampToNonNullZone(g: Grid, requested: int): (r: int)
    ensures g.nonNullCount <= 0 ==> r == 0
    ensures g.nonNullCount > 0 ==> 0 <= r < g.nonNullCount
    ensures 0 <= requested < g.nonNullCount ==> r == requested
  {
    if g.nonNullCount <= 0 then 0
    else Clamp(requested, 0, Max(0, g.nonNullCount - 1))
  }

  /** `FirstNullIndex`: the first empty entry among the first four, or -1. */
  function FirstNullIndex(moves: seq<Option<MoveSlot>>): (r: int)
    ensures r == -1 <==> forall j :: 0 <= j < Scan(moves) ==> !IsNullMove(moves[j])
    ensures r != -1 ==> 0 <= r < Scan(moves) && IsNullMove(moves[r])
                        && forall j :: 0 <= j < r ==> !IsNullMove(moves[j])
  {
    FirstNullFrom(moves, 0, Scan(moves))
  }

  function FirstNullFrom(moves: seq<Option<MoveSlot>>, i: nat, n: nat): (r: int)
    requires n <= |moves|
    ensures r == -1 <==> forall j :: i <= j < n ==> !IsNullMove(moves[j])
    ensures r != -1 ==> i <= r < n && IsNullMove(moves[r]) && forall j :: i <= j < r ==> !IsNullMove(moves[j])
    decreases n - i
  {
    if i >= n then -1
    else if IsNullMove(moves[i]) then i
    else FirstNullFrom(moves, i + 1, n)
  }

  /** `LastNonNullIndex`: the last real move among the first four, or -1. */
  function LastNonNullIndex(moves: seq<Option<MoveSlot>>): (r: int)
    ensures r == -1 <==> forall j :: 0 <= j < Scan(moves) ==> IsNullMove(moves[j])
    ensures r != -1 ==> 0 <= r < Scan(moves) && !IsNullMove(moves[r])
                        && forall j :: r < j < Scan(moves) ==> IsNullMove(moves[j])
  {
    LastNonNullDownFrom(moves, Scan(moves) - 1)
  }

  function LastNonNullDownFrom(moves: seq<Option<MoveSlot>>, i: int): (r: int)
    requires i < |moves|
    ensures r == -1 <==> forall j :: 0 <= j <= i ==> IsNullMove(moves[j])
    ensures r != -1 ==> 0 <= r <= i && !IsNullMove(moves[r]) && forall j :: r < j <= i ==> IsNullMove(moves[j])
    decreases i + 1
  {
    if i < 0 then -1
    else if !IsNullMove(moves[i]) then i
    else LastNonNullDownFrom(moves, i - 1)
  }

  /** What a drop asks of the creature; every action except `RefreshOnly` is
      followed by `CompactMoves`, a save and a `Refresh`. */
  datatype GridAction = RefreshOnly | SwapMoves(a: int, b: int) | MoveMove(from: int, dest: int)

  /** `NotifyDrop`. `moves` is the creature's current list. */
  function NotifyDrop(g: Grid, present: bool, moves: seq<Option<MoveSlot>>, fromVisual: int, toVisual: int): (r: GridAction)
    requires present ==> GridWf(g)
    ensures !present ==> r.RefreshOnly?
    ensures present && !(0 <= fromVisual < Rows && g.visibleToModel[fromVisual] >= 0) ==> r.RefreshOnly?
    ensures present && 0 <= fromVisual < Rows && g.visibleToModel[fromVisual] >= 0 ==>
              && !r.RefreshOnly?
              && (var t := g.visibleToModel[ClampToNonNullZone(g, toVisual)];
                  r.SwapMoves? <==> t >= 0 && t != g.visibleToModel[fromVisual])
    ensures r.SwapMoves? ==> r.a == g.visibleToModel[fromVisual] && r.b >= 0 && r.a != r.b
                             && r.b == g.visibleToModel[ClampToNonNullZone(g, toVisual)]
    ensures r.MoveMove? ==> r.from == g.visibleToModel[fromVisual]
                            && (var t := g.visibleToModel[ClampToNonNullZone(g, toVisual)]; t < 0 || t == r.from)
                            && r.dest == (if FirstNullIndex(moves) >= 0 then FirstNullIndex(moves)
                                          else Min(3, LastNonNullIndex(moves) + 1))
  {
    if !present then RefreshOnly
    else
      var fromModel := if 0 <= fromVisual < |g.visibleToModel| then g.visibleToModel[fromVisual] else -1;
      if fromModel < 0 then RefreshOnly
      else
        var c := ClampToNonNullZone(g, toVisual);
        var clampedVis := if c < 0 || c >= |g.visibleToModel| then Clamp(g.nonNullCount - 1, 0, 3) else c;
        var targetModel := g.visibleToModel[clampedVis];
        if targetModel >= 0 && targetModel != fromModel then SwapMoves(fromModel, targetModel)
        else
          var firstNull := FirstNullIndex(moves);
          MoveMove(fromModel, if firstNull >= 0 then firstNull else Min(3, LastNonNullIndex(moves) + 1))
  }

  /** On a grid refreshed from the same list, a drop from a row showing a
      real move swaps exactly when the clamped target is another row and
      moves exactly when it is the same row; a drop from any other row only
      refreshes. */
  lemma NotifyDropDecidesOnRefreshedGrid(moves: seq<Option<MoveSlot>>, fromVisual: int, toVisual: int)
    ensures var g := Refresh(true, moves);
      var r := NotifyDrop(g, true, moves, fromVisual, toVisual);
      && (0 <= fromVisual < g.nonNullCount ==>
            && (r.SwapMoves? <==> ClampToNonNullZone(g, toVisual) != fromVisual)
            && (r.MoveMove? <==> ClampToNonNullZone(g, toVisual) == fromVisual))
      && (!(0 <= fromVisual < g.nonNullCount) ==> r.RefreshOnly?)
  {
    var g := Refresh(true, moves);
    var c := ClampToNonNullZone(g, toVisual);
    if 0 <= fromVisual < g.nonNullCount && c != fromVisual {
      assert 0 <= c < g.nonNullCount;
      if c < fromVisual {
        assert g.visibleToModel[c] < g.visibleToModel[fromVisual];
      } else {
        assert g.visibleToModel[fromVisual] < g.visibleToModel[c];
      }
    }
  }

  /** A swap of two distinct real moves among the first four entries, or a
      move of a real move there to an index in 0..3. */
  predicate NamesRealMoves(r: GridAction, moves: seq<Option<MoveSlot>>) {
    && (r.SwapMoves? ==> (0 <= r.a < Scan(moves) && 0 <= r.b < Scan(moves) && r.a != r.b
                         && !IsNullMove(moves[r.a]) && !IsNullMove(moves[r.b])))
    && (r.MoveMove? ==> (0 <= r.from < Scan(moves) && !IsNullMove(moves[r.from]) && 0 <= r.dest <= 3))
  }

  /** On any grid that shows the real moves of the list, a drop only ever
      names real moves, and a move happens only when a row is dropped onto
      itself. */
  lemma NotifyDropOnShownGrid(g: Grid, moves: seq<Option<MoveSlot>>, fromVisual: int, toVisual: int)
    requires GridWf(g) && ShowsRealMoves(g, moves)
    ensures var r := NotifyDrop(g, true, moves, fromVisual, toVisual);
      && NamesRealMoves(r, moves)
      && (r.MoveMove? ==> ClampToNonNullZone(g, toVisual) == fromVisual)
  {
    var r := NotifyDrop(g, true, moves, fromVisual, toVisual);
    var c := ClampToNonNullZone(g, toVisual);
    if r.SwapMoves? {
      assert 0 <= fromVisual < g.nonNullCount;
      assert 0 <= c < g.nonNullCount;
      assert r.a == g.visibleToModel[fromVisual] && r.b == g.visibleToModel[c];
    } else if r.MoveMove? {
      assert 0 <= fromVisual < g.nonNullCount;
      assert 0 <= c < g.nonNullCount;
      assert r.from == g.visibleToModel[fromVisual];
      RealRowsDistinct(g, moves, c, fromVisual);
    }
  }

  /** Two different rows showing real moves show different entries. */
  lemma RealRowsDistinct(g: Grid, moves: seq<Option<MoveSlot>>, v: int, w: int)
    requires GridWf(g) && ShowsRealMoves(g, moves)
    requires 0 <= v < g.nonNullCount && 0 <= w < g.nonNullCount
    ensures v != w ==> g.visibleToModel[v] != g.visibleToModel[w]
  {
    if v < w {
      assert g.visibleToModel[v] < g.visibleToModel[w];
    } else if w < v {
      assert g.visibleToModel[w] < g.visibleToModel[v];
    }
  }

  /** On a grid refreshed from the same list, a drop only ever names real
      moves: a swap exchanges two distinct real moves, and a move (which
      happens only when a row is dropped onto itself) sends a real move to an
      index in 0..3. */
  lemma NotifyDropOnRefreshedGrid(moves: seq<Option<MoveSlot>>, fromVisual: int, toVisual: int)
    ensures var g := Refresh(true, moves);
      var r := NotifyDrop(g, true, moves, fromVisual, toVisual);
      && NamesRealMoves(r, moves)
      && (r.MoveMove? ==> ClampToNonNullZone(g, toVisual) == fromVisual)
  {
    NotifyDropOnShownGrid(Refresh(true, moves), moves, fromVisual, toVisual);
  }
}

=== FILE: pc.dfy ===
/** The PC (`PCStorage`): a growing list of thirty-slot boxes, an active box
    and the number of unlocked boxes, which grows in tiers with the number
    of creatures the player owns. */
module PCStorage {
  import opened Common
  import opened Data
  import Storage

  /** One unlock tier: owning at least `threshold` creatures unlocks `boxes` boxes. */
  datatype Tier = Tier(threshold: int, boxes: nat)

  const Unlocks: seq<Tier> := [Tier(0, 8), Tier(230, 16), Tier(470, 24), Tier(710, 32)]

  const InitialBoxes: nat := 8

  datatype PC = PC(boxes: seq<Storage.Slots>, active: int, unlocked: int)

  /** Every box has thirty slots and there is one box per unlocked box. */
  predicate BoxesWf(pc: PC) {
    |pc.boxes| == pc.unlocked
    && forall b :: 0 <= b < |pc.boxes| ==> Storage.Wf(Storage.Box, pc.boxes[b])
  }

  /** The class invariant: the boxes are well formed, at least one is unlocked
      and the active index selects one of them. */
  predicate Wf(pc: PC) {
    BoxesWf(pc) && 1 <= pc.unlocked && 0 <= pc.active < pc.unlocked
  }

  function EmptyBoxes(n: nat): (r: seq<Storage.Slots>)
    ensures |r| == n
    ensures forall b :: 0 <= b < n ==> r[b] == Storage.EmptyBox()
  {
    seq(n, b requires 0 <= b < n => Storage.EmptyBox())
  }

  /** `new PCStorage()`: the first tier's eight empty boxes. */
  function NewPC(): (r: PC)
    ensures Wf(r) && r.unlocked == InitialBoxes && r.active == 0
    ensures BoxesTotal(r.boxes) == 0
  {
    EmptyBoxesTotal(InitialBoxes);
    PC(EmptyBoxes(InitialBoxes), 0, InitialBoxes)
  }

  // ---------------- Creature count ----------------

  /** Creatures stored over all boxes. */
  function BoxesTotal(bs: seq<Storage.Slots>): nat {
    if |bs| == 0 then 0 else BoxesTotal(bs[..|bs| - 1]) + CountSome(bs[|bs| - 1])
  }

  lemma BoxesTotalAppend(a: seq<Storage.Slots>, b: seq<Storage.Slots>)
    ensures BoxesTotal(a + b) == BoxesTotal(a) + BoxesTotal(b)
  {
    if |b| == 0 {
      assert a + b == a;
    } else {
      assert (a + b)[..|a + b| - 1] == a + b[..|b| - 1];
      BoxesTotalAppend(a, b[..|b| - 1]);
    }
  }

  lemma EmptyBoxesTotal(n: nat)
    ensures BoxesTotal(EmptyBoxes(n)) == 0
  {
    if n > 0 {
      assert EmptyBoxes(n)[..n - 1] == EmptyBoxes(n - 1);
      EmptyBoxesTotal(n - 1);
    }
  }

  /** Replacing one box changes the total only by that box's count. */
  lemma BoxesTotalUpdate(bs: seq<Storage.Slots>, i: int, s: Storage.Slots)
    requires 0 <= i < |bs|
    ensures BoxesTotal(bs[i := s]) + CountSome(bs[i]) == BoxesTotal(bs) + CountSome(s)
  {
    if i < |bs| - 1 {
      assert bs[i := s][..|bs| - 1] == bs[..|bs| - 1][i := s];
      BoxesTotalUpdate(bs[..|bs| - 1], i, s);
    } else {
      assert bs[i := s][..|bs| - 1] == bs[..|bs| - 1];
    }
  }

  // ---------------- Unlock tiers ----------------

  /** The `foreach` over the tier table: a tier whose threshold the total
      reaches overwrites the running target. */
  function FoldTiers(tiers: seq<Tier>, total: int, target: nat): (r: nat)
    ensures (forall i :: 0 <= i < |tiers| ==> tiers[i].threshold > total) ==> r == target
    ensures forall i :: (0 <= i < |tiers| && tiers[i].threshold <= total
              && (forall j :: i < j < |tiers| ==> tiers[j].threshold > total)) ==> r == tiers[i].boxes
  {
    if |tiers| == 0 then target
    else
      var t := tiers[0];
      var rest := FoldTiers(tiers[1..], total, if total >= t.threshold then t.boxes else target);
      assert forall j :: 1 <= j < |tiers| ==> tiers[j] == tiers[1..][j - 1];
      rest
  }

  /** Boxes that `total` creatures unlock. */
  function TargetBoxes(total: int): nat {
    FoldTiers(Unlocks, total, Unlocks[0].boxes)
  }

  /** The target is the box count of the highest tier whose threshold the
      total reaches (the first tier for a negative total). */
  lemma TargetBoxesTiers(total: int)
    ensures TargetBoxes(total) == (if total >= 710 then 32 else if total >= 470 then 24
                                   else if total >= 230 then 16 else 8)
  {
    if total >= 710 {
      assert Unlocks[3].threshold <= total;
    } else if total >= 470 {
      assert Unlocks[2].threshold <= total && Unlocks[3].threshold > total;
    } else if total >= 230 {
      assert Unlocks[1].threshold <= total && Unlocks[2].threshold > total && Unlocks[3].threshold > total;
    } else if total >= 0 {
      assert Unlocks[0].threshold <= total && Unlocks[1].threshold > total;
    } else {
      assert forall i :: 0 <= i < |Unlocks| ==> Unlocks[i].threshold > total;
    }
  }

  /** More creatures never unlock fewer boxes. */
  lemma TargetBoxesMonotone(t1: int, t2: int)
    requires t1 <= t2
    ensures TargetBoxes(t1) <= TargetBoxes(t2)
  {
    TargetBoxesTiers(t1);
    TargetBoxesTiers(t2);
  }

  /** `UpdateUnlocks`: grows the box list up to the target (never shrinks it)
      and clamps the active box into the unlocked range. */
  function UpdateUnlocks(pc: PC, total: int): (r: PC)
    ensures r.unlocked >= pc.unlocked && r.unlocked >= TargetBoxes(total)
    ensures r.unlocked == pc.unlocked || r.unlocked == TargetBoxes(total)
    ensures |r.boxes| >= |pc.boxes| && r.boxes[..|pc.boxes|] == pc.boxes
    ensures forall b :: |pc.boxes| <= b < |r.boxes| ==> r.boxes[b] == Storage.EmptyBox()
    ensures BoxesTotal(r.boxes) == BoxesTotal(pc.boxes)
    ensures r.active == Clamp(pc.active, 0, r.unlocked - 1)
    ensures BoxesWf(pc) ==> Wf(r)
  {
    var target := TargetBoxes(total);
    var unlocked := if target > pc.unlocked then target else pc.unlocked;
    var added := if target > pc.unlocked then EmptyBoxes(target - pc.unlocked) else [];
    BoxesTotalAppend(pc.boxes, added);
    EmptyBoxesTotal(|added|);
    assert (pc.boxes + added)[..|pc.boxes|] == pc.boxes;
    TargetBoxesTiers(total);
    PC(pc.boxes + added, Clamp(pc.active, 0, unlocked - 1), unlocked)
  }

  /** Updating twice with the same total changes nothing the second time. */
  lemma UpdateUnlocksIdempotent(pc: PC, total: int)
    requires Wf(pc)
    ensures UpdateUnlocks(UpdateUnlocks(pc, total), total) == UpdateUnlocks(pc, total)
  {
  }

  /** `SetActiveBox`: the index clamped into the unlocked range. */
  function SetActiveBox(pc: PC, index: int): (r: PC)
    ensures r.boxes == pc.boxes && r.unlocked == pc.unlocked
    ensures pc.unlocked >= 1 ==> 0 <= r.active < pc.unlocked
    ensures 0 <= index < pc.unlocked ==> r.active == index
    ensures Wf(pc) ==> Wf(r)
  {
    pc.(active := Clamp(index, 0, pc.unlocked - 1))
  }

  // ---------------- Adding ----------------

  datatype AddResult = AddResult(boxes: seq<Storage.Slots>, ok: bool)

  predicate HasRoom(box: Storage.Slots) {
    CountSome(box) < Storage.Capacity(Storage.Box)
  }

  /** Index of the first box with room, if any. */
  function FirstWithRoom(bs: seq<Storage.Slots>): (r: Option<nat>)
    ensures r.None? <==> forall b :: 0 <= b < |bs| ==> !HasRoom(bs[b])
    ensures r.Some? ==> r.value < |bs| && HasRoom(bs[r.value])
    ensures r.Some? ==> forall c :: 0 <= c < r.value ==> !HasRoom(bs[c])
  {
    if |bs| == 0 then None
    else if HasRoom(bs[0]) then Some(0)
    else
      match FirstWithRoom(bs[1..])
      case None => None
      case Some(j) => Some(j + 1)
  }

  /** Tries the boxes in order and adds to the first one with room. */
  function AddToFirst(bs: seq<Storage.Slots>, p: Creature): (r: AddResult)
    requires forall b :: 0 <= b < |bs| ==> Storage.Wf(Storage.Box, bs[b])
    ensures |r.boxes| == |bs|
    decreases |bs|
  {
    if |bs| == 0 then AddResult(bs, false)
    else
      var first := Storage.TryAdd(Storage.Box, bs[0], p);
      if first.ok then AddResult([first.slots] + bs[1..], true)
      else
        var rest := AddToFirst(bs[1..], p);
        AddResult([bs[0]] + rest.boxes, rest.ok)
  }

  /** `AddToFirst` adds to the first box with room, in that box's lowest
      empty slot, and changes nothing when every box is full. */
  lemma {:induction false} AddToFirstSpec(bs: seq<Storage.Slots>, p: Creature)
    requires forall b :: 0 <= b < |bs| ==> Storage.Wf(Storage.Box, bs[b])
    ensures var r := AddToFirst(bs, p);
      && (r.ok <==> FirstWithRoom(bs).Some?)
      && (!r.ok ==> r.boxes == bs)
      && (r.ok ==> r.boxes == bs[FirstWithRoom(bs).value := Storage.TryAdd(Storage.Box, bs[FirstWithRoom(bs).value], p).slots])
    decreases |bs|
  {
    if |bs| > 0 {
      var first := Storage.TryAdd(Storage.Box, bs[0], p);
      if first.ok {
        assert [first.slots] + bs[1..] == bs[0 := first.slots];
      } else {
        AddToFirstSpec(bs[1..], p);
        var rest := AddToFirst(bs[1..], p);
        assert [bs[0]] + bs[1..] == bs;
        assert rest.ok ==> var b := FirstWithRoom(bs[1..]).value;
          [bs[0]] + rest.boxes == bs[b + 1 := Storage.TryAdd(Storage.Box, bs[b + 1], p).slots];
      }
    }
  }

  /** Adding to the first box with room stores exactly one more creature,
      or none when every box is full, and keeps every box well formed. */
  lemma AddToFirstTotal(bs: seq<Storage.Slots>, p: Creature)
    requires forall b :: 0 <= b < |bs| ==> Storage.Wf(Storage.Box, bs[b])
    ensures var r := AddToFirst(bs, p);
      && BoxesTotal(r.boxes) == BoxesTotal(bs) + (if r.ok then 1 else 0)
      && forall b :: 0 <= b < |bs| ==> Storage.Wf(Storage.Box, r.boxes[b])
  {
    AddToFirstSpec(bs, p);
    var r := AddToFirst(bs, p);
    if r.ok {
      var b := FirstWithRoom(bs).value;
      var added := Storage.TryAdd(Storage.Box, bs[b], p);
      BoxesTotalUpdate(bs, b, added.slots);
    }
  }

  lemma BoxesTotalSingle(s: Storage.Slots)
    ensures BoxesTotal([s]) == CountSome(s)
  {
    assert [s][..0] == [];
  }

  /** `AddToFirstAvailable`: only unlocked boxes are searched, in order; the
      creature lands in the first box with room, in that box's lowest empty
      slot, and nothing changes when every unlocked box is full. */
  function AddToFirstAvailable(pc: PC, p: Creature): (r: AddResult)
    requires BoxesWf(pc)
    ensures |r.boxes| == |pc.boxes|
    ensures r.ok <==> exists b :: 0 <= b < pc.unlocked && HasRoom(pc.boxes[b])
    ensures !r.ok ==> r.boxes == pc.boxes
    ensures r.ok ==> exists b :: 0 <= b < pc.unlocked && HasRoom(pc.boxes[b])
                       && (forall c :: 0 <= c < b ==> !HasRoom(pc.boxes[c]))
                       && r.boxes == pc.boxes[b := Storage.TryAdd(Storage.Box, pc.boxes[b], p).slots]
    ensures BoxesWf(pc.(boxes := r.boxes))
    ensures BoxesTotal(r.boxes) == BoxesTotal(pc.boxes) + (if r.ok then 1 else 0)
  {
    AddToFirstSpec(pc.boxes, p);
    AddToFirstTotal(pc.boxes, p);
    var r := AddToFirst(pc.boxes, p);
    assert r.ok ==> var b := FirstWithRoom(pc.boxes).value;
      0 <= b < pc.unlocked && HasRoom(pc.boxes[b]);
    r
  }

  // ---------------- Loading ----------------

  /** The first-tier fallback used when a load yields no boxes. */
  function Boxes0(): (r: seq<Storage.Slots>)
    ensures |r| == InitialBoxes && BoxesTotal(r) == 0
  {
    EmptyBoxesTotal(InitialBoxes);
    EmptyBoxes(InitialBoxes)
  }

  /** `SetFromSave` (legacy format): one box per saved list, or the first
      tier's empty boxes when there are none; the active box is re-clamped. */
  function SetFromSave(pc: PC, pcBoxes: Option<seq<Option<Storage.Slots>>>): (r: PC)
    ensures Wf(r)
    ensures pcBoxes.None? || |pcBoxes.value| == 0 ==> r.boxes == Boxes0()
    ensures pcBoxes.Some? && |pcBoxes.value| > 0 ==>
              |r.boxes| == |pcBoxes.value|
              && forall b :: 0 <= b < |r.boxes| ==> r.boxes[b] == Storage.BoxFromData(pcBoxes.value[b])
    ensures r.active == Clamp(pc.active, 0, r.unlocked - 1)
  {
    var loaded := if pcBoxes.Some? then
      seq(|pcBoxes.value|, b requires 0 <= b < |pcBoxes.value| => Storage.BoxFromData(pcBoxes.value[b]))
      else [];
    var boxes := if |loaded| == 0 then Boxes0() else loaded;
    PC(boxes, Clamp(pc.active, 0, |boxes| - 1), |boxes|)
  }

  /** `SetFromMasked`: one box per saved DTO, each loaded through its mask,
      or the first tier's empty boxes when there are none. */
  function SetFromMasked(pc: PC, dtoBoxes: Option<seq<Storage.SlotsDTO>>): (r: PC)
    ensures Wf(r)
    ensures dtoBoxes.None? || |dtoBoxes.value| == 0 ==> r.boxes == Boxes0()
    ensures dtoBoxes.Some? && |dtoBoxes.value| > 0 ==>
              |r.boxes| == |dtoBoxes.value|
              && forall b :: 0 <= b < |r.boxes| ==>
                   r.boxes[b] == Storage.SetFromMasked(Storage.Box, dtoBoxes.value[b].slots, dtoBoxes.value[b].occupied)
    ensures r.active == Clamp(pc.active, 0, r.unlocked - 1)
  {
    var loaded := if dtoBoxes.Some? then
      seq(|dtoBoxes.value|, b requires 0 <= b < |dtoBoxes.value| =>
        Storage.SetFromMasked(Storage.Box, dtoBoxes.value[b].slots, dtoBoxes.value[b].occupied))
      else [];
    var boxes := if |loaded| == 0 then Boxes0() else loaded;
    PC(boxes, Clamp(pc.active, 0, |boxes| - 1), |boxes|)
  }

  /** `ToSave`: the boxes' slot lists. */
  function ToSave(pc: PC): (r: seq<Option<Storage.Slots>>)
    ensures |r| == |pc.boxes|
    ensures forall b :: 0 <= b < |r| ==> r[b] == Some(pc.boxes[b])
  {
    seq(|pc.boxes|, b requires 0 <= b < |pc.boxes| => Some(pc.boxes[b]))
  }

  /** Saving in the legacy format and loading it back restores every box. */
  lemma LegacyRoundTrip(pc: PC, other: PC)
    requires Wf(pc)
    ensures SetFromSave(other, Some(ToSave(pc))).boxes == pc.boxes
  {
    var r := SetFromSave(other, Some(ToSave(pc)));
    assert |r.boxes| == |pc.boxes|;
    forall b | 0 <= b < |pc.boxes|
      ensures r.boxes[b] == pc.boxes[b]
    {
      assert Storage.Wf(Storage.Box, pc.boxes[b]);
    }
  }
}

=== FILE: service.dfy ===
/** The combat entry point (`CombatService`): at most one running encounter,
    the capture latch and the combat UI root's active flag. The end callback
    handed to `Begin` is applied whenever a step ends the encounter. */
module CombatService {
  import opened Common
  import opened Data
  import opened Turns
  import Enc = Encounter
  import Beh = Behavior

  /** `active` is `activeEncounter`, `latch` is `captureAttemptActive`,
      `uiRoot` the combat UI root's active flag when there is a root. */
  datatype Service = Service(active: Option<Enc.Enc>, latch: bool, uiRoot: Option<bool>)

  /** `IsInEncounter` (and `IsInBattle`, which is the same test). */
  predicate IsInEncounter(s: Service) {
    s.active.Some?
  }

  /** The running encounter is one that was begun and has not ended: its end
      callback clears the reference. The latch is only ever set during an
      encounter. */
  predicate Inv(s: Service) {
    && (s.latch ==> s.active.Some?)
    && (s.active.Some? ==>
          Enc.Inv(s.active.value) && !s.active.value.ended
          && s.active.value.hasCallback && s.active.value.phase != Enc.Idle)
  }

  function HideUI(ui: Option<bool>): (r: Option<bool>)
    ensures r.Some? <==> ui.Some?
    ensures r.Some? ==> !r.value
  {
    if ui.Some? then Some(false) else None
  }

  /** The end callback given to `Begin`: hides the UI, clears the latch and
      forgets the encounter. */
  function EndCallback(s: Service): (r: Service)
    ensures !IsInEncounter(r) && !r.latch && Inv(r)
    ensures r.uiRoot == HideUI(s.uiRoot)
  {
    Service(None, false, HideUI(s.uiRoot))
  }

  /** Takes a running encounter's new state: when it has ended, its callback
      has run. */
  function Settle(s: Service, e: Enc.Enc): (r: Service)
    ensures e.ended ==> r == EndCallback(s)
    ensures !e.ended ==> r == s.(active := Some(e))
  {
    if e.ended then EndCallback(s) else s.(active := Some(e))
  }

  /** `StartEncounter`: refused during an encounter, without a prefab, or when
      the prefab has no encounter component. Otherwise the prefab's encounter
      (`prefabOffset`, `prefabRingRadius` are its serialized values) gets the
      service's own serialized `defaultOffsetFromCenter` and
      `defaultPlayerRingRadius` (`offsetSetting`, `ringRadiusSetting`; 2.5 and
      10 unless set in the Inspector), the UI is shown, and the encounter
      begins. */
  function StartEncounter(s: Service, offsetSetting: real, ringRadiusSetting: real,
                          hasPrefab: bool, hasController: bool,
                          prefabOffset: real, prefabRingRadius: real, bystanders: map<nat, Beh.B>,
                          playerMon: Option<Creature>, wildMon: Option<Creature>,
                          playerActor: Enc.Actor, wildActor: Enc.Actor, inside: set<nat>): (r: Service)
    requires Inv(s)
    ensures Inv(r)
    ensures IsInEncounter(s) || !hasPrefab || !hasController ==> r == s
    ensures !IsInEncounter(s) && hasPrefab && hasController ==>
              && IsInEncounter(r) && !r.latch
              && r.active.value.phase == Enc.Positioning
              && r.active.value.offset == MaxReal(0.1, offsetSetting)
              && r.active.value.ringRadius == MaxReal(1.0, ringRadiusSetting)
              && r.active.value.battle.player.model == playerMon && r.active.value.battle.enemy.model == wildMon
              && (s.uiRoot.Some? ==> r.uiRoot == Some(true))
  {
    if IsInEncounter(s) || !hasPrefab || !hasController then s
    else
      var configured := Enc.ApplyConfig(Enc.Fresh(prefabOffset, prefabRingRadius, bystanders),
                                        Some(offsetSetting), Some(ringRadiusSetting));
      var shown := if s.uiRoot.Some? then Some(true) else None;
      Service(Some(Enc.Begin(configured, playerMon, wildMon, playerActor, wildActor, inside)), s.latch, shown)
  }

  /** One step of the running encounter's loop. */
  function StepEncounter(s: Service, d: Draws): (r: Service)
    requires Inv(s)
    ensures Inv(r)
    ensures !IsInEncounter(s) ==> r == s
    ensures IsInEncounter(s) ==> (IsInEncounter(r) <==> !Enc.Step(s.active.value, d).e.ended)
  {
    if s.active.None? then s
    else
      Enc.StepKeepsInv(s.active.value, d);
      Enc.TurnsAlternate(s.active.value, d);
      Settle(s, Enc.Step(s.active.value, d).e)
  }

  /** A closing call's result: the service after it, and the encounter as it
      ended when the call ended one. */
  datatype Closed = Closed(s: Service, finished: Option<Enc.Enc>)

  /** `ForceEndEncounter`: nothing without an encounter; otherwise the
      encounter is force-ended (its callback runs) and the service is cleared. */
  function ForceEndEncounter(s: Service): (r: Closed)
    requires Inv(s)
    ensures Inv(r.s) && !IsInEncounter(r.s) && !r.s.latch
    ensures !IsInEncounter(s) ==> r == Closed(s, None)
    ensures IsInEncounter(s) ==>
              && r.finished == Some(Enc.EndEncounter(s.active.value, ForcedEnd))
              && r.s.uiRoot == HideUI(s.uiRoot)
  {
    if s.active.None? then Closed(s, None)
    else
      var ended := Enc.ForceEnd(s.active.value);
      Closed(EndCallback(Settle(s, ended)), Some(ended))
  }

  /** `BeginCaptureAttempt`'s answer and the service after it. */
  datatype Attempt = Attempt(s: Service, allowed: bool)

  /** `BeginCaptureAttempt`: always allowed outside an encounter; during one,
      allowed exactly when no attempt is running, and the latch is set. */
  function BeginCaptureAttempt(s: Service): (r: Attempt)
    requires Inv(s)
    ensures Inv(r.s)
    ensures !IsInEncounter(s) ==> r == Attempt(s, true)
    ensures IsInEncounter(s) ==> (r.allowed <==> !s.latch) && r.s == s.(latch := true)
  {
    if !IsInEncounter(s) then Attempt(s, true)
    else if s.latch then Attempt(s, false)
    else Attempt(s.(latch := true), true)
  }

  /** Two attempts in a row during an encounter: the second is refused. */
  lemma SecondAttemptRefused(s: Service)
    requires Inv(s) && IsInEncounter(s)
    ensures !BeginCaptureAttempt(BeginCaptureAttempt(s).s).allowed
  {
  }

  /** The object a call is made on: the running encounter, or the turn
      controller obtained from it. */
  datatype Target = OnEncounter | OnTurnController

  /** A call (or property read) by member name, kept as a record: the
      capture notifications as written name members that cannot be
      resolved, so they have no behaviour to model. */
  datatype Call = Call(target: Target, member: string)

  /** The public members `EncounterController` declares. */
  const EncounterMembers: set<string> :=
    {"ApplyConfig", "Begin", "ForceEnd", "NotifyCaptureSuccess", "NotifyCaptureFailed"}

  /** The public members `TurnController` declares. */
  const TurnControllerMembers: set<string> :=
    {"OnPlayerTurnStart", "OnEnemyTurnStart", "Setup", "DoPlayerTurn", "DoEnemyTurn",
     "QueueMove", "QueueRun", "QueueCapture", "QueueSwitch"}

  predicate Declared(c: Call) {
    match c.target
    case OnEncounter => c.member in EncounterMembers
    case OnTurnController => c.member in TurnControllerMembers
  }

  /** The service after a notification as written, and the calls it makes
      on the encounter, in order. */
  datatype Notified = Notified(s: Service, calls: seq<Call>)

  /** `NotifyCaptureSuccess` as written: the latch is cleared and, during an
      encounter, `EndByCapture` is called on it, a member the encounter does
      not declare. */
  function NotifyCaptureSuccessAsWritten(s: Service): (r: Notified)
    requires Inv(s)
    ensures !r.s.latch
    ensures !IsInEncounter(s) ==> r.calls == []
    ensures IsInEncounter(s) ==> r.calls == [Call(OnEncounter, "EndByCapture")]
    ensures forall c :: c in r.calls ==> !Declared(c)
  {
    if s.active.None? then Notified(s.(latch := false), [])
    else Notified(s.(latch := false), [Call(OnEncounter, "EndByCapture")])
  }

  /** `NotifyCaptureFailed` as written: the latch is cleared and, during an
      encounter, its `TurnController` property is read and, when that gives a
      controller, `ConsumePlayerTurn` is called on it. The encounter declares
      no such property (its controller is the private `turnCtl`, whose
      presence `hasTurnController` records) and the controller no such
      method. */
  function NotifyCaptureFailedAsWritten(s: Service): (r: Notified)
    requires Inv(s)
    ensures !r.s.latch
    ensures !IsInEncounter(s) ==> r.calls == []
    ensures IsInEncounter(s) ==>
              && |r.calls| >= 1 && r.calls[0] == Call(OnEncounter, "TurnController")
              && (|r.calls| == 2 <==> s.active.value.hasTurnController)
              && (|r.calls| == 2 ==> r.calls[1] == Call(OnTurnController, "ConsumePlayerTurn"))
    ensures forall c :: c in r.calls ==> !Declared(c)
  {
    if s.active.None? then Notified(s.(latch := false), [])
    else
      var get := Call(OnEncounter, "TurnController");
      if s.active.value.hasTurnController then Notified(s.(latch := false), [get, Call(OnTurnController, "ConsumePlayerTurn")])
      else Notified(s.(latch := false), [get])
  }

  /** During an encounter, both notifications as written name a member that
      is not declared, while the members the intended forwarding uses (the
      encounter's `NotifyCaptureSuccess` and `NotifyCaptureFailed`, and the
      controller's `QueueCapture`) are. */
  lemma AsWrittenNamesUndeclared(s: Service)
    requires Inv(s) && IsInEncounter(s)
    ensures exists c :: c in NotifyCaptureSuccessAsWritten(s).calls && !Declared(c)
    ensures exists c :: c in NotifyCaptureFailedAsWritten(s).calls && !Declared(c)
    ensures Declared(Call(OnEncounter, "NotifyCaptureSuccess")) && Declared(Call(OnEncounter, "NotifyCaptureFailed"))
    ensures Declared(Call(OnTurnController, "QueueCapture"))
  {
    assert NotifyCaptureSuccessAsWritten(s).calls[0] in NotifyCaptureSuccessAsWritten(s).calls;
    assert NotifyCaptureFailedAsWritten(s).calls[0] in NotifyCaptureFailedAsWritten(s).calls;
  }

  /** `NotifyCaptureSuccess` as evidently intended: the encounter's own
      `NotifyCaptureSuccess`, which ends it with `Capture`; its callback
      clears the service. */
  function NotifyCaptureSuccess(s: Service): (r: Closed)
    requires Inv(s)
    ensures Inv(r.s) && !r.s.latch && !IsInEncounter(r.s)
    ensures !IsInEncounter(s) ==> r == Closed(s.(latch := false), None)
    ensures IsInEncounter(s) ==>
              && r.finished == Some(Enc.EndEncounter(s.active.value, Capture))
              && r.s.uiRoot == HideUI(s.uiRoot)
  {
    if s.active.None? then Closed(s.(latch := false), None)
    else
      var ended := Enc.NotifyCaptureSuccess(s.active.value);
      Closed(Settle(s.(latch := false), ended), Some(ended))
  }

  /** `NotifyCaptureFailed` as evidently intended: the encounter's own
      `NotifyCaptureFailed`, which queues a capture decision so the player's
      turn is spent. */
  function NotifyCaptureFailed(s: Service): (r: Service)
    requires Inv(s)
    ensures Inv(r) && !r.latch
    ensures !IsInEncounter(s) ==> r == s.(latch := false)
    ensures IsInEncounter(s) ==> r.active == Some(Enc.NotifyCaptureFailed(s.active.value))
  {
    if s.active.None? then s.(latch := false)
    else
      Enc.OtherOperationsKeepInv(s.active.value, {}, 0, None, None);
      s.(latch := false, active := Some(Enc.NotifyCaptureFailed(s.active.value)))
  }

  /** With the intended forwarding, a capture ends the encounter with the
      capture result, and a failed one spends the player's pending turn:
      the next player step is a capture turn that does not touch the battle. */
  lemma CaptureNotificationsReachEncounter(s: Service, d: Draws)
    requires Inv(s) && IsInEncounter(s)
    ensures !IsInEncounter(NotifyCaptureSuccess(s).s)
    ensures var e := NotifyCaptureFailed(s).active.value;
      e.hasTurnController ==>
        && e.queue.capture
        && DoPlayerTurn(e.battle, e.queue, d).kind in {Ran, CaptureTurn}
        && DoPlayerTurn(e.battle, e.queue, d).battle == e.battle
  {
  }
}

=== FILE: spawner.dfy ===
/** The wild creature spawner (`Spawner`): the weighted species pick and
    the level draw. Positions, ground raycasts and the shiny draw are not
    modelled; the float weights are exact reals, and the random roll and
    level draw are parameters. */
module Spawner {
  import opened Common
  import opened Data
  import Instance

  /** `PokemonSpawnEntry`: a species (possibly missing) and its weight. */
  datatype SpawnEntry = SpawnEntry(pokemon: Option<Species>, spawnChance: real)

  /** The running weight total of the first `i` entries. */
  function Cum(list: seq<SpawnEntry>, i: nat): real
    requires i <= |list|
  {
    if i == 0 then 0.0 else Cum(list, i - 1) + list[i - 1].spawnChance
  }

  /** The running total through entry `j`, that entry included. */
  function CumThrough(list: seq<SpawnEntry>, j: nat): real
    requires j < |list|
  {
    Cum(list, j + 1)
  }

  function TotalWeight(list: seq<SpawnEntry>): real {
    Cum(list, |list|)
  }

  /** The scan from entry `i` on: the first entry whose running total
      reaches the roll. */
  function PickFrom(list: seq<SpawnEntry>, roll: real, i: nat): (r: Option<nat>)
    requires i <= |list|
    ensures r.Some? ==> i <= r.value < |list| && roll <= CumThrough(list, r.value)
    ensures r.Some? ==> forall j :: i <= j < r.value ==> roll > CumThrough(list, j)
    ensures r.None? ==> forall j :: i <= j < |list| ==> roll > CumThrough(list, j)
    decreases |list| - i
  {
    if i == |list| then None
    else if roll <= CumThrough(list, i) then Some(i)
    else PickFrom(list, roll, i + 1)
  }

  /** The index `GetRandomPokemon` stops at, if any. */
  function PickIndex(list: seq<SpawnEntry>, roll: real): (r: Option<nat>)
    ensures r.Some? ==> r.value < |list| && roll <= CumThrough(list, r.value)
    ensures r.Some? ==> forall j :: 0 <= j < r.value ==> roll > CumThrough(list, j)
    ensures r.None? ==> forall j :: 0 <= j < |list| ==> roll > CumThrough(list, j)
  {
    PickFrom(list, roll, 0)
  }

  /** `GetRandomPokemon`, given the roll drawn in [0, total]: the picked
      entry's species, or none when the scan runs off the end. */
  function GetRandomPokemon(list: seq<SpawnEntry>, roll: real): (r: Option<Species>)
    ensures list == [] ==> r.None?
    ensures PickIndex(list, roll).None? ==> r.None?
    ensures PickIndex(list, roll).Some? ==> r == list[PickIndex(list, roll).value].pokemon
  {
    var i := PickIndex(list, roll);
    if i.Some? then list[i.value].pokemon else None
  }

  /** Any roll up to the total over a non-empty list picks an entry. */
  lemma RollInRangePicks(list: seq<SpawnEntry>, roll: real)
    requires |list| > 0 && roll <= TotalWeight(list)
    ensures PickIndex(list, roll).Some?
  {
    var last := |list| - 1;
    assert roll <= CumThrough(list, last);
  }

  /** With a positive roll, an entry of weight 0 or less is never picked. */
  lemma PickedWeightIsPositive(list: seq<SpawnEntry>, roll: real)
    requires roll > 0.0 && PickIndex(list, roll).Some?
    ensures list[PickIndex(list, roll).value].spawnChance > 0.0
  {
    var i := PickIndex(list, roll).value;
    if i > 0 {
      var j := i - 1;
      assert roll > CumThrough(list, j);
      assert CumThrough(list, i) == CumThrough(list, j) + list[i].spawnChance;
    } else {
      assert Cum(list, 0) == 0.0;
      assert CumThrough(list, 0) == Cum(list, 0) + list[0].spawnChance;
    }
  }

  /** With weights of 0 or more, the running totals never go down. */
  lemma {:induction false} CumMonotone(list: seq<SpawnEntry>, i: nat, j: nat)
    requires i <= j <= |list|
    requires forall k :: 0 <= k < |list| ==> list[k].spawnChance >= 0.0
    ensures Cum(list, i) <= Cum(list, j)
    decreases j - i
  {
    if i < j {
      CumMonotone(list, i, j - 1);
    }
  }

  /** With weights of 0 or more, each entry owns the interval of rolls
      between the total before it (exclusive) and the total after it
      (inclusive): a roll there picks exactly that entry. */
  lemma {:induction false} IntervalPicks(list: seq<SpawnEntry>, roll: real, i: nat)
    requires forall k :: 0 <= k < |list| ==> list[k].spawnChance >= 0.0
    requires i < |list| && Cum(list, i) < roll <= CumThrough(list, i)
    ensures PickIndex(list, roll) == Some(i)
  {
    var r := PickIndex(list, roll);
    assert roll <= CumThrough(list, i);
    if r.Some? && r.value < i {
      CumMonotone(list, r.value + 1, i);
    }
  }

  /** `SpawnCreature`: no creature when the pick yields no species;
      otherwise a new record of that species at a level drawn from
      `Random.Range(min, max + 1)`. The record's identity and move list are
      taken as given. */
  function SpawnCreature(list: seq<SpawnEntry>, levelMin: int, levelMax: int,
                         roll: real, levelDraw: nat, id: nat, moves: Option<seq<Option<MoveSlot>>>): (r: Option<Creature>)
    ensures GetRandomPokemon(list, roll).None? <==> r.None?
    ensures r.Some? ==> r.value.species == GetRandomPokemon(list, roll)
    ensures r.Some? && levelMin <= levelMax ==> levelMin <= r.value.level <= levelMax
    ensures r.Some? && levelMax + 1 == levelMin ==> r.value.level == levelMin
    ensures r.Some? ==> r.value.currentExp == 0 && r.value.currentHP == r.value.stats.hp
  {
    var species := GetRandomPokemon(list, roll);
    if species.None? then None
    else Some(Instance.NewInstance(id, species.value, RangeInt(levelMin, levelMax + 1, levelDraw), moves))
  }

  /** Every level of the range can be spawned. */
  lemma EveryLevelReachable(list: seq<SpawnEntry>, levelMin: int, levelMax: int, roll: real,
                            level: int, id: nat, moves: Option<seq<Option<MoveSlot>>>)
    requires GetRandomPokemon(list, roll).Some? && levelMin <= level <= levelMax
    ensures SpawnCreature(list, levelMin, levelMax, roll, level - levelMin, id, moves).value.level == level
  {
    RangeIntCovers(levelMin, levelMax + 1, level);
  }

  /** The draws of one spawn. */
  datatype SpawnDraw = SpawnDraw(roll: real, levelDraw: nat, id: nat, moves: Option<seq<Option<MoveSlot>>>)

  /** How many of the draws pick a species. */
  function Productive(list: seq<SpawnEntry>, draws: seq<SpawnDraw>): (n: nat)
    ensures n <= |draws|
  {
    if draws == [] then 0
    else Productive(list, draws[..|draws| - 1])
         + (if GetRandomPokemon(list, draws[|draws| - 1].roll).Some? then 1 else 0)
  }

  /** A creature of one of the listed species. */
  predicate OfListedSpecies(list: seq<SpawnEntry>, c: Creature) {
    c.species.Some? && exists j :: 0 <= j < |list| && list[j].pokemon == c.species
  }

  /** The productive count grows by one exactly when the next draw picks a
      species. */
  lemma ProductiveStep(list: seq<SpawnEntry>, draws: seq<SpawnDraw>, i: nat)
    requires i < |draws|
    ensures Productive(list, draws[..i + 1])
            == Productive(list, draws[..i]) + (if GetRandomPokemon(list, draws[i].roll).Some? then 1 else 0)
  {
    assert draws[..i + 1][..i] == draws[..i];
  }

  /** `SpawnCreatures`, one spawn per draw (the creature count is the number
      of draws): every productive draw spawns one creature, of a listed
      species, at a level in the range. */
  method SpawnCreatures(list: seq<SpawnEntry>, levelMin: int, levelMax: int, draws: seq<SpawnDraw>)
    returns (spawned: seq<Creature>)
    ensures |spawned| == Productive(list, draws)
    ensures forall k :: 0 <= k < |spawned| ==> OfListedSpecies(list, spawned[k])
    ensures levelMin <= levelMax ==> forall k :: 0 <= k < |spawned| ==> levelMin <= spawned[k].level <= levelMax
  {
    spawned := [];
    var i := 0;
    while i < |draws|
      invariant 0 <= i <= |draws|
      invariant |spawned| == Productive(list, draws[..i])
      invariant forall k :: 0 <= k < |spawned| ==> OfListedSpecies(list, spawned[k])
      invariant levelMin <= levelMax ==> forall k :: 0 <= k < |spawned| ==> levelMin <= spawned[k].level <= levelMax
    {
      var d := draws[i];
      ProductiveStep(list, draws, i);
      var c := SpawnCreature(list, levelMin, levelMax, d.roll, d.levelDraw, d.id, d.moves);
      if c.Some? {
        var j := PickIndex(list, d.roll).value;
        assert list[j].pokemon == c.value.species;
        spawned := spawned + [c.value];
      }
      i := i + 1;
    }
    assert draws[..|draws|] == draws;
  }
}

=== FILE: stats.dfy ===
/** Integer stat formulas (`PokemonStatsCalculator`).

    The source divides by `4f` and `100f` and floors the float result. For an
    integer numerator that is exactly floor division, which is what Dafny's
    `/` computes for a positive divisor, so the model is exact for every
    integer input whose intermediate values a 32-bit float represents exactly. */
module Stats {
  import opened Data

  /** The common part of both formulas: `2·base + iv + ⌊ev/4⌋`. */
  function Core(base: int, iv: int, ev: int): int {
    2 * base + iv + ev / 4
  }

  /** `CalculateHPStat`. */
  function HPStat(base: int, iv: int, ev: int, level: int): (r: int)
    ensures 100 * (r - level - 10) <= Core(base, iv, ev) * level < 100 * (r - level - 10 + 1)
    ensures 0 <= base && 0 <= iv && 0 <= ev && 0 <= level ==> r >= level + 10
  {
    (Core(base, iv, ev) * level) / 100 + level + 10
  }

  /** `CalculateOtherStat`. */
  function OtherStat(base: int, iv: int, ev: int, level: int): (r: int)
    ensures 100 * (r - 5) <= Core(base, iv, ev) * level < 100 * (r - 5 + 1)
    ensures 0 <= base && 0 <= iv && 0 <= ev && 0 <= level ==> r >= 5
  {
    (Core(base, iv, ev) * level) / 100 + 5
  }

  /** `CalculateAllStats`: the HP formula for HP, the other formula for the
      five remaining stats, each with its own base, IV and EV. */
  function CalculateAllStats(base: StatBlock, level: int, ivs: StatBlock, evs: StatBlock): (r: StatBlock)
    ensures r.hp == HPStat(base.hp, ivs.hp, evs.hp, level)
    ensures r.attack == OtherStat(base.attack, ivs.attack, evs.attack, level)
    ensures r.defense == OtherStat(base.defense, ivs.defense, evs.defense, level)
    ensures r.spAttack == OtherStat(base.spAttack, ivs.spAttack, evs.spAttack, level)
    ensures r.spDefense == OtherStat(base.spDefense, ivs.spDefense, evs.spDefense, level)
    ensures r.speed == OtherStat(base.speed, ivs.speed, evs.speed, level)
  {
    StatBlock(
      HPStat(base.hp, ivs.hp, evs.hp, level),
      OtherStat(base.attack, ivs.attack, evs.attack, level),
      OtherStat(base.defense, ivs.defense, evs.defense, level),
      OtherStat(base.spAttack, ivs.spAttack, evs.spAttack, level),
      OtherStat(base.spDefense, ivs.spDefense, evs.spDefense, level),
      OtherStat(base.speed, ivs.speed, evs.speed, level))
  }

  predicate NonNegative(b: StatBlock) {
    b.hp >= 0 && b.attack >= 0 && b.defense >= 0 && b.spAttack >= 0 && b.spDefense >= 0 && b.speed >= 0
  }

  /** With the default spreads and non-negative base stats, HP is at least
      `level + 10` and every other stat at least 5. */
  lemma DefaultStatsLowerBounds(base: StatBlock, level: int)
    requires NonNegative(base) && level >= 0
    ensures var s := CalculateAllStats(base, level, DefaultIVs, DefaultEVs);
      s.hp >= level + 10 && s.attack >= 5 && s.defense >= 5
      && s.spAttack >= 5 && s.spDefense >= 5 && s.speed >= 5
  {
  }

  lemma DivMonotone(a: int, b: int)
    requires a <= b
    ensures a / 100 <= b / 100
  {
  }

  lemma MulMonotone(x: int, l1: int, l2: int)
    requires x >= 0 && l1 <= l2
    ensures x * l1 <= x * l2
  {
  }

  /** Both formulas are non-decreasing in the level for non-negative inputs. */
  lemma {:induction false} StatsMonotoneInLevel(base: int, iv: int, ev: int, l1: int, l2: int)
    requires 0 <= base && 0 <= iv && 0 <= ev && 0 <= l1 <= l2
    ensures HPStat(base, iv, ev, l1) <= HPStat(base, iv, ev, l2)
    ensures OtherStat(base, iv, ev, l1) <= OtherStat(base, iv, ev, l2)
  {
    var x := Core(base, iv, ev);
    MulMonotone(x, l1, l2);
    DivMonotone(x * l1, x * l2);
  }

  /** Both formulas are non-decreasing in the base stat for non-negative inputs. */
  lemma {:induction false} StatsMonotoneInBase(b1: int, b2: int, iv: int, ev: int, level: int)
    requires 0 <= b1 <= b2 && 0 <= iv && 0 <= ev && 0 <= level
    ensures HPStat(b1, iv, ev, level) <= HPStat(b2, iv, ev, level)
    ensures OtherStat(b1, iv, ev, level) <= OtherStat(b2, iv, ev, level)
  {
    var x1 := Core(b1, iv, ev);
    var x2 := Core(b2, iv, ev);
    assert x1 <= x2;
    assert x1 * level <= x2 * level by {
      MulMonotone(level, x1, x2);
      assert level * x1 == x1 * level;
      assert level * x2 == x2 * level;
    }
    DivMonotone(x1 * level, x2 * level);
  }
}

=== FILE: storage.dfy ===
/** Fixed-capacity creature collections (`PokemonParty`, `PCBox`): an array
    of slots in which an empty slot is `None`. The two classes share every
    operation except `Compact` and `SetFromList`, which only the party has. */
module Storage {
  import opened Common
  import opened Data

  type Slots = seq<Option<Creature>>

  datatype Kind = Party | Box

  function Capacity(k: Kind): nat {
    match k
    case Party => 6
    case Box => 30
  }

  /** The class invariant: the backing array has exactly `MaxCapacity` slots. */
  predicate Wf(k: Kind, s: Slots) {
    |s| == Capacity(k)
  }

  predicate IsIndexValid(k: Kind, i: int) {
    0 <= i < Capacity(k)
  }

  /** `GetAt`: the occupant, or `None` for an invalid index. */
  function GetAt(k: Kind, s: Slots, i: int): Option<Creature>
    requires Wf(k, s)
  {
    if IsIndexValid(k, i) then s[i] else None
  }

  datatype Removed = Removed(slots: Slots, removed: Option<Creature>)

  /** `RemoveAt`: returns the previous occupant and empties that slot. */
  function RemoveAt(k: Kind, s: Slots, i: int): (r: Removed)
    requires Wf(k, s)
    ensures Wf(k, r.slots)
    ensures r.removed == GetAt(k, s, i)
    ensures GetAt(k, r.slots, i) == None
    ensures forall j :: j != i ==> GetAt(k, r.slots, j) == GetAt(k, s, j)
    ensures !IsIndexValid(k, i) ==> r.slots == s
    ensures IsIndexValid(k, i) ==> r.slots == s[i := None]
    ensures CountSome(r.slots) + (if r.removed.Some? then 1 else 0) == CountSome(s)
  {
    if !IsIndexValid(k, i) then Removed(s, None)
    else
      CountSomeUpdate(s, i, None);
      Removed(s[i := None], s[i])
  }

  /** Index of the lowest empty slot, if any. */
  function FirstEmpty(s: Slots): (r: Option<nat>)
    ensures r.None? <==> forall i :: 0 <= i < |s| ==> s[i].Some?
    ensures r.Some? ==> r.value < |s| && s[r.value].None?
    ensures r.Some? ==> forall i :: 0 <= i < r.value ==> s[i].Some?
  {
    if |s| == 0 then None
    else if s[0].None? then Some(0)
    else
      match FirstEmpty(s[1..])
      case None => None
      case Some(j) => Some(j + 1)
  }

  datatype Added = Added(slots: Slots, ok: bool)

  /** `TryAdd`: fills the lowest-index empty slot and returns true; when every
      slot is taken it returns false and changes nothing. */
  function TryAdd(k: Kind, s: Slots, p: Creature): (r: Added)
    requires Wf(k, s)
    ensures Wf(k, r.slots)
    ensures r.ok <==> CountSome(s) < Capacity(k)
    ensures !r.ok ==> r.slots == s
    ensures r.ok ==> exists j :: 0 <= j < |s| && s[j].None? && (forall i :: 0 <= i < j ==> s[i].Some?)
                                  && r.slots == s[j := Some(p)]
    ensures CountSome(r.slots) == CountSome(s) + (if r.ok then 1 else 0)
  {
    match FirstEmpty(s)
    case None =>
      CountSomeAll(s);
      Added(s, false)
    case Some(j) =>
      CountSomeUpdate(s, j, Some(p));
      CountSomeWithGap(s, j);
      Added(s[j := Some(p)], true)
  }

  datatype Inserted = Inserted(slots: Slots, ok: bool, displaced: Option<Creature>)

  /** `TryInsertAt`: on a valid index stores `p` and hands back the old
      occupant; on an invalid index fails with no displaced creature. */
  function TryInsertAt(k: Kind, s: Slots, i: int, p: Creature): (r: Inserted)
    requires Wf(k, s)
    ensures Wf(k, r.slots)
    ensures r.ok <==> IsIndexValid(k, i)
    ensures r.ok ==> r.displaced == s[i] && r.slots == s[i := Some(p)]
    ensures !r.ok ==> r.displaced == None && r.slots == s
    ensures CountSome(r.slots) + (if r.displaced.Some? then 1 else 0) == CountSome(s) + (if r.ok then 1 else 0)
  {
    if !IsIndexValid(k, i) then Inserted(s, false, None)
    else
      CountSomeUpdate(s, i, Some(p));
      Inserted(s[i := Some(p)], true, s[i])
  }

  /** `Swap`: exchanges two slots; a no-op when either index is invalid. */
  function Swap(k: Kind, s: Slots, a: int, b: int): (r: Slots)
    requires Wf(k, s)
    ensures Wf(k, r)
    ensures !(IsIndexValid(k, a) && IsIndexValid(k, b)) ==> r == s
    ensures IsIndexValid(k, a) && IsIndexValid(k, b) ==>
              r[a] == s[b] && r[b] == s[a]
              && forall j :: 0 <= j < |s| && j != a && j != b ==> r[j] == s[j]
    ensures multiset(r) == multiset(s)
    ensures CountSome(r) == CountSome(s)
  {
    if !(IsIndexValid(k, a) && IsIndexValid(k, b)) then s
    else
      var r := s[a := s[b]][b := s[a]];
      CountSomeUpdate(s, a, s[b]);
      CountSomeUpdate(s[a := s[b]], b, s[a]);
      r
  }

  // ---------------- Compaction (party only) ----------------

  /** The occupants in slot order. */
  function Occupants(s: Slots): (r: seq<Creature>)
    ensures |r| == CountSome(s)
  {
    if |s| == 0 then []
    else Occupants(s[..|s| - 1]) + (if s[|s| - 1].Some? then [s[|s| - 1].value] else [])
  }

  function Wrap(xs: seq<Creature>): (r: Slots)
    ensures |r| == |xs|
    ensures forall i :: 0 <= i < |xs| ==> r[i] == Some(xs[i])
  {
    seq(|xs|, i requires 0 <= i < |xs| => Some(xs[i]))
  }

  /** Every empty slot comes after every occupied one. */
  predicate IsCompacted(s: Slots) {
    forall i, j :: 0 <= i < j < |s| && s[i].None? ==> s[j].None?
  }

  datatype Compacted = Compacted(slots: Slots, changed: bool)

  /** Reference definition of `Compact`: the occupants in their original order
      followed by empty slots; something moves exactly when the slots were not
      already compacted. */
  function Compact(s: Slots): (r: Compacted)
    ensures |r.slots| == |s|
    ensures IsCompacted(r.slots)
    ensures Occupants(r.slots) == Occupants(s)
    ensures CountSome(r.slots) == CountSome(s)
    ensures r.changed <==> !IsCompacted(s)
    ensures !r.changed ==> r.slots == s
  {
    var occ := Occupants(s);
    var out := Wrap(occ) + Nones(|s| - |occ|);
    OccupantsOfPacked(occ, |s| - |occ|);
    CompactedIsPacked(s);
    Compacted(out, !IsCompacted(s))
  }

  lemma OccupantsAppendSome(s: Slots, p: Creature)
    ensures Occupants(s + [Some(p)]) == Occupants(s) + [p]
  {
    assert (s + [Some(p)])[..|s|] == s;
  }

  lemma OccupantsAppendNone(s: Slots)
    ensures Occupants(s + [None]) == Occupants(s)
  {
    assert (s + [None])[..|s|] == s;
  }

  lemma {:induction false} OccupantsOfPacked(xs: seq<Creature>, n: nat)
    ensures Occupants(Wrap(xs) + Nones(n)) == xs
    ensures IsCompacted(Wrap(xs) + Nones(n))
  {
    if n == 0 {
      assert Wrap(xs) + Nones(0) == Wrap(xs);
      OccupantsOfWrap(xs);
    } else {
      OccupantsOfPacked(xs, n - 1);
      assert Wrap(xs) + Nones(n) == (Wrap(xs) + Nones(n - 1)) + [None];
      OccupantsAppendNone(Wrap(xs) + Nones(n - 1));
    }
  }

  lemma {:induction false} OccupantsOfWrap(xs: seq<Creature>)
    ensures Occupants(Wrap(xs)) == xs
  {
    if |xs| > 0 {
      var init := xs[..|xs| - 1];
      assert Wrap(xs) == Wrap(init) + [Some(xs[|xs| - 1])];
      OccupantsOfWrap(init);
      OccupantsAppendSome(Wrap(init), xs[|xs| - 1]);
      assert init + [xs[|xs| - 1]] == xs;
    }
  }

  lemma {:induction false} CompactedIsPacked(s: Slots)
    ensures IsCompacted(s) ==> s == Wrap(Occupants(s)) + Nones(|s| - |Occupants(s)|)
  {
    if IsCompacted(s) && |s| > 0 {
      var init := s[..|s| - 1];
      assert IsCompacted(init);
      CompactedIsPacked(init);
      if s[|s| - 1].Some? {
        assert forall i :: 0 <= i < |init| ==> init[i].Some?;
        CountSomeAll(init);
        assert |Occupants(init)| == |init|;
        assert Nones<Creature>(0) == [];
        assert init == Wrap(Occupants(init));
        assert s == init + [s[|s| - 1]];
      } else {
        assert s == init + [None];
      }
    }
  }

  /** The state of the compaction loop after `read` slots: the first `write`
      slots hold the occupants seen so far, in order, the slots between are
      empty, the rest are untouched, and `changed` records whether anything
      had to move. */
  predicate CompactInv(s: Slots, t: Slots, write: int, read: int, changed: bool) {
    0 <= write <= read <= |s| && |t| == |s|
    && write == CountSome(s[..read])
    && t[..write] == Wrap(Occupants(s[..read]))
    && (forall i :: write <= i < read ==> t[i].None?)
    && t[read..] == s[read..]
    && (changed <==> !IsCompacted(s[..read]))
  }

  lemma IsCompactedAppendNone(x: Slots)
    ensures IsCompacted(x + [None]) <==> IsCompacted(x)
  {
    assert forall i :: 0 <= i < |x| ==> (x + [None])[i] == x[i];
  }

  lemma IsCompactedAppendSome(x: Slots, p: Creature)
    ensures IsCompacted(x + [Some(p)]) <==> CountSome(x) == |x|
  {
    var y := x + [Some(p)];
    if CountSome(x) == |x| {
      forall i | 0 <= i < |x|
        ensures y[i].Some?
      {
        CountSomeFull(x, i);
      }
    } else {
      var gap := CountSomeGapExists(x);
      assert y[gap].None? && y[|x|].Some?;
    }
  }

  lemma CompactStepEmpty(s: Slots, t: Slots, write: int, read: int, changed: bool)
    requires CompactInv(s, t, write, read, changed) && read < |s| && s[read].None?
    ensures CompactInv(s, t, write, read + 1, changed)
  {
    assert s[..read + 1] == s[..read] + [None];
    OccupantsAppendNone(s[..read]);
    IsCompactedAppendNone(s[..read]);
    CountSomeAppend(s[..read], [None]);
    assert CountSome([s[read]]) == 0 by { assert [s[read]][..0] == []; }
    assert t[read] == s[read];
  }

  lemma CompactStepInPlace(s: Slots, t: Slots, write: int, read: int, changed: bool)
    requires CompactInv(s, t, write, read, changed) && read < |s| && s[read].Some? && read == write
    ensures CompactInv(s, t, write + 1, read + 1, changed)
  {
    var p := s[read].value;
    assert s[..read + 1] == s[..read] + [Some(p)];
    OccupantsAppendSome(s[..read], p);
    IsCompactedAppendSome(s[..read], p);
    CountSomeAppend(s[..read], [Some(p)]);
    assert CountSome([Some(p)]) == 1 by { assert [Some(p)][..0] == []; }
    assert t[read] == s[read];
    assert t[..write + 1] == t[..write] + [Some(p)];
  }

  lemma CompactStepMove(s: Slots, t: Slots, write: int, read: int, changed: bool)
    requires CompactInv(s, t, write, read, changed) && read < |s| && s[read].Some? && read != write
    ensures CompactInv(s, t[write := s[read]][read := None], write + 1, read + 1, true)
  {
    var p := s[read].value;
    var t' := t[write := s[read]][read := None];
    assert s[..read + 1] == s[..read] + [Some(p)];
    OccupantsAppendSome(s[..read], p);
    IsCompactedAppendSome(s[..read], p);
    CountSomeAppend(s[..read], [Some(p)]);
    assert CountSome([Some(p)]) == 1 by { assert [Some(p)][..0] == []; }
    assert t'[..write + 1] == t[..write] + [Some(p)];
    assert t'[read + 1..] == t[read + 1..];
  }

  lemma CompactDone(s: Slots, t: Slots, write: int, changed: bool)
    requires CompactInv(s, t, write, |s|, changed)
    ensures t == Compact(s).slots && changed == Compact(s).changed
  {
    assert s[..|s|] == s;
    assert t == t[..write] + t[write..];
    assert t[write..] == Nones(|s| - write);
  }

  /** The source's loop (`read` scans, `write` trails behind it) computes the
      reference definition, including the `changed` flag. */
  method CompactInPlace(s: Slots) returns (t: Slots, changed: bool)
    ensures t == Compact(s).slots
    ensures changed == Compact(s).changed
  {
    t := s;
    changed := false;
    var write := 0;
    var read := 0;
    assert s[..0] == [];
    while read < |s|
      invariant CompactInv(s, t, write, read, changed)
      decreases |s| - read
    {
      var p := t[read];
      assert p == s[read];
      if p.Some? {
        if read != write {
          CompactStepMove(s, t, write, read, changed);
          t := t[write := p][read := None];
          changed := true;
        } else {
          CompactStepInPlace(s, t, write, read, changed);
        }
        write := write + 1;
      } else {
        CompactStepEmpty(s, t, write, read, changed);
      }
      read := read + 1;
    }
    CompactDone(s, t, write, changed);
  }

  /** Compacting twice moves nothing the second time. */
  lemma CompactIdempotent(s: Slots)
    ensures Compact(Compact(s).slots) == Compacted(Compact(s).slots, false)
  {
  }

  /** Adding to compacted slots with room appends the creature after the
      current occupants, so the slots stay compacted. */
  lemma TryAddToCompacted(k: Kind, s: Slots, p: Creature)
    requires Wf(k, s) && IsCompacted(s) && CountSome(s) < Capacity(k)
    ensures Occupants(TryAdd(k, s, p).slots) == Occupants(s) + [p]
    ensures IsCompacted(TryAdd(k, s, p).slots)
  {
    var occ := Occupants(s);
    var n := |s| - |occ|;
    CompactedIsPacked(s);
    FirstEmptyOfPacked(occ, n);
    FillFirstOfPacked(occ, n, p);
    OccupantsOfPacked(occ + [p], n - 1);
  }

  lemma {:induction false} FirstEmptyOfPacked(xs: seq<Creature>, n: nat)
    requires n > 0
    ensures FirstEmpty(Wrap(xs) + Nones(n)) == Some(|xs|)
  {
    var s := Wrap(xs) + Nones(n);
    if |xs| > 0 {
      assert s[1..] == Wrap(xs[1..]) + Nones(n);
      FirstEmptyOfPacked(xs[1..], n);
    }
  }

  lemma FillFirstOfPacked(xs: seq<Creature>, n: nat, p: Creature)
    requires n > 0
    ensures (Wrap(xs) + Nones(n))[|xs| := Some(p)] == Wrap(xs + [p]) + Nones(n - 1)
  {
    var a := (Wrap(xs) + Nones(n))[|xs| := Some(p)];
    var b := Wrap(xs + [p]) + Nones(n - 1);
    assert |a| == |b|;
    forall i | 0 <= i < |a|
      ensures a[i] == b[i]
    {
      if i < |xs| {
        assert (xs + [p])[i] == xs[i];
      } else if i == |xs| {
        assert (xs + [p])[i] == p;
      }
    }
  }

  // ---------------- Loading ----------------

  /** `Sanitize`: a creature without species is treated as empty. */
  function Sanitize(p: Option<Creature>): Option<Creature> {
    if p.Some? && p.value.species.Some? then p else None
  }

  /** `SetFromList` (party): slot i takes the sanitized list entry i, or
      stays empty past the end of the list or when there is no list. */
  function SetFromList(list: Option<Slots>): (r: Slots)
    ensures Wf(Party, r)
    ensures forall i :: 0 <= i < |r| ==>
              (r[i].Some? <==> list.Some? && i < |list.value| && list.value[i].Some?
                               && list.value[i].value.species.Some?)
    ensures forall i :: 0 <= i < |r| && r[i].Some? ==> r[i] == list.value[i]
  {
    seq(Capacity(Party), i requires 0 <= i < Capacity(Party) =>
      if list.Some? && i < |list.value| then Sanitize(list.value[i]) else None)
  }

  /** Whether the mask (or, without a mask entry, the list) marks slot i as taken. */
  function MaskSays(list: Option<Slots>, occupied: Option<seq<bool>>, i: nat): bool {
    if occupied.Some? && i < |occupied.value| then occupied.value[i]
    else list.Some? && i < |list.value| && list.value[i].Some?
  }

  /** `SetFromMasked` (party and box alike): slot i is filled only when the
      mask says so and the list holds a creature with a species there. */
  function SetFromMasked(k: Kind, list: Option<Slots>, occupied: Option<seq<bool>>): (r: Slots)
    ensures Wf(k, r)
    ensures forall i :: 0 <= i < |r| ==>
              (r[i].Some? <==> MaskSays(list, occupied, i) && list.Some? && i < |list.value|
                               && list.value[i].Some? && list.value[i].value.species.Some?)
    ensures forall i :: 0 <= i < |r| && r[i].Some? ==> r[i] == list.value[i]
  {
    seq(Capacity(k), i requires 0 <= i < Capacity(k) =>
      if MaskSays(list, occupied, i) then Sanitize(if list.Some? && i < |list.value| then list.value[i] else None)
      else None)
  }

  /** The occupancy mask written next to the slots when saving. */
  function OccupiedMask(s: Slots): (r: seq<bool>)
    ensures |r| == |s|
    ensures forall i :: 0 <= i < |s| ==> (r[i] <==> s[i].Some?)
  {
    seq(|s|, i requires 0 <= i < |s| => s[i].Some?)
  }

  predicate AllHaveSpecies(s: Slots) {
    forall i :: 0 <= i < |s| && s[i].Some? ==> s[i].value.species.Some?
  }

  /** Writing the slots with their mask and reading them back restores them,
      provided every occupant has a species. */
  lemma MaskedRoundTrip(k: Kind, s: Slots)
    requires Wf(k, s) && AllHaveSpecies(s)
    ensures SetFromMasked(k, Some(s), Some(OccupiedMask(s))) == s
  {
  }

  /** A saved slot list with its occupancy mask (`PartyDTO`, `BoxDTO`);
      either list may be missing. */
  datatype SlotsDTO = SlotsDTO(slots: Option<Slots>, occupied: Option<seq<bool>>)

  /** `new PCBox(data)`: the first thirty entries of the list, unsanitized. */
  function BoxFromData(data: Option<Slots>): (r: Slots)
    ensures Wf(Box, r)
    ensures forall i :: 0 <= i < |r| ==> r[i] == (if data.Some? && i < |data.value| then data.value[i] else None)
  {
    seq(Capacity(Box), i requires 0 <= i < Capacity(Box) =>
      if data.Some? && i < |data.value| then data.value[i] else None)
  }

  function EmptyBox(): (r: Slots)
    ensures Wf(Box, r) && CountSome(r) == 0
  {
    CountSomeNones<Creature>(Capacity(Box));
    Nones(Capacity(Box))
  }

  function EmptyParty(): (r: Slots)
    ensures Wf(Party, r) && CountSome(r) == 0
  {
    CountSomeNones<Creature>(Capacity(Party));
    Nones(Capacity(Party))
  }
}

=== FILE: turns.dfy ===
/** Turn resolution (`TurnController`): the queued player decision, its
    priority, and the execution of one move. The move list entry after
    `TryConsumePP(1)` is not part of this model: the parameter `consumed` is
    that entry, or `None` when the call refuses. The accuracy draw and the
    critical draw are parameters as well. Every wait is an atomic step. */
module Turns {
  import opened Common
  import opened Data
  import MoveExecutor
  import WildAI
  import C = Combatant

  /** `EncounterResult`. */
  datatype EncounterResult = PlayerFainted | EnemyFainted | Capture | Run | ForcedEnd

  /** The queued player decision (`queuedPlayerMoveIndex`, `queuedRun`,
      `queuedCapture`, `queuedSwitchIn`). */
  datatype Queue = Queue(moveIndex: Option<int>, run: bool, capture: bool, switchIn: Option<Creature>)

  /** `ClearQueued`. */
  const EmptyQueue := Queue(None, false, false, None)

  /** The condition the player turn waits for. */
  predicate HasDecision(q: Queue) {
    q.moveIndex.Some? || q.run || q.capture || q.switchIn.Some?
  }

  function QueueMove(q: Queue, moveIndex: int): Queue { q.(moveIndex := Some(moveIndex)) }
  function QueueRun(q: Queue): Queue { q.(run := true) }
  function QueueCapture(q: Queue): Queue { q.(capture := true) }
  function QueueSwitch(q: Queue, switchIn: Option<Creature>): Queue { q.(switchIn := switchIn) }

  /** The draws of one move execution. */
  datatype Draws = Draws(consumed: Option<MoveSlot>, roll: real, critDraw: int)

  datatype Pair = Pair(attacker: C.Combatant, defender: C.Combatant)

  /** The entry `ExecuteMove` looks at: none without a creature, a move list,
      or an index inside it. */
  function MoveAt(c: C.Combatant, moveIndex: int): Option<MoveSlot> {
    if c.model.Some? && c.model.value.moves.Some? && 0 <= moveIndex < |c.model.value.moves.value|
    then c.model.value.moves.value[moveIndex]
    else None
  }

  /** `ExecuteMove`: an empty entry, one without move data, or a refused PP
      use has no effect. Otherwise the entry is replaced by the consumed one;
      a miss ends there, and a hit applies `ComputeDamage` to the defender. */
  function ExecuteMove(attacker: C.Combatant, defender: C.Combatant, moveIndex: int, d: Draws): (r: Pair)
    ensures (MoveAt(attacker, moveIndex).None? || MoveAt(attacker, moveIndex).value.data.None? || d.consumed.None?)
            ==> r == Pair(attacker, defender)
    ensures r.attacker.model.Some? <==> attacker.model.Some?
    ensures attacker.model.Some? ==>
              r.attacker.model.value.currentHP == attacker.model.value.currentHP
              && r.attacker.model.value == attacker.model.value.(moves := r.attacker.model.value.moves)
    ensures r.attacker == attacker.(model := r.attacker.model)
    ensures MoveAt(attacker, moveIndex).Some? && MoveAt(attacker, moveIndex).value.data.Some? && d.consumed.Some? ==>
              var mv := MoveAt(attacker, moveIndex).value;
              && r.attacker.model.value.moves == Some(attacker.model.value.moves.value[moveIndex := d.consumed])
              && (!MoveExecutor.CheckAccuracy(mv.data.value.accuracy, d.roll) ==> r.defender == defender)
              && (MoveExecutor.CheckAccuracy(mv.data.value.accuracy, d.roll) ==>
                    r.defender == C.ApplyDamage(defender,
                      MoveExecutor.ComputeDamage(r.attacker.model, defender.model, mv.data, d.critDraw)))
  {
    var mv := MoveAt(attacker, moveIndex);
    if mv.None? || mv.value.data.None? then Pair(attacker, defender)
    else if d.consumed.None? then Pair(attacker, defender)
    else
      var model := attacker.model.value;
      var spent := attacker.(model := Some(model.(moves := Some(model.moves.value[moveIndex := d.consumed]))));
      if !MoveExecutor.CheckAccuracy(mv.value.data.value.accuracy, d.roll) then Pair(spent, defender)
      else
        var damage := MoveExecutor.ComputeDamage(spent.model, defender.model, mv.value.data, d.critDraw);
        Pair(spent, C.ApplyDamage(defender, damage))
  }

  datatype Battle = Battle(player: C.Combatant, enemy: C.Combatant)

  /** What a player turn did. */
  datatype TurnKind = Waiting | Ran | CaptureTurn | SwitchTurn | MoveTurn

  /** A player turn's result; `raised` is the encounter-ended event it raised. */
  datatype PlayerStep = PlayerStep(battle: Battle, queue: Queue, kind: TurnKind, raised: Option<EncounterResult>)

  /** `DoPlayerTurn`, as one step once a decision is queued. */
  function DoPlayerTurn(b: Battle, q: Queue, d: Draws): (r: PlayerStep)
    ensures !HasDecision(q) ==> r == PlayerStep(b, q, Waiting, None)
    ensures HasDecision(q) ==> r.queue == EmptyQueue && r.kind != Waiting
    ensures r.raised.Some? <==> r.kind == Ran
    ensures r.raised.Some? ==> r.raised.value == Run
    ensures r.kind != MoveTurn ==> r.battle == b
  {
    if !HasDecision(q) then PlayerStep(b, q, Waiting, None)
    else if q.run then PlayerStep(b, EmptyQueue, Ran, Some(Run))
    else if q.capture then PlayerStep(b, EmptyQueue, CaptureTurn, None)
    else if q.switchIn.Some? then PlayerStep(b, EmptyQueue, SwitchTurn, None)
    else
      var p := ExecuteMove(b.player, b.enemy, q.moveIndex.value, d);
      PlayerStep(Battle(p.attacker, p.defender), EmptyQueue, MoveTurn, None)
  }

  /** `DoEnemyTurn`: the wild move choice executed against the player. The
      enemy only spends the chosen entry and keeps its HP; the player only
      loses HP, by exactly `ComputeDamage` on a hit. */
  function DoEnemyTurn(b: Battle, d: Draws): (r: Battle)
    ensures r.enemy == b.enemy.(model := r.enemy.model)
    ensures b.enemy.model.Some? ==>
              r.enemy.model.Some? && r.enemy.model.value == b.enemy.model.value.(moves := r.enemy.model.value.moves)
    ensures b.player.model.Some? ==>
              r.player.model.Some? && r.player.model.value == b.player.model.value.(currentHP := r.player.model.value.currentHP)
    ensures var mv := MoveAt(b.enemy, WildAI.ChooseMoveIndex(b.enemy.model));
      mv.None? || mv.value.data.None? || d.consumed.None? ==> r == b
    ensures var i := WildAI.ChooseMoveIndex(b.enemy.model);
      var mv := MoveAt(b.enemy, i);
      mv.Some? && mv.value.data.Some? && d.consumed.Some? ==>
        && r.enemy.model.value.moves == Some(b.enemy.model.value.moves.value[i := d.consumed])
        && (!MoveExecutor.CheckAccuracy(mv.value.data.value.accuracy, d.roll) ==> r.player == b.player)
        && (MoveExecutor.CheckAccuracy(mv.value.data.value.accuracy, d.roll) ==>
              r.player == C.ApplyDamage(b.player,
                MoveExecutor.ComputeDamage(r.enemy.model, b.player.model, mv.value.data, d.critDraw)))
  {
    var p := ExecuteMove(b.enemy, b.player, WildAI.ChooseMoveIndex(b.enemy.model), d);
    Battle(p.defender, p.attacker)
  }

  /** The priority run > capture > switch > move: each queued action wins
      over every one after it, whatever else is queued. */
  lemma ActionPriority(b: Battle, q: Queue, d: Draws)
    ensures q.run ==> DoPlayerTurn(b, q, d).kind == Ran
    ensures !q.run && q.capture ==> DoPlayerTurn(b, q, d).kind == CaptureTurn
    ensures !q.run && !q.capture && q.switchIn.Some? ==> DoPlayerTurn(b, q, d).kind == SwitchTurn
    ensures !q.run && !q.capture && q.switchIn.None? && q.moveIndex.Some? ==> DoPlayerTurn(b, q, d).kind == MoveTurn
  {
  }

  /** Queuing a run makes the next player turn a run, whatever else is
      queued, and it changes nothing but the queue. */
  lemma RunOverridesEverything(b: Battle, q: Queue, d: Draws)
    ensures DoPlayerTurn(b, QueueRun(q), d) == PlayerStep(b, EmptyQueue, Ran, Some(Run))
  {
  }

  /** A miss uses up the move entry but leaves the defender untouched. */
  lemma MissSparesDefender(attacker: C.Combatant, defender: C.Combatant, moveIndex: int, d: Draws)
    requires MoveAt(attacker, moveIndex).Some? && MoveAt(attacker, moveIndex).value.data.Some? && d.consumed.Some?
    requires !MoveExecutor.CheckAccuracy(MoveAt(attacker, moveIndex).value.data.value.accuracy, d.roll)
    ensures ExecuteMove(attacker, defender, moveIndex, d).defender == defender
    ensures ExecuteMove(attacker, defender, moveIndex, d).attacker.model.value.moves.value[moveIndex] == d.consumed
  {
  }

  /** A hit with a damaging move, a real defender and at least 1 HP left on
      it lowers the defender's HP. */
  lemma HitHurts(attacker: C.Combatant, defender: C.Combatant, moveIndex: int, d: Draws)
    requires MoveAt(attacker, moveIndex).Some? && MoveAt(attacker, moveIndex).value.data.Some? && d.consumed.Some?
    requires var mv := MoveAt(attacker, moveIndex).value.data.value;
      MoveExecutor.CheckAccuracy(mv.accuracy, d.roll) && mv.power > 0 && mv.category != Status
    requires defender.model.Some? && defender.model.value.currentHP > 0
    ensures ExecuteMove(attacker, defender, moveIndex, d).defender.model.value.currentHP < defender.model.value.currentHP
  {
    var mv := MoveAt(attacker, moveIndex).value;
    var r := ExecuteMove(attacker, defender, moveIndex, d);
    assert MoveExecutor.ComputeDamage(r.attacker.model, defender.model, mv.data, d.critDraw) >= 1;
  }
}
